=== FILE: README.md ===
# A verified model of the Copilot coding-agent scripts

The repository is a set of Python scripts. They demonstrate a GitHub "coding
agent" workflow:

- a heuristic pull-request reviewer;
- a pull-request merge assistant;
- two agents that turn an issue into a plan, file changes, commits and a pull request;
- a git statistics reporter;
- three small webhook servers;
- a setup script that prepares test material for the reviewer;
- sample code used by the demonstrations.

Every script sits between HTTP requests, `subprocess` calls, `input()`
prompts and file I/O. This model keeps the decisions the scripts make. The
outcomes of the surrounding I/O become parameters:

- the decoded GitHub answers;
- the lines of a `.env` file;
- the user's answers;
- the output of a git command;
- whether a file exists.

Objects whose fields the scripts update in place are classes with `modifies`
clauses:

- the process environment;
- the agent's working tree;
- the draft pull request and the agent holding it;
- the webhook's event counter;
- the global counter.

Loops that build lists or maps are methods, proved against specification
functions. Those functions then carry the lemmas about the behaviour.

Modules, one per script, plus two shared ones:

| module | file | script |
|---|---|---|
| `Basics` | basics.dfy | `Option`, `Sum` |
| `Text` | text.dfy | Python's `strip`, `lower`, `split`, `join`, `in` on strings, `int()` and `str()` of integers |
| `EnvFile` | env_file.dfy | the `.env` loader shared by code_review_agent.py, pr_merge_agent.py and code_review_agent_setup.py |
| `RenderWebhook` | render_webhook.dfy | render_webhook_server.py |
| `CodeReview` | code_review.dfy | code_review_agent.py |
| `PrMerge` | pr_merge.dfy | pr_merge_agent.py |
| `CopilotReal` | copilot_real.dfy | copilot_agent_416.py |
| `CopilotDemo` | copilot_demo.dfy | copilot_agent_demo.py |
| `GitAnalyzer` | git_analyzer.dfy | git.py |
| `ReviewSetup` | review_setup.dfy | code_review_agent_setup.py |
| `ActionWebhook` | action_webhook.dfy | action_webhook.py |
| `BuggyCode` | buggy_code.dfy | buggy_code_for_review.py |
| `SimpleTests` | simple_tests.dfy | test_simple.py |

## Model

| member | source | states |
|---|---|---|
| `EnvFile.LoadEnvFile` | code_review_agent.py:22-31 | With no `.env` file nothing changes. Otherwise every accepted line is written into the environment, in line order. Success holds exactly when the OS accepts every entry. On failure, exactly the entries before the first rejected one have been written. |
| `EnvFile.LastDefinitionWins` | pr_merge_agent.py:23-32 | For a key defined on several lines, the map holds the value of its last defining line. |
| `EnvFile.KeysComeFromLines` | code_review_agent_setup.py:23-32 | Every key of the resulting map comes from an accepted line of the file. |
| `EnvFile.SplitsAtFirstEquals` | code_review_agent_setup.py:29-32 | A line `key=value` splits at the first `=`, and key and value are stripped. A value may contain further `=`. |
| `EnvFile.PresentLastWins` | pr_merge_agent.py:29-32 | Applying entries in order, the last entry for a key decides its value. |
| `RenderWebhook.CollectEnvVars` | render_webhook_server.py:21-29 | The dictionary built by the read loop is the quote-stripping map of the file. Its insertion order is the file's keys in the order of their first accepted lines. |
| `RenderWebhook.FirstKeysDistinct` | render_webhook_server.py:29 | A key is listed once in the insertion order, however often it is assigned. |
| `RenderWebhook.FirstKeysAreKeys` | render_webhook_server.py:29 | The insertion order lists exactly the keys of the dictionary. |
| `RenderWebhook.FirstKeysInOrder` | render_webhook_server.py:25-29 | Each key is listed after every key whose first entry comes before its own first entry. |
| `RenderWebhook.LoadEnvVars` | render_webhook_server.py:18-34 | Without a file: an empty result and no change. Otherwise the result is the file's dictionary, and the environment gains all of its pairs, exactly when the OS accepts them all. On failure, the written keys are the insertion order up to the first key whose pair the OS refuses, and the environment gains exactly their pairs. |
| `RenderWebhook.QuotedRefinesPlain` | render_webhook_server.py:25-29 | The quote-stripping loader has the same keys as the shared loader. Each value is the shared value with its quotes stripped. |
| `RenderWebhook.GithubWebhook` | render_webhook_server.py:71-97 | A body that is not JSON gives the "Invalid JSON" answer, and only it does. A `pull_request` event gives the success answer when the body is an object, and an escaping exception when it is JSON but no object, or an object whose `pull_request` field is present but no object. Any other event with a JSON body is ignored. |
| `RenderWebhook.PrNumberReadsBack` | render_webhook_server.py:86-95 | The success message carries the PR number of the payload, and that number reads back. |
| `CodeReview.CollectIssues` | code_review_agent.py:140-173 | The issue list a file's loop builds is the file's rule table. |
| `CodeReview.CommentsForIssues` | code_review_agent.py:176-188 | One comment per issue, or the single "looks good" comment. |
| `CodeReview.AnalyzeCodeChanges` | code_review_agent.py:125-190 | The comments are the per-file comments, file by file, in input order. |
| `CodeReview.IssuesAreRuleMessages` | code_review_agent.py:142-173 | Every issue is one of the rule messages. |
| `CodeReview.LooksGoodExactlyWhenNoIssues` | code_review_agent.py:176-188 | Every file gets at least one comment. Every comment is about that file and starts with the review prefix. The "looks good" comment appears exactly when no rule fired, and then it is the only comment. Otherwise there is one comment per issue. |
| `CodeReview.LargeChangeExactlyWhenManyAdditions` | code_review_agent.py:143-144 | The large-change issue is raised exactly when additions exceed 100, whatever the extension. |
| `CodeReview.PythonRules` | code_review_agent.py:147-156 | `print(`, TODO/FIXME and `import *` are each reported exactly for `.py` files whose patch contains them. |
| `CodeReview.ScriptRules` | code_review_agent.py:158-164 | `console.log` and `var ` are reported exactly for `.js`/`.ts` files that are not `.py` files and whose patch contains them. |
| `CodeReview.MarkdownRule` | code_review_agent.py:166-169 | The large-documentation issue is raised exactly for `.md` files that are neither `.py`, `.js` nor `.ts` files and whose patch has more than 50 newline-separated pieces. |
| `CodeReview.MessagesDistinct` | code_review_agent.py:144-186 | The rule messages and the "looks good" text are pairwise distinct. |
| `CodeReview.SecurityRule` | code_review_agent.py:171-173 | The security issue is raised exactly when the lower-cased patch mentions password, secret or token. It is raised at most once, and it comes last. |
| `CodeReview.SizeFirst` | code_review_agent.py:142-144 | When the size rule fires, it is the first issue. |
| `CodeReview.MissingPatchOnlySize` | code_review_agent.py:133 | A file without a patch gets only the size issue, if any. |
| `CodeReview.ReviewCommentsAppend` | code_review_agent.py:131-188 | Reviewing two lists of files gives the comments of the first, then those of the second. |
| `CodeReview.CommentsCoverFiles` | code_review_agent.py:131-188 | The commented file names are exactly the input file names. |
| `CodeReview.PostReviewComments` | code_review_agent.py:193-249 | With no comments nothing is sent and the result is true. Otherwise the review body is sent. The result is true exactly when the answer is 200 and carries `html_url`. |
| `CodeReview.BodyListsEveryComment` | code_review_agent.py:218-219 | The review body contains the entry of every comment. |
| `CodeReview.SummaryCountsFiles` | code_review_agent.py:213 | The summary line of the body counts the distinct reviewed files. |
| `PrMerge.GetUserInputs` | pr_merge_agent.py:35-60 | The owner and repository are the answers or their defaults. The PR number is taken from the first answer line that parses as an integer, and every earlier line does not parse. There is no result exactly when no line parses. |
| `PrMerge.TallyReviews` | pr_merge_agent.py:118-137 | Approvals, rejections and comments are the numbers of reviewers whose latest review has exactly that state. |
| `PrMerge.CountLatest` | pr_merge_agent.py:124-137 | Counting over the latest-review map gives, per state, the number of reviewers in that state. |
| `PrMerge.LatestReviewers` | pr_merge_agent.py:118-122 | The latest-review map has exactly one entry per reviewer login. |
| `PrMerge.LaterReviewWins` | pr_merge_agent.py:119-122 | A reviewer's recorded state is that of their last review in the list. |
| `PrMerge.CountsBoundedByReviewers` | pr_merge_agent.py:128-137 | Approvals, rejections and comments together are at most the number of distinct reviewers. |
| `PrMerge.CheckPrReviews` | pr_merge_agent.py:107-154 | There are reviews exactly when the answer is 200 with a non-empty list. Otherwise all flags are false. Approved means some approval and no rejection; blocked means some rejection; the two never hold together. |
| `PrMerge.CheckStatusChecks` | pr_merge_agent.py:169-206 | On a 200 status answer, `all_passed` holds exactly when the state is `success`. A non-200 status answer passes. A failed PR fetch or an exception fails. There are checks exactly when a 200 answer lists statuses. |
| `PrMerge.MergeAgentMain` | pr_merge_agent.py:282-376 | A merge is attempted only with a token and an open PR that is not known to be unmergeable. It also needs a confirming answer, and an exact `y` override when the merge is unsafe. Deletion is requested exactly after a successful merge of a branch other than main and master, with a confirming answer. The exit code is 1 exactly on an early exit or a failed merge, and 0 otherwise. |
| `PrMerge.MergeAttemptedExactly` | pr_merge_agent.py:327-354 | Past the early exits, a merge is attempted exactly when the PR is safe or overridden with `y`, and confirmed. |
| `PrMerge.ApprovalNotRequired` | pr_merge_agent.py:327-332 | Review results that agree on `blocked` lead to the same run: approval is not required. |
| `PrMerge.OverrideNeedsExactlyY` | pr_merge_agent.py:341-344 | An unsafe PR answered `yes` at the override prompt is cancelled with exit code 0. |
| `PrMerge.ConfirmIgnoresCaseAndBlanks` | pr_merge_agent.py:350-352 | ` YES ` confirms the merge. |
| `PrMerge.ConfirmAcceptsCapitalY` | pr_merge_agent.py:350-352 | `Y` confirms the merge. |
| `PrMerge.ConfirmRejectsNo` | pr_merge_agent.py:350-352 | `no` does not confirm the merge. |
| `PrMerge.RejectionBlocks` | pr_merge_agent.py:327-344 | A PR with a rejection is unsafe. It is merged only after the user answers exactly `y` to the override prompt. Without that answer nothing is merged and no branch is deleted. |
| `CopilotReal.RepoCoordinates` | copilot_agent_416.py:90-91 | Owner and name exist exactly when the URL has a `/`, and the owner contains no `/`. |
| `CopilotReal.CoordinatesRoundTrip` | copilot_agent_416.py:90-91 | `host/owner/name.git` gives back owner and name, when the name holds no `.git` of its own. |
| `CopilotReal.CoordinatesOf` | copilot_agent_416.py:90-91 | For `host/owner/last`, the owner is the second-to-last segment and the name is the last segment with every `.git` removed. |
| `CopilotReal.BareCoordinatesRoundTrip` | copilot_agent_416.py:90-91 | A URL without the `.git` suffix gives back owner and name too. |
| `CopilotReal.EveryGitRemoved` | copilot_agent_416.py:90 | Every `.git` in the last segment is removed, not only the suffix: `foo.github.io.git` becomes `foohub.io`. |
| `CopilotReal.CreateImplementationPlan` | copilot_agent_416.py:231-300 | The plan is never empty. It is either the default plan or the keyword-selected steps. |
| `CopilotReal.PlanSteps` | copilot_agent_416.py:235-289 | Each of the four steps is in the plan exactly when its keywords occur in the lower-cased description; README also when README.md is absent. The default plan is used exactly when no step is selected. |
| `CopilotReal.LongerKeywordsRedundant` | copilot_agent_416.py:258-266 | The `testing` and `configuration` keywords add nothing to `test` and `config`. |
| `CopilotReal.Account` | copilot_agent_416.py:334-343 | The change type is `create` exactly when the file had no lines. Lines before plus added minus removed equals the newline-separated pieces of the content. At most one of added and removed is non-zero. |
| `CopilotReal.Preview` | copilot_agent_416.py:345 | Content of at most 200 characters is kept. Longer content becomes its first 200 characters followed by `...`. |
| `CopilotReal.PreviewIsContentExactly` | copilot_agent_416.py:345 | The preview has at most 203 characters. It equals the content exactly when the content is short, or is itself 203 characters ending in `...`. |
| `CopilotReal.GenerateRealCodeChanges` | copilot_agent_416.py:302-350 | The changes and the new working tree are those of writing the plan's files one after the other. |
| `CopilotReal.OutcomeFollowsPlan` | copilot_agent_416.py:307-348 | One change per step, in plan order, with the step's file and description. |
| `CopilotReal.OutcomeFiles` | copilot_agent_416.py:331-332 | The tree afterwards holds the old files plus every planned file. |
| `CopilotReal.LastWriteWins` | copilot_agent_416.py:331-332 | A file written by several steps holds the content of the last of them. |
| `CopilotReal.KeepsUnwritten` | copilot_agent_416.py:331-332 | Files no step names are left unchanged. |
| `CopilotReal.NewFilesAreCreated` | copilot_agent_416.py:323-340 | A step whose file did not exist, and which no earlier step wrote, is a `create` removing nothing. |
| `CopilotReal.OfKindIn` | copilot_agent_416.py:677-680 | A group holds exactly the changes of its kind, and no more changes than there are. |
| `CopilotReal.GroupsInOrder` | copilot_agent_416.py:673-691 | Each group is one kind's message with all the changes of that kind. A kind has a group exactly when it has changes. The groups come in the order docs, Python, config, other. |
| `CopilotReal.FirstKind` | copilot_agent_416.py:677-680 | Every change is of some kind; "other" is exactly none of the first three. |
| `CopilotReal.EveryChangeGrouped` | copilot_agent_416.py:673-691 | Every change lands in some emitted group. |
| `CopilotReal.ReadmePyInTwoGroups` | copilot_agent_416.py:677-678 | `readme.py` lands in both the docs and the Python group. |
| `CopilotReal.CreateRealCommits` | copilot_agent_416.py:609-660 | The commits exist exactly when the branch was created and every group's `git add`, `git commit` and `git rev-parse` succeeded. They are then one commit per group, in group order, each with git's sha, the group's message and its changes. |
| `CopilotReal.ReadmePyNothingNewForPython` | copilot_agent_416.py:627-638 | For a lone `readme.py` change, the Python group (lines 677-678 put the file in both groups) stages nothing that the docs group did not already commit. |
| `CopilotReal.CommitsTotal` | copilot_agent_416.py:728-729 | The PR totals are the sums over the groups of the commits. |
| `CopilotReal.GroupIfAnyTotal` | copilot_agent_416.py:682-689 | An emitted or omitted group contributes exactly the sum over its kind. |
| `CopilotReal.KindsSum` | copilot_agent_416.py:677-680 | Summing over the four kinds counts each change once, plus once more for each change that is both docs and Python or both docs and config. |
| `CopilotReal.PrTotalsCountOverlapTwice` | copilot_agent_416.py:728-729 | The PR totals equal the sum over all changes, plus the sum over changes that sit in two groups. |
| `CopilotDemo.CreateImplementationPlan` | copilot_agent_demo.py:131-196 | The plan has 3 steps for an API request, 2 for a UI request and 2 for the bug label, added up. |
| `CopilotDemo.PlanBlocks` | copilot_agent_demo.py:136-196 | The API block comes first, the UI block next and the bug block last. The plan is empty exactly when no block applies. |
| `CopilotDemo.BuildAsksForUi` | copilot_agent_demo.py:161 | The bare substring test makes "build" a UI request. |
| `CopilotDemo.BugLabelIsExact` | copilot_agent_demo.py:177 | Only the exact label `bug` adds bug steps. |
| `CopilotDemo.BoundsOf` | copilot_agent_demo.py:208-223 | Every class's random ranges are non-empty. |
| `CopilotDemo.GenerateCodeChanges` | copilot_agent_demo.py:198-237 | One change per step, each with the type and line counts its classification allows. |
| `CopilotDemo.PossibleRanges` | copilot_agent_demo.py:208-223 | Any generated change adds 10 to 120 lines and removes 0 to 10. A `create` removes nothing. |
| `CopilotDemo.TestFileBeatsApi` | copilot_agent_demo.py:153-158 | The test step of the API block is classified as a test file. |
| `CopilotDemo.ValidateChanges` | copilot_agent_demo.py:239-272 | `all_passed` holds exactly when every validation passed, and the result is true regardless. |
| `CopilotDemo.CreateCommits` | copilot_agent_demo.py:274-297 | One commit per group, in group order, with the group's message and changes and an `abc` sha of four random digits. |
| `CopilotDemo.CommitsCoverChanges` | copilot_agent_demo.py:280-294 | Every change appears in some commit. |
| `CopilotDemo.InGroupOf` | copilot_agent_demo.py:304-307 | A group holds exactly the changes matching its predicate. |
| `CopilotDemo.GroupsInOrder` | copilot_agent_demo.py:299-318 | Each group is one kind's message with all the changes of that kind. A kind has a group exactly when it has changes. The groups come in the order API, UI, other, tests. |
| `CopilotDemo.FirstGroup` | copilot_agent_demo.py:304-307 | Every change matches some group; "other" is exactly none of api, test and ui. |
| `CopilotDemo.EveryChangeCommitted` | copilot_agent_demo.py:299-318 | Every change lands in some emitted group. |
| `CopilotDemo.ApiTestPath` | copilot_agent_demo.py:304-305 | `tests/test_api.py` matches both the api and the test predicate. |
| `CopilotDemo.ApiTestPathNotUi` | copilot_agent_demo.py:306 | `tests/test_api.py` is not a UI change. |
| `CopilotDemo.ApiTestInTwoCommits` | copilot_agent_demo.py:304-317 | `tests/test_api.py` alone gives two groups, api and test, both holding it. |
| `CopilotDemo.PullRequest.constructor` | copilot_agent_demo.py:368-376 | A new pull request is a draft with the given id, title and commits. |
| `CopilotDemo.CopilotAgent.constructor` | copilot_agent_demo.py:79-83 | A new agent has no pull request. |
| `CopilotDemo.CopilotAgent.CreateDraftPullRequest` | copilot_agent_demo.py:320-380 | Without commits, no pull request is created. Otherwise a fresh draft titled `Fix: <issue>`, with a four-digit id and the commits, becomes the current one. |
| `CopilotDemo.CopilotAgent.HandleReviewFeedback` | copilot_agent_demo.py:400-432 | Feedback containing `approve` in any case sets the status to approved and keeps the commits. Other feedback keeps the status and appends exactly one feedback commit, with a `def` sha. Id and title never change. Without a pull request it raises. |
| `CopilotDemo.SummaryCounts` | copilot_agent_demo.py:476-481 | Both counts are 0 without a pull request. Otherwise: the number of commits, and a file count no larger than the number of changes. |
| `CopilotDemo.FilesBounded` | copilot_agent_demo.py:477-481 | Distinct changed files are at most the number of changes. |
| `CopilotDemo.FeedbackCounts` | copilot_agent_demo.py:413-430 | A feedback commit adds `src/core/main.py` to the changed files, and adds one to the count exactly when that file was new. |
| `GitAnalyzer.RunGitCommand` | git.py:79-95 | A successful command gives the slice of its output between the leading and the trailing whitespace, with no whitespace at either end. A failing one gives nothing. |
| `GitAnalyzer.GetCommitCount` | git.py:97-103 | The parsed integer of the stripped output; 0 when the command fails or the output is no integer. |
| `GitAnalyzer.CommitCountReadsBack` | git.py:97-103 | A count printed by git, with its newline, reads back as that count. |
| `GitAnalyzer.CommitCountFallback` | git.py:101-103 | Output holding a non-numeric character gives 0. |
| `GitAnalyzer.GetFileCount` | git.py:105-111 | 0 for a failure or blank output; otherwise the number of newlines plus one. |
| `GitAnalyzer.FileCountOfListing` | git.py:108-109 | A listing of paths, one per line, counts each path once. |
| `GitAnalyzer.ContributorOf` | git.py:141-145 | A line yields a name exactly when it is non-blank and contains a tab. The name is the text after its first tab. |
| `GitAnalyzer.GetContributors` | git.py:135-148 | The contributors are, in line order, the names of the lines of the stripped output; none when the command fails. |
| `GitAnalyzer.ShortlogLineYieldsName` | git.py:138-145 | A `shortlog -sn` line `<blanks><count><tab><name>` yields the name. |
| `GitAnalyzer.ContributorSection` | git.py:208-214 | The first ten contributors are listed, numbered from 1. A trailing `... and N more` line appears exactly when there are more than ten. |
| `GitAnalyzer.MoreCountAddsUp` | git.py:213-214 | The number in the trailing line reads back as the contributors not listed. |
| `ReviewSetup.Fragments` | code_review_agent_setup.py:205-214 | After `n` sections there are 3 + 4n fragments, the heading first. |
| `ReviewSetup.BuildLargeDoc` | code_review_agent_setup.py:205-216 | The loop builds the heading then the sixty sections, and the content is their join with the line end. |
| `ReviewSetup.SectionsInOrder` | code_review_agent_setup.py:210-214 | Section `i`'s four fragments sit at positions 3 + 4(i-1) up to 3 + 4i. |
| `ReviewSetup.FragmentsOneLine` | code_review_agent_setup.py:206-214 | With a line end holding no newline, no fragment holds one. |
| `ReviewSetup.WrittenDocEscapesMarkdownRule` | code_review_agent_setup.py:206-216 | As written the document holds no newline and is one line, so the reviewer's Markdown rule stays silent on its patch. |
| `ReviewSetup.IntendedDocTriggersMarkdownRule` | code_review_agent_setup.py:210-216 | With real newlines the document has at least 243 lines, and the Markdown rule reports it. |
| `ActionWebhook.CountOnlyInOpenedIssue` | action_webhook.py:34-64 | Only an opened issue's message depends on the event count. |
| `ActionWebhook.OpenedIssueNumberReadsBack` | action_webhook.py:35-37 | An opened issue's message carries the running total, and it reads back. |
| `ActionWebhook.PushAndPingIgnoreAction` | action_webhook.py:54-60 | `push` and `ping` give their fixed messages whatever the action. |
| `ActionWebhook.OtherEventNamed` | action_webhook.py:62-64 | Any other event type is named back in `Received <event> event`. |
| `ActionWebhook.OtherActionNamed` | action_webhook.py:41-52 | Actions other than opened and closed are named back after `Issue ` or `PR `. |
| `ActionWebhook.BareRequestMessage` | action_webhook.py:26-28 | Without a header or an action, the request is answered as an unknown event. |
| `ActionWebhook.Server.constructor` | action_webhook.py:15 | The counter starts at 0. |
| `ActionWebhook.Server.Health` | action_webhook.py:17-19 | `/health` reports the counter without changing it. |
| `ActionWebhook.Server.Home` | action_webhook.py:78-90 | `/` reports the counter without changing it. |
| `ActionWebhook.Server.Webhook` | action_webhook.py:21-76 | A malformed body gets the 400 answer and a truthy non-object body the 500 of the escaping exception, both before the counter changes. Every other call, a falsy JSON body included, raises the counter by exactly one. Event and action default to `unknown` and `no-action`. The message is chosen by event and action from the new count, and the reply carries that count. |
| `BuggyCode.CalculateAverage` | buggy_code_for_review.py:1-7 | For a non-empty list, the loop total is the sum of the numbers and the divisor is their count. |
| `BuggyCode.SumBounds` | buggy_code_for_review.py:3-7 | The total lies between the count times a lower bound and the count times an upper bound of the items. |
| `BuggyCode.ProcessData` | buggy_code_for_review.py:19-25 | The result is twice each positive item, in order. It is no longer than the input, and every element is positive and even. |
| `BuggyCode.DoubledAppend` | buggy_code_for_review.py:22-24 | Processing a concatenation is processing each part, in order. |
| `BuggyCode.DoubledMembers` | buggy_code_for_review.py:22-24 | A value is in the result exactly when it is positive and even and its half is in the input. |
| `BuggyCode.Counter.constructor` | buggy_code_for_review.py:28 | The counter starts at 0. |
| `BuggyCode.Counter.Increment` | buggy_code_for_review.py:30-32 | Each call raises the counter by exactly one. |
| `SimpleTests.Add` | test_simple.py:6-8 | The sum minus either operand gives the other operand. |
| `SimpleTests.Multiply` | test_simple.py:10-12 | A zero factor gives zero. |
| `SimpleTests.MultiplyIsRepeatedAddition` | test_simple.py:10-12 | Multiplying by `n` is adding the number to itself `n` times. |
| `SimpleTests.Greet` | test_simple.py:14-16 | The greeting is `Hello, ` + name + `!`. Without a name, the name is `World`. |
| `SimpleTests.GreetInjective` | test_simple.py:14-16 | Different names give different greetings. |
| `SimpleTests.ScriptChecks` | test_simple.py:21-34 | add(2, 3) is 5, multiply(4, 5) is 20, the greeting of "GitHub Actions" is as expected, and the default greeting is "Hello, World!". |

## Left out

- I/O is not modelled: HTTP requests, Flask routing, JSON decoding, `subprocess`, `input()`, printing and logging, and file reads and writes. Their outcomes are parameters:
  - the decoded review list, status answer and PR data;
  - the lines of `.env`;
  - the user's answer lines;
  - git's output or failure;
  - whether README.md exists;
  - the files of the clone before the plan is written (`Workspace`).
- Concurrency is not modelled. The Flask handlers run one at a time, so a race on the event counter is not captured.
- Randomness is not modelled. `random.randint` values are nondeterministic choices within their inclusive bounds, and `random.random` validation outcomes are a parameter. Timestamps are opaque text or left out.
- `time.sleep`, `pause_for_verification` and every log line are left out.
- Floating point is left out: the size formatting (`_get_directory_size`, `get_repository_size`), the final division of `calculate_average`, and `processing_time_seconds`.
- `RenderWebhook.GithubWebhook`: the PR number is modelled as an integer or absent. A number of another JSON type (a string, a float) is outside the model; the handler would format it into the message as it is.
- `CopilotReal.CreateRealCommits`: whether each git command succeeds is a parameter. The model does not derive git's refusal to commit when nothing is staged. That refusal happens when a group holds only changes an earlier group already committed (`ReadmePyNothingNewForPython`); the source's `check=True` then raises before any commit list is returned. So `CommitsFor`, `CommitsTotal` and `PrTotalsCountOverlapTwice` describe only runs in which every commit succeeded. A doubly counted change reaches the PR totals only when its later group also holds a change of its own.
- `ActionWebhook.Server.Webhook`: a JSON object is modelled as a map from names to strings, so an `action` that is a number or a list is outside the model.
- The template generators are left out: `_generate_readme_content`, `_generate_python_content`, `_generate_json_content`, and the Markdown PR, issue and review texts. `StepContent` takes the generated text as a parameter. Only the review body of code_review_agent.py is built.
- The code has no diff-hunk parser and no line anchoring, so there is none in the model.
- `main` of code_review_agent.py and the remaining GitHub glue are left out: fetching PR details and files, merging, deleting a branch, creating issues, branches and PRs. `PrMerge.MergeAgentMain` takes their results as flags.
- coding_agent.py, simple_webhook.py, simple_demo.py and the sample files (demo_code_with_issues.py, more_buggy_code.py, test_code.py, example.py) are not part of this model.
- From git.py these are left out, because they read files or only format dates: `get_line_count`, `get_last_commit_date`, `get_repository_size`, and the numeric header lines of `print_report` with their thousands separators.
- From the setup script these are left out, because they are fixed texts written to files: the Python and JavaScript sample files and test_config.json.
- `Text.Lower`: `str.lower` is modelled for ASCII letters only; other characters are kept as they are.
- `Text.Split` and `CopilotReal.LinesIn`: files are read in text mode, whose universal-newline translation of `\r\n` and `\r` is not modelled. `LinesIn` counts `\n` line ends.
- `Text.ParseInt`: `int()` is modelled for ASCII digits with an optional sign, surrounding whitespace and single underscores between digits. Other Unicode digits are not modelled.
- `EnvFile.LoadEnvFile`: the OS's refusal of an environment entry is modelled as `Settable`: an empty name or a NUL character is refused. A key cut at the first `=` never holds an `=`. How the exception then propagates out of the script is left out.
- `PrMerge.GetUserInputs`: the script asks for a PR number until one parses and never gives up. The model reads a finite list of answer lines, and returns `None` when no line parses.
- `PrMerge.CheckStatusChecks`: the status answer's `statuses` list is reduced to its length, and an absent `state` is reduced to `None`.
- `CopilotReal.CreateImplementationPlan`: its own contract states only that the plan is non-empty and is the default or the selected steps. The per-step iff is stated by `CopilotReal.PlanSteps`.
- `CopilotReal.RepoCoordinates`: its own contract states only when coordinates exist and that the owner has no `/`. The exact segments of any URL with at least two `/` are stated by `CopilotReal.CoordinatesOf`.
- `CopilotDemo.SummaryCounts`: its contract bounds the file count by the number of changes instead of restating the set. The effect of a feedback commit on it is stated by `CopilotDemo.FeedbackCounts`.
- `CopilotDemo.CreateImplementationPlan`: its own contract states the plan's length. The block order and contents are stated by `CopilotDemo.PlanBlocks`.
- `SimpleTests.Multiply`: its own contract states only the zero case. Its meaning is stated by `SimpleTests.MultiplyIsRepeatedAddition`.

## Findings

| source | as written | input that shows it | evidently intended | confidence | as-written member | corrected member |
|---|---|---|---|---|---|---|
| code_review_agent_setup.py:206-216 | The fragments of test_docs.md end in `"\\n"` and are joined with `"\\n"`: the two characters backslash and `n`, not a newline. The file is one single line of 243 fragments. | The setup run itself: test_docs.md has one line, so the reviewer's check of more than 50 lines (code_review_agent.py:168) does not fire. Yet test_config.json lists "Large documentation file" among the expected issues (code_review_agent_setup.py:236). | Newline line ends, giving a document of at least 243 lines that the Markdown rule reports. | not executed | `ReviewSetup.WrittenDocEscapesMarkdownRule` | `ReviewSetup.IntendedDocTriggersMarkdownRule` |

=== FILE: action_webhook.dfy ===
/**
  action_webhook.py: a webhook server that counts the events it receives and
  answers each with a message chosen by event type and action. The counter
  is a field of the server; the message table is a pure function of the
  event, the action and the counter after the increment.
*/
module ActionWebhook {
  import opened Basics
  import opened Text

  /** The reply of `POST /webhook`. */
  datatype WebhookReply = WebhookReply(status: string, event: string, action: string, message: string, totalEvents: nat)

  /**
    The request body as `request.get_json()` sees it: not valid JSON
    (Flask answers 400 Bad Request), JSON that Python treats as false (`null`,
    `false`, `0`, `""`, `[]`), which `or {}` replaces by an empty object,
    any other JSON that is not an object, or an object.
  */
  datatype JsonBody =
    | Malformed
    | Falsy
    | NonObject
    | Object(fields: map<string, string>)

  /**
    The answer of `POST /webhook`: the 400 of a malformed body, the 500 of the
    exception that `.get` raises on a non-object, or the handler's own reply.
  */
  datatype Response =
    | BadRequest
    | ServerError
    | Processed(reply: WebhookReply)

  /** The reply of `GET /health`. */
  datatype HealthReply = HealthReply(status: string, eventsReceived: nat)

  /** The reply of `GET /`. */
  datatype HomeReply = HomeReply(name: string, status: string, eventsProcessed: nat)

  const IssueClosed := "Issue closed - nice job!"
  const PrOpened := "PR received - ready for review!"
  const PrClosed := "PR closed!"
  const PushMessage := "Push detected - code updated!"
  const PingMessage := "Pong! Webhook working!"

  /** The message for an event, given the number of events counted so far (this one included). */
  function Message(event: string, action: string, count: nat): string
  {
    if event == "issues" then
      if action == "opened" then "Issue #" + NatToString(count) + " logged!"
      else if action == "closed" then IssueClosed
      else "Issue " + action
    else if event == "pull_request" then
      if action == "opened" then PrOpened
      else if action == "closed" then PrClosed
      else "PR " + action
    else if event == "push" then PushMessage
    else if event == "ping" then PingMessage
    else "Received " + event + " event"
  }

  /** Only an opened issue's message depends on the counter. */
  lemma CountOnlyInOpenedIssue(event: string, action: string, c1: nat, c2: nat)
    requires !(event == "issues" && action == "opened")
    ensures Message(event, action, c1) == Message(event, action, c2)
  {
  }

  /** An opened issue's message carries the running total, which reads back from it. */
  lemma OpenedIssueNumberReadsBack(count: nat)
    ensures var m := Message("issues", "opened", count);
      |m| > 15 && m[..7] == "Issue #" && ParseInt(m[7..|m| - 8]) == Some(count)
  {
    var m := Message("issues", "opened", count);
    var d := NatToString(count);
    assert m == "Issue #" + d + " logged!";
    assert m[7..|m| - 8] == d;
    NatRoundTrip(count);
  }

  /** `push` and `ping` answer the same whatever the action and the count. */
  lemma PushAndPingIgnoreAction(a1: string, a2: string, c1: nat, c2: nat)
    ensures Message("push", a1, c1) == Message("push", a2, c2) == PushMessage
    ensures Message("ping", a1, c1) == Message("ping", a2, c2) == PingMessage
  {
  }

  /** Any other event type is named back in its message, whatever the action. */
  lemma OtherEventNamed(event: string, action: string, count: nat)
    requires event !in ["issues", "pull_request", "push", "ping"]
    ensures var m := Message(event, action, count);
      StartsWith(m, "Received ") && m[9..|m| - 6] == event && EndsWith(m, " event")
  {
    var m := Message(event, action, count);
    assert m == "Received " + event + " event";
    assert m[..9] == "Received ";
    assert m[9..|m| - 6] == event;
    assert m[|m| - 6..] == " event";
  }

  /** An action other than `opened` and `closed` is named back after `Issue ` or `PR `. */
  lemma OtherActionNamed(action: string, count: nat)
    requires action != "opened" && action != "closed"
    ensures Message("issues", action, count)[6..] == action
    ensures Message("pull_request", action, count)[3..] == action
  {
  }

  /** The server and its module-global counter of events. */
  class Server {
    var eventCount: nat

    constructor ()
      ensures eventCount == 0
    {
      eventCount := 0;
    }

    /** `GET /health`: reports the counter without changing it. */
    function Health(): (r: HealthReply)
      reads this
      ensures r.status == "ok" && r.eventsReceived == eventCount
    {
      HealthReply("ok", eventCount)
    }

    /** `GET /`: reports the counter without changing it. */
    function Home(): (r: HomeReply)
      reads this
      ensures r.eventsProcessed == eventCount
    {
      HomeReply("Simple Action Webhook", "ready to take action", eventCount)
    }

    /**
      `POST /webhook`: the event comes from the `X-GitHub-Event` header and
      the action from the JSON body. A malformed body and a non-object body
      fail before the counter is touched; every other call counts, and the
      reply carries the new total.
    */
    method Webhook(eventHeader: Option<string>, body: JsonBody) returns (r: Response)
      modifies this
      ensures r == BadRequest <==> body == Malformed
      ensures r == ServerError <==> body == NonObject
      ensures !r.Processed? ==> eventCount == old(eventCount)
      ensures r.Processed? ==>
        var action := if body.Object? && "action" in body.fields then body.fields["action"] else "no-action";
        && eventCount == old(eventCount) + 1
        && r.reply.totalEvents == eventCount
        && r.reply.status == "processed"
        && r.reply.event == (if eventHeader.Some? then eventHeader.value else "unknown")
        && r.reply.action == action
        && r.reply.message == Message(r.reply.event, action, eventCount)
    {
      var event := match eventHeader case Some(e) => e case None => "unknown";
      var data: map<string, string>;
      match body {
        case Malformed =>
          return BadRequest;
        case NonObject =>
          return ServerError;
        case Falsy =>
          data := map[];
        case Object(fields) =>
          data := fields;
      }
      var action := if "action" in data then data["action"] else "no-action";
      eventCount := eventCount + 1;
      var message;
      if event == "issues" {
        if action == "opened" {
          message := "Issue #" + NatToString(eventCount) + " logged!";
        } else if action == "closed" {
          message := IssueClosed;
        } else {
          message := "Issue " + action;
        }
      } else if event == "pull_request" {
        if action == "opened" {
          message := PrOpened;
        } else if action == "closed" {
          message := PrClosed;
        } else {
          message := "PR " + action;
        }
      } else if event == "push" {
        message := PushMessage;
      } else if event == "ping" {
        message := PingMessage;
      } else {
        message := "Received " + event + " event";
      }
      r := Processed(WebhookReply("processed", event, action, message, eventCount));
    }
  }

  /** A request without an event header or an action is answered as an unknown event. */
  lemma BareRequestMessage(count: nat)
    ensures Message("unknown", "no-action", count) == "Received unknown event"
  {
  }
}

=== FILE: basics.dfy ===
/** Small value types shared by the other modules. */
module Basics {

  /** A value that may be absent: a missing dictionary key, a `None` in the scripts. */
  datatype Option<T> = None | Some(value: T)

  /** Sum of a sequence of integers, left to right. */
  function Sum(s: seq<int>): int
  {
    if s == [] then 0 else Sum(s[..|s| - 1]) + s[|s| - 1]
  }
}

=== FILE: buggy_code.dfy ===
/**
  buggy_code_for_review.py: the sample the review demonstrations run on.
  Modelled: the accumulation loop of `calculate_average`, the filter-and-
  double loop of `DataProcessor.process_data`, and the global counter.
*/
module BuggyCode {
  import opened Basics

  /**
    `calculate_average` up to its final division: the loop total and the
    divisor. The division itself raises for an empty list, so the list must
    not be empty.
  */
  method CalculateAverage(numbers: seq<int>) returns (total: int, count: nat)
    requires |numbers| > 0
    ensures total == Sum(numbers) && count == |numbers| && count > 0
  {
    total := 0;
    for i := 0 to |numbers|
      invariant total == Sum(numbers[..i])
    {
      assert numbers[..i + 1][..i] == numbers[..i];
      total := total + numbers[i];
    }
    assert numbers[..|numbers|] == numbers;
    count := |numbers|;
  }

  /** The sum of a list lies between its length times its least and times its greatest element. */
  lemma {:induction false} SumBounds(s: seq<int>, lo: int, hi: int)
    requires forall k :: 0 <= k < |s| ==> lo <= s[k] <= hi
    ensures |s| * lo <= Sum(s) <= |s| * hi
    decreases |s|
  {
    if s != [] {
      var n := |s| - 1;
      SumBounds(s[..n], lo, hi);
      assert Sum(s) == Sum(s[..n]) + s[n];
      assert |s| * lo == n * lo + lo && |s| * hi == n * hi + hi;
    }
  }

  /** What `process_data` returns: twice every positive item, in input order. */
  function Doubled(data: seq<int>): seq<int>
  {
    if data == [] then []
    else Doubled(data[..|data| - 1]) + (if data[|data| - 1] > 0 then [data[|data| - 1] * 2] else [])
  }

  /** `DataProcessor.process_data`: one pass appending `item * 2` for each positive item. */
  method ProcessData(data: seq<int>) returns (result: seq<int>)
    ensures result == Doubled(data)
    ensures |result| <= |data|
    ensures forall k :: 0 <= k < |result| ==> result[k] > 0 && result[k] % 2 == 0
  {
    result := [];
    for i := 0 to |data|
      invariant result == Doubled(data[..i])
    {
      assert data[..i + 1][..i] == data[..i];
      if data[i] > 0 {
        result := result + [data[i] * 2];
      }
    }
    assert data[..|data|] == data;
    DoubledShape(data);
  }

  /** The output is no longer than the input, and holds only positive even numbers. */
  lemma {:induction false} DoubledShape(data: seq<int>)
    ensures |Doubled(data)| <= |data|
    ensures forall k :: 0 <= k < |Doubled(data)| ==> Doubled(data)[k] > 0 && Doubled(data)[k] % 2 == 0
    decreases |data|
  {
    if data != [] {
      DoubledShape(data[..|data| - 1]);
    }
  }

  /** Processing two lists one after the other gives the processing of both, in order. */
  lemma {:induction false} DoubledAppend(a: seq<int>, b: seq<int>)
    ensures Doubled(a + b) == Doubled(a) + Doubled(b)
    decreases |b|
  {
    if b == [] {
      assert a + b == a;
    } else {
      assert (a + b)[..|a + b| - 1] == a + b[..|b| - 1];
      DoubledAppend(a, b[..|b| - 1]);
    }
  }

  /** An output value is twice a positive input item, and every positive item yields its double. */
  lemma {:induction false} DoubledMembers(data: seq<int>, x: int)
    ensures x in Doubled(data) <==> x % 2 == 0 && x > 0 && x / 2 in data
    decreases |data|
  {
    if data != [] {
      var init := data[..|data| - 1];
      DoubledMembers(init, x);
      assert data == init + [data[|data| - 1]];
    }
  }

  /** The module-global `GLOBAL_COUNTER`. */
  class Counter {
    var value: int

    constructor ()
      ensures value == 0
    {
      value := 0;
    }

    /** `increment_counter`. */
    method Increment()
      modifies this
      ensures value == old(value) + 1
    {
      value := value + 1;
    }
  }
}

=== FILE: code_review.dfy ===
/**
  code_review_agent.py: the heuristic pull-request reviewer. Every changed
  file is run through a fixed table of rules on its name, its patch text and
  its number of added lines; each rule that fires becomes one review comment,
  and a file on which nothing fires gets a single "looks good" comment. The
  comments are then gathered into one review body and posted.

  Comments are not anchored to lines (the scripts always send `line: None`),
  so a comment is a file name and a text.
*/
module CodeReview {
  import opened Basics
  import opened Text

  /** One entry of the pull request's changed-file list; `patch` is `None` when the key is absent. */
  datatype FileData = FileData(filename: string, patch: Option<string>, additions: int, deletions: int)

  datatype Comment = Comment(filename: string, text: string)

  const ReviewPrefix := "\U{1F916} **Automated Review**: "

  const LargeChange := "Large number of additions - consider breaking into smaller changes"
  const PrintUse := "Consider using logging instead of print statements for production code"
  const TodoFixme := "TODO/FIXME comments found - ensure these are addressed"
  const WildcardImport := "Avoid wildcard imports - use specific imports instead"
  const ConsoleLog := "Remove console.log statements before production"
  const VarDecl := "Consider using 'let' or 'const' instead of 'var'"
  const LargeDoc := "Large documentation change - ensure it's well structured"
  const Sensitive := "\U{26A0}\U{FE0F} SECURITY: Potential sensitive information detected - ensure no hardcoded secrets"
  const LooksGood := "Code looks good! No issues detected."

  // ---------------------------------------------------------------------------
  // The rule table

  /** The patch text the rules read: an absent patch reads as the empty string. */
  function PatchText(f: FileData): string
  {
    match f.patch
    case Some(p) => p
    case None => ""
  }

  predicate IsPython(name: string) { EndsWith(name, ".py") }

  predicate IsScript(name: string) { EndsWith(name, ".js") || EndsWith(name, ".ts") }

  predicate IsMarkdown(name: string) { EndsWith(name, ".md") }

  /** The lower-cased patch mentions a password, a secret or a token. */
  predicate MentionsSecret(patch: string)
  {
    var lowered := Lower(patch);
    Contains(lowered, "password") || Contains(lowered, "secret") || Contains(lowered, "token")
  }

  function SizeIssues(additions: int): seq<string>
  {
    if additions > 100 then [LargeChange] else []
  }

  function PythonIssues(patch: string): seq<string>
  {
    (if Contains(patch, "print(") then [PrintUse] else [])
    + (if Contains(patch, "TODO") || Contains(patch, "FIXME") then [TodoFixme] else [])
    + (if Contains(patch, "import *") then [WildcardImport] else [])
  }

  function ScriptIssues(patch: string): seq<string>
  {
    (if Contains(patch, "console.log") then [ConsoleLog] else [])
    + (if Contains(patch, "var ") then [VarDecl] else [])
  }

  function MarkdownIssues(patch: string): seq<string>
  {
    if |Split(patch, '\n')| > 50 then [LargeDoc] else []
  }

  /** The language rules: only the first matching file type applies. */
  function LanguageIssues(name: string, patch: string): seq<string>
  {
    if IsPython(name) then PythonIssues(patch)
    else if IsScript(name) then ScriptIssues(patch)
    else if IsMarkdown(name) then MarkdownIssues(patch)
    else []
  }

  function SecurityIssues(patch: string): seq<string>
  {
    if MentionsSecret(patch) then [Sensitive] else []
  }

  /** The issues of one file, in the order the rules are tried. */
  function FileIssues(f: FileData): seq<string>
  {
    SizeIssues(f.additions) + LanguageIssues(f.filename, PatchText(f)) + SecurityIssues(PatchText(f))
  }

  /** The comments for a file's issues: one per issue, or the single "looks good" comment. */
  function IssueComments(name: string, issues: seq<string>): seq<Comment>
  {
    if issues == [] then [Comment(name, ReviewPrefix + LooksGood)]
    else seq(|issues|, i requires 0 <= i < |issues| => Comment(name, ReviewPrefix + issues[i]))
  }

  function FileComments(f: FileData): seq<Comment>
  {
    IssueComments(f.filename, FileIssues(f))
  }

  /** The comments of every file, one group per file. */
  function Grouped(files: seq<FileData>): seq<seq<Comment>>
  {
    seq(|files|, i requires 0 <= i < |files| => FileComments(files[i]))
  }

  /** The groups one after the other. */
  function Flatten(gs: seq<seq<Comment>>): seq<Comment>
  {
    if gs == [] then [] else gs[0] + Flatten(gs[1..])
  }

  /** The comments of all files, file by file in input order. */
  function ReviewComments(files: seq<FileData>): seq<Comment>
  {
    Flatten(Grouped(files))
  }

  lemma FlattenStep(gs: seq<seq<Comment>>, i: nat)
    requires i < |gs|
    ensures Flatten(gs[i..]) == gs[i] + Flatten(gs[i + 1..])
  {
    assert gs[i..][1..] == gs[i + 1..];
  }

  /** The loop's invariant carried over one file: its group moves from the rest to the comments. */
  lemma FlattenAdvance(gs: seq<seq<Comment>>, done: seq<Comment>, i: nat)
    requires i < |gs| && done + Flatten(gs[i..]) == Flatten(gs)
    ensures done + gs[i] + Flatten(gs[i + 1..]) == Flatten(gs)
  {
    FlattenStep(gs, i);
    assert done + (gs[i] + Flatten(gs[i + 1..])) == done + gs[i] + Flatten(gs[i + 1..]);
  }

  /** The rule checks of `analyze_code_changes` for one file, in source order. */
  method CollectIssues(f: FileData) returns (issues: seq<string>)
    ensures issues == FileIssues(f)
  {
    var patch := if f.patch.Some? then f.patch.value else "";
    assert patch == PatchText(f);
    issues := [];
    if f.additions > 100 {
      issues := issues + [LargeChange];
    }
    var language := LanguageChecks(f.filename, patch);
    issues := issues + language;
    var lowered := Lower(patch);
    if Contains(lowered, "password") || Contains(lowered, "secret") || Contains(lowered, "token") {
      issues := issues + [Sensitive];
    }
  }

  /** The file-type branch of the rule checks: only the first matching type's rules run. */
  method LanguageChecks(name: string, patch: string) returns (issues: seq<string>)
    ensures issues == LanguageIssues(name, patch)
  {
    issues := [];
    if EndsWith(name, ".py") {
      if Contains(patch, "print(") {
        issues := issues + [PrintUse];
      }
      if Contains(patch, "TODO") || Contains(patch, "FIXME") {
        issues := issues + [TodoFixme];
      }
      if Contains(patch, "import *") {
        issues := issues + [WildcardImport];
      }
    } else if EndsWith(name, ".js") || EndsWith(name, ".ts") {
      if Contains(patch, "console.log") {
        issues := issues + [ConsoleLog];
      }
      if Contains(patch, "var ") {
        issues := issues + [VarDecl];
      }
    } else if EndsWith(name, ".md") {
      if |Split(patch, '\n')| > 50 {
        issues := issues + [LargeDoc];
      }
    }
  }

  /** The inner loop of `analyze_code_changes`: the comments it appends for one file. */
  method CommentsForIssues(name: string, issues: seq<string>) returns (added: seq<Comment>)
    ensures added == IssueComments(name, issues)
  {
    added := [];
    if issues != [] {
      for k := 0 to |issues|
        invariant added == IssueComments(name, issues)[..k]
      {
        added := added + [Comment(name, ReviewPrefix + issues[k])];
      }
      assert IssueComments(name, issues)[..|issues|] == IssueComments(name, issues);
    } else {
      added := added + [Comment(name, ReviewPrefix + LooksGood)];
    }
  }

  /** `analyze_code_changes`. */
  method AnalyzeCodeChanges(files: seq<FileData>) returns (comments: seq<Comment>)
    ensures comments == ReviewComments(files)
  {
    comments := [];
    ghost var gs := Grouped(files);
    assert gs[0..] == gs;
    for n := 0 to |files|
      invariant comments + Flatten(gs[n..]) == Flatten(gs)
    {
      var f := files[n];
      var issues := CollectIssues(f);
      var added := CommentsForIssues(f.filename, issues);
      assert gs[n] == added;
      FlattenAdvance(gs, comments, n);
      comments := comments + added;
    }
    assert comments + [] == comments;
  }

  // ---------------------------------------------------------------------------
  // What the rule table guarantees

  /** Every issue text is one of the eight rule messages. */
  predicate IsRuleMessage(s: string)
  {
    s in [LargeChange, PrintUse, TodoFixme, WildcardImport, ConsoleLog, VarDecl, LargeDoc, Sensitive]
  }

  lemma IssuesAreRuleMessages(f: FileData)
    ensures forall i :: 0 <= i < |FileIssues(f)| ==> IsRuleMessage(FileIssues(f)[i])
  {
    var size, lang, sec := SizeIssues(f.additions), LanguageIssues(f.filename, PatchText(f)), SecurityIssues(PatchText(f));
    assert forall s | s in lang :: IsRuleMessage(s) by {
      if IsPython(f.filename) {
        PythonMessages(PatchText(f));
      }
    }
    assert FileIssues(f) == size + lang + sec;
  }

  /** The "looks good" text is none of the rule messages. */
  lemma LooksGoodIsNoRule()
    ensures !IsRuleMessage(LooksGood)
  {
    MessagesDistinct();
  }

  /**
    Every file gets at least one comment, each carrying the file's name and
    the review prefix; the "looks good" comment is among them exactly when no
    rule fired, and it is then the only one.
  */
  lemma LooksGoodExactlyWhenNoIssues(f: FileData)
    ensures |FileComments(f)| >= 1
    ensures forall c | c in FileComments(f) :: c.filename == f.filename && StartsWith(c.text, ReviewPrefix)
    ensures Comment(f.filename, ReviewPrefix + LooksGood) in FileComments(f) <==> FileIssues(f) == []
    ensures FileIssues(f) == [] ==> |FileComments(f)| == 1
    ensures FileIssues(f) != [] ==> |FileComments(f)| == |FileIssues(f)|
  {
    var issues := FileIssues(f);
    var cs := FileComments(f);
    forall c | c in cs
      ensures c.filename == f.filename && StartsWith(c.text, ReviewPrefix)
    {
      var i :| 0 <= i < |cs| && cs[i] == c;
      assert c.text[..|ReviewPrefix|] == ReviewPrefix;
    }
    if issues != [] && Comment(f.filename, ReviewPrefix + LooksGood) in cs {
      var i :| 0 <= i < |cs| && cs[i] == Comment(f.filename, ReviewPrefix + LooksGood);
      assert ReviewPrefix + issues[i] == ReviewPrefix + LooksGood;
      assert issues[i] == (ReviewPrefix + issues[i])[|ReviewPrefix|..];
      IssuesAreRuleMessages(f);
      LooksGoodIsNoRule();
      assert false;
    }
  }

  /** The size rule fires exactly for more than 100 added lines, whatever the file type. */
  lemma LargeChangeExactlyWhenManyAdditions(f: FileData)
    ensures LargeChange in FileIssues(f) <==> f.additions > 100
  {
    var lang := LanguageIssues(f.filename, PatchText(f));
    var sec := SecurityIssues(PatchText(f));
    LanguageExcludes(f.filename, PatchText(f));
    assert LargeChange !in sec by {
      assert |LargeChange| == 66 && |Sensitive| == 83;
    }
    assert FileIssues(f) == SizeIssues(f.additions) + lang + sec;
  }

  /** The language rules never raise the size or the security message. */
  lemma LanguageExcludes(name: string, patch: string)
    ensures LargeChange !in LanguageIssues(name, patch) && Sensitive !in LanguageIssues(name, patch)
  {
    var lang := LanguageIssues(name, patch);
    assert |LargeChange| == 66 && |Sensitive| == 83;
    if IsPython(name) {
      PythonMessages(patch);
      assert |PrintUse| == 70 && |TodoFixme| == 54 && |WildcardImport| == 53;
    } else if IsScript(name) {
      assert lang == ScriptIssues(patch);
      assert |ConsoleLog| == 47 && |VarDecl| == 48;
    } else if IsMarkdown(name) {
      assert lang == MarkdownIssues(patch);
      assert |LargeDoc| == 56;
    }
  }

  lemma PythonMessages(patch: string)
    ensures forall s | s in PythonIssues(patch) :: s == PrintUse || s == TodoFixme || s == WildcardImport
  {
  }

  /** The Python rules fire only on `.py` files, each exactly when its pattern occurs in the patch. */
  lemma PythonRules(f: FileData)
    ensures var issues, p := FileIssues(f), PatchText(f);
      && (PrintUse in issues <==> IsPython(f.filename) && Contains(p, "print("))
      && (TodoFixme in issues <==> IsPython(f.filename) && (Contains(p, "TODO") || Contains(p, "FIXME")))
      && (WildcardImport in issues <==> IsPython(f.filename) && Contains(p, "import *"))
  {
    MessagesDistinct();
  }

  /** The script rules fire only on `.js`/`.ts` files that are not `.py` files. */
  lemma ScriptRules(f: FileData)
    ensures var issues, p := FileIssues(f), PatchText(f);
      && (ConsoleLog in issues <==> !IsPython(f.filename) && IsScript(f.filename) && Contains(p, "console.log"))
      && (VarDecl in issues <==> !IsPython(f.filename) && IsScript(f.filename) && Contains(p, "var "))
  {
    MessagesDistinct();
  }

  /** The documentation rule fires on `.md` files matching no earlier type, with more than 50 lines. */
  lemma MarkdownRule(f: FileData)
    ensures LargeDoc in FileIssues(f) <==>
      !IsPython(f.filename) && !IsScript(f.filename) && IsMarkdown(f.filename) && |Split(PatchText(f), '\n')| > 50
  {
    MessagesDistinct();
  }

  /** The rule messages have pairwise different lengths, hence differ. */
  lemma MessagesDistinct()
    ensures var ms := [LargeChange, PrintUse, TodoFixme, WildcardImport, ConsoleLog, VarDecl, LargeDoc, Sensitive, LooksGood];
      forall i, j :: 0 <= i < j < |ms| ==> |ms[i]| != |ms[j]|
  {
    assert |LargeChange| == 66 && |PrintUse| == 70 && |TodoFixme| == 54;
    assert |WildcardImport| == 53 && |ConsoleLog| == 47 && |VarDecl| == 48;
    assert |LargeDoc| == 56 && |Sensitive| == 83 && |LooksGood| == 36;
  }

  /**
    The security message is raised at most once per file, as the last issue,
    and exactly when the lower-cased patch mentions a password, secret or token.
  */
  lemma SecurityRule(f: FileData)
    ensures Sensitive in FileIssues(f) <==> MentionsSecret(PatchText(f))
    ensures multiset(FileIssues(f))[Sensitive] <= 1
    ensures Sensitive in FileIssues(f) ==> FileIssues(f)[|FileIssues(f)| - 1] == Sensitive
  {
    var head := SizeIssues(f.additions) + LanguageIssues(f.filename, PatchText(f));
    SensitiveNotEarly(f.additions, f.filename, PatchText(f));
    assert FileIssues(f) == head + SecurityIssues(PatchText(f));
    assert multiset(FileIssues(f)) == multiset(head) + multiset(SecurityIssues(PatchText(f)));
  }

  lemma SensitiveNotEarly(additions: int, name: string, patch: string)
    ensures Sensitive !in SizeIssues(additions) + LanguageIssues(name, patch)
    ensures multiset(SizeIssues(additions) + LanguageIssues(name, patch))[Sensitive] == 0
  {
    var size, lang := SizeIssues(additions), LanguageIssues(name, patch);
    LanguageExcludes(name, patch);
    assert Sensitive != LargeChange by {
      assert |LargeChange| == 66 && |Sensitive| == 83;
    }
    assert Sensitive !in size + lang;
    NotInMultiset(size + lang, Sensitive);
  }

  lemma NotInMultiset(s: seq<string>, x: string)
    requires x !in s
    ensures multiset(s)[x] == 0
  {
  }

  /** The size message, when raised, comes first. */
  lemma SizeFirst(f: FileData)
    requires f.additions > 100
    ensures FileIssues(f)[0] == LargeChange
  {
  }

  /** Without a patch only the size rule can fire: the empty patch contains nothing and is one line. */
  lemma MissingPatchOnlySize(f: FileData)
    requires f.patch.None?
    ensures FileIssues(f) == SizeIssues(f.additions)
  {
    assert Split("", '\n') == [""];
    assert Lower("") == "";
    assert FileIssues(f) == SizeIssues(f.additions) + [] + [];
  }

  // ---------------------------------------------------------------------------
  // Over the whole file list

  /** Flattening concatenated groups gives the flattened parts, one after the other. */
  lemma {:induction false} FlattenAppend(a: seq<seq<Comment>>, b: seq<seq<Comment>>)
    ensures Flatten(a + b) == Flatten(a) + Flatten(b)
    decreases |a|
  {
    if a == [] {
      assert a + b == b;
    } else {
      FlattenAppend(a[1..], b);
      assert (a + b)[1..] == a[1..] + b;
      assert (a + b)[0] == a[0];
    }
  }

  /** The comments of a concatenated file list are those of each part, in order. */
  lemma ReviewCommentsAppend(a: seq<FileData>, b: seq<FileData>)
    ensures ReviewComments(a + b) == ReviewComments(a) + ReviewComments(b)
  {
    forall i | 0 <= i < |a + b|
      ensures Grouped(a + b)[i] == (Grouped(a) + Grouped(b))[i]
    {
      if i < |a| {
        assert (a + b)[i] == a[i];
      } else {
        assert (a + b)[i] == b[i - |a|];
      }
    }
    assert Grouped(a + b) == Grouped(a) + Grouped(b);
    FlattenAppend(Grouped(a), Grouped(b));
  }

  function Filenames(files: seq<FileData>): set<string>
  {
    set f | f in files :: f.filename
  }

  function CommentedFiles(comments: seq<Comment>): set<string>
  {
    set c | c in comments :: c.filename
  }

  /** Non-empty groups whose comments all carry the group's name name exactly those names. */
  lemma {:induction false} FlattenNames(gs: seq<seq<Comment>>, names: seq<string>)
    requires |gs| == |names|
    requires forall i :: 0 <= i < |gs| ==> |gs[i]| >= 1
    requires forall i, c :: 0 <= i < |gs| && c in gs[i] ==> c.filename == names[i]
    ensures CommentedFiles(Flatten(gs)) == set n | n in names
    decreases |gs|
  {
    if gs != [] {
      FlattenNames(gs[1..], names[1..]);
      assert gs[0][0] in gs[0];
      assert CommentedFiles(gs[0]) == {names[0]};
      assert names == [names[0]] + names[1..];
      assert CommentedFiles(gs[0] + Flatten(gs[1..])) == CommentedFiles(gs[0]) + CommentedFiles(Flatten(gs[1..]));
    }
  }

  /** The comments name exactly the input files (every file gets at least one comment). */
  lemma CommentsCoverFiles(files: seq<FileData>)
    ensures CommentedFiles(ReviewComments(files)) == Filenames(files)
  {
    var names := seq(|files|, i requires 0 <= i < |files| => files[i].filename);
    forall i | 0 <= i < |files|
      ensures |Grouped(files)[i]| >= 1
      ensures forall c | c in Grouped(files)[i] :: c.filename == names[i]
    {
      LooksGoodExactlyWhenNoIssues(files[i]);
    }
    FlattenNames(Grouped(files), names);
    NamesAreFilenames(files, names);
  }

  lemma NamesAreFilenames(files: seq<FileData>, names: seq<string>)
    requires |names| == |files| && forall i :: 0 <= i < |files| ==> names[i] == files[i].filename
    ensures (set n | n in names) == Filenames(files)
  {
    forall n | n in Filenames(files) ensures n in names {
      var f :| f in files && f.filename == n;
      var i :| 0 <= i < |files| && files[i] == f;
      assert names[i] == n;
    }
  }

  // ---------------------------------------------------------------------------
  // Posting the review

  /** What became of the POST request: an exception, or an HTTP answer with or without `html_url`. */
  datatype PostOutcome = Raised | Answered(status: int, htmlUrl: Option<string>)

  /** The text the loop appends for one comment. */
  function CommentEntry(c: Comment): string
  {
    "\n**" + c.filename + "**: " + c.text + "\n"
  }

  function CommentBlock(comments: seq<Comment>): string
  {
    if comments == [] then "" else CommentBlock(comments[..|comments| - 1]) + CommentEntry(comments[|comments| - 1])
  }

  function SummaryLine(fileCount: nat): string
  {
    "**Summary**: Analyzed " + NatToString(fileCount) + " files with automated checks.\n"
  }

  const ReviewTitle := "## \U{1F916} Automated Code Review\n    \n**Review completed at**: "
  const CommentsHeading := "\n### \U{1F4CB} Review Comments:\n"

  function ReviewHeader(timestamp: string, fileCount: nat): string
  {
    ReviewTitle + timestamp + "\n\n" + SummaryLine(fileCount) + CommentsHeading
  }

  const ReviewFooter := "\n---\n*This review was automatically generated by the Code Review Agent.*\n*Please review the suggestions and make changes as needed.*\n"

  /** The review body, given the (opaque) timestamp text. */
  function ReviewBody(comments: seq<Comment>, timestamp: string): string
  {
    ReviewHeader(timestamp, |CommentedFiles(comments)|) + CommentBlock(comments) + ReviewFooter
  }

  /**
    `post_review_comments`. With no comments nothing is posted and the result
    is true. Otherwise the body is built comment by comment and sent (`sent`);
    the result is true exactly when the answer is 200 and carries `html_url`.
  */
  method PostReviewComments(comments: seq<Comment>, timestamp: string, outcome: PostOutcome)
    returns (sent: Option<string>, ok: bool)
    ensures comments == [] ==> sent == None && ok
    ensures comments != [] ==> sent == Some(ReviewBody(comments, timestamp))
    ensures comments != [] ==> (ok <==> outcome.Answered? && outcome.status == 200 && outcome.htmlUrl.Some?)
  {
    if comments == [] {
      return None, true;
    }
    var header := ReviewHeader(timestamp, |set c | c in comments :: c.filename|);
    var body := header;
    for i := 0 to |comments|
      invariant body == header + CommentBlock(comments[..i])
    {
      assert comments[..i + 1][..i] == comments[..i];
      assert CommentBlock(comments[..i + 1]) == CommentBlock(comments[..i]) + CommentEntry(comments[i]);
      body := body + CommentEntry(comments[i]);
    }
    assert comments[..|comments|] == comments;
    body := body + ReviewFooter;
    sent := Some(body);
    match outcome
    case Raised => ok := false;
    case Answered(status, url) => ok := status == 200 && url.Some?;
  }

  lemma {:induction false} CommentBlockHas(comments: seq<Comment>, i: nat)
    requires i < |comments|
    ensures Contains(CommentBlock(comments), CommentEntry(comments[i]))
    decreases |comments|
  {
    var n := |comments| - 1;
    if i == n {
      ContainsMiddle(CommentBlock(comments[..n]), CommentEntry(comments[n]), "");
      assert CommentBlock(comments[..n]) + CommentEntry(comments[n]) + "" == CommentBlock(comments);
    } else {
      assert comments[..n][i] == comments[i];
      CommentBlockHas(comments[..n], i);
      ContainsPrefix(CommentBlock(comments[..n]), CommentEntry(comments[n]), CommentEntry(comments[i]));
    }
  }

  /** What is contained in `a` is contained in `a + b`. */
  lemma {:induction false} ContainsPrefix(a: string, b: string, sub: string)
    requires Contains(a, sub)
    ensures Contains(a + b, sub)
    decreases |a|
  {
    if StartsWith(a, sub) {
      assert (a + b)[..|sub|] == a[..|sub|];
    } else {
      ContainsPrefix(a[1..], b, sub);
      assert (a + b)[1..] == a[1..] + b;
    }
  }

  /** Every comment appears in the posted body as `**file**: text` on a line of its own. */
  lemma BodyListsEveryComment(comments: seq<Comment>, timestamp: string, i: nat)
    requires i < |comments|
    ensures Contains(ReviewBody(comments, timestamp), CommentEntry(comments[i]))
  {
    var h := ReviewHeader(timestamp, |CommentedFiles(comments)|);
    var block := CommentBlock(comments);
    CommentBlockHas(comments, i);
    ContainsPrefix(block, ReviewFooter, CommentEntry(comments[i]));
    ContainsAfter(h, block + ReviewFooter, CommentEntry(comments[i]));
    assert h + (block + ReviewFooter) == ReviewBody(comments, timestamp);
  }

  /** What is contained in `b` is contained in `a + b`. */
  lemma {:induction false} ContainsAfter(a: string, b: string, sub: string)
    requires Contains(b, sub)
    ensures Contains(a + b, sub)
    decreases |a|
  {
    if a != [] {
      ContainsAfter(a[1..], b, sub);
      assert (a + b)[1..] == a[1..] + b;
    } else {
      assert a + b == b;
    }
  }

  /** The summary of the review of a file list counts its distinct file names. */
  lemma SummaryCountsFiles(files: seq<FileData>, timestamp: string)
    ensures Contains(ReviewBody(ReviewComments(files), timestamp), SummaryLine(|Filenames(files)|))
  {
    CommentsCoverFiles(files);
    BodyHasSummary(ReviewComments(files), timestamp);
  }

  /** The body's summary line counts the distinct files among the comments. */
  lemma BodyHasSummary(comments: seq<Comment>, timestamp: string)
    ensures Contains(ReviewBody(comments, timestamp), SummaryLine(|CommentedFiles(comments)|))
  {
    var line := SummaryLine(|CommentedFiles(comments)|);
    var pre := ReviewTitle + timestamp + "\n\n";
    var post := CommentsHeading + CommentBlock(comments) + ReviewFooter;
    assert ReviewBody(comments, timestamp) == pre + line + post;
    ContainsMiddle(pre, line, post);
  }
}

=== FILE: copilot_demo.dfy ===
/**
  copilot_agent_demo.py: the simulated agent. Modelled here: the keyword
  plan, the classification of every planned change (the random line counts
  become nondeterministic choices within the same inclusive bounds), the
  validation step, the grouping of changes into commits, the draft pull
  request and its update on review feedback, and the counts of the exported
  summary. Sleeping, logging and timestamps are outside the model.
*/
module CopilotDemo {
  import opened Basics
  import opened Text

  // ---------------------------------------------------------------------------
  // The implementation plan

  datatype PlanStep = PlanStep(step: string, file: string, description: string, reasoning: string)

  const ApiSteps := [
    PlanStep("Create API endpoint", "src/api/routes.py",
      "Add new REST endpoint with proper validation", "Issue requires new API functionality"),
    PlanStep("Add data models", "src/models/schemas.py",
      "Create Pydantic models for request/response", "API needs proper data validation"),
    PlanStep("Write unit tests", "tests/test_api.py",
      "Add comprehensive test coverage", "Maintain high test coverage standards")
  ]

  const UiSteps := [
    PlanStep("Create React component", "src/components/NewFeature.tsx",
      "Build responsive UI component", "Issue requires frontend changes"),
    PlanStep("Add styling", "src/styles/components.css",
      "Add Tailwind CSS classes", "Maintain consistent design system")
  ]

  const BugSteps := [
    PlanStep("Fix bug", "src/core/processor.py",
      "Resolve identified issue with error handling", "Bug report indicates logic error in processor"),
    PlanStep("Add regression test", "tests/test_regression.py",
      "Prevent bug from reoccurring", "Ensure fix works and prevent regression")
  ]

  predicate WantsApi(keywords: string) { Contains(keywords, "api") || Contains(keywords, "endpoint") }

  predicate WantsUi(keywords: string) { Contains(keywords, "ui") || Contains(keywords, "frontend") }

  /**
    `create_implementation_plan`: the API block, the UI block and the bug
    block, each present or absent as a whole, in that order. The bug block
    needs a label that is exactly `bug`.
  */
  function CreateImplementationPlan(description: string, labels: seq<string>): (plan: seq<PlanStep>)
    ensures |plan| == (if WantsApi(Lower(description)) then 3 else 0)
      + (if WantsUi(Lower(description)) then 2 else 0) + (if "bug" in labels then 2 else 0)
  {
    var kw := Lower(description);
    (if WantsApi(kw) then ApiSteps else [])
    + (if WantsUi(kw) then UiSteps else [])
    + (if "bug" in labels then BugSteps else [])
  }

  /**
    Every block sits at its own place: the API steps first, the UI steps
    after them, the bug steps last; and the plan is empty exactly when no
    block applies.
  */
  lemma PlanBlocks(description: string, labels: seq<string>)
    ensures var plan := CreateImplementationPlan(description, labels);
      var kw := Lower(description);
      var a := if WantsApi(kw) then 3 else 0;
      var u := if WantsUi(kw) then 2 else 0;
      && (WantsApi(kw) ==> plan[..3] == ApiSteps)
      && (WantsUi(kw) ==> plan[a..a + 2] == UiSteps)
      && ("bug" in labels ==> plan[a + u..] == BugSteps)
      && (plan == [] <==> !WantsApi(kw) && !WantsUi(kw) && "bug" !in labels)
  {
  }

  /** The UI test is a bare substring test: a description saying "build" asks for UI steps. */
  lemma BuildAsksForUi()
    ensures CreateImplementationPlan("build", []) == UiSteps
  {
    assert Lower("build") == "build";
    ContainsMiddle("b", "ui", "ld");
    assert "b" + "ui" + "ld" == "build";
    NotContainsWithoutFirst("build", "api");
    NotContainsWithoutFirst("build", "endpoint");
  }

  /** A label `bugs` is not the label `bug`: it adds no bug steps. */
  lemma BugLabelIsExact(description: string)
    ensures CreateImplementationPlan(description, ["bugs"]) == CreateImplementationPlan(description, [])
  {
    assert "bug" !in ["bugs"];
  }

  // ---------------------------------------------------------------------------
  // Generating the changes

  datatype CodeChange = CodeChange(filePath: string, changeType: string, description: string,
                                   linesAdded: int, linesRemoved: int, reasoning: string)

  /** The four classes of `generate_code_changes`, in precedence order. */
  datatype ChangeClass = TestFile | ApiStep | ComponentStep | OtherStep

  function Classify(step: PlanStep): ChangeClass
  {
    if Contains(step.file, "test") then TestFile
    else if Contains(Lower(step.step), "api") then ApiStep
    else if Contains(Lower(step.step), "component") then ComponentStep
    else OtherStep
  }

  /** The inclusive bounds `random.randint` draws from, and the change type, for one class. */
  datatype Bounds = Bounds(changeType: string, addedLo: int, addedHi: int, removedLo: int, removedHi: int)

  function BoundsOf(k: ChangeClass): (b: Bounds)
    ensures b.addedLo <= b.addedHi && b.removedLo <= b.removedHi
  {
    match k
    case TestFile => Bounds("create", 20, 50, 0, 0)
    case ApiStep => Bounds("modify", 30, 80, 0, 10)
    case ComponentStep => Bounds("create", 40, 120, 0, 0)
    case OtherStep => Bounds("modify", 10, 30, 0, 5)
  }

  /** A change the source can produce for a step. */
  predicate Possible(step: PlanStep, c: CodeChange)
  {
    var b := BoundsOf(Classify(step));
    && c.filePath == step.file && c.description == step.description && c.reasoning == step.reasoning
    && c.changeType == b.changeType
    && b.addedLo <= c.linesAdded <= b.addedHi
    && b.removedLo <= c.linesRemoved <= b.removedHi
  }

  /** `generate_code_changes`: one change per step, its line counts drawn within the class bounds. */
  method GenerateCodeChanges(plan: seq<PlanStep>) returns (changes: seq<CodeChange>)
    ensures |changes| == |plan|
    ensures forall i :: 0 <= i < |plan| ==> Possible(plan[i], changes[i])
  {
    changes := [];
    for i := 0 to |plan|
      invariant |changes| == i
      invariant forall j :: 0 <= j < i ==> Possible(plan[j], changes[j])
    {
      var step := plan[i];
      var b := BoundsOf(Classify(step));
      var added :| b.addedLo <= added <= b.addedHi;
      var removed :| b.removedLo <= removed <= b.removedHi;
      changes := changes + [CodeChange(step.file, b.changeType, step.description, added, removed, step.reasoning)];
    }
  }

  /** Whatever is drawn, a change adds 10 to 120 lines and removes at most 10, and "create" removes none. */
  lemma PossibleRanges(step: PlanStep, c: CodeChange)
    requires Possible(step, c)
    ensures 10 <= c.linesAdded <= 120 && 0 <= c.linesRemoved <= 10
    ensures c.changeType == "create" ==> c.linesRemoved == 0
  {
  }

  /** A test file is a creation even when its step mentions the API: the file test takes precedence. */
  lemma TestFileBeatsApi()
    ensures Classify(ApiSteps[2]) == TestFile
  {
    ContainsMiddle("tests/", "test", "_api.py");
    assert "tests/" + "test" + "_api.py" == ApiSteps[2].file;
  }

  // ---------------------------------------------------------------------------
  // Validation

  const Validations := ["Syntax validation", "Type checking", "Linting checks", "Security scan",
                        "Unit tests", "Integration tests", "Performance benchmarks"]

  /**
    `validate_changes`: every check gets a random pass or fail (`passed`,
    one per check); the outcome is logged, and the result is true regardless.
  */
  method ValidateChanges(changes: seq<CodeChange>, passed: seq<bool>) returns (result: bool, allPassed: bool)
    requires |passed| == |Validations|
    ensures allPassed <==> forall i :: 0 <= i < |passed| ==> passed[i]
    ensures result
  {
    allPassed := true;
    for i := 0 to |Validations|
      invariant allPassed <==> forall j :: 0 <= j < i ==> passed[j]
    {
      if !passed[i] {
        allPassed := false;
      }
    }
    result := true;
  }

  // ---------------------------------------------------------------------------
  // Commits

  predicate IsApi(c: CodeChange) { Contains(c.filePath, "api") || Contains(c.filePath, "route") }
  predicate IsTest(c: CodeChange) { Contains(c.filePath, "test") }
  predicate IsUi(c: CodeChange) { Contains(c.filePath, "component") || Contains(c.filePath, "style") }

  /** The groups of `_group_changes_into_commits`, in the order they are emitted. */
  datatype Group = Api | Ui | Other | Test

  predicate InGroup(c: CodeChange, g: Group)
  {
    match g
    case Api => IsApi(c)
    case Ui => IsUi(c)
    case Other => !IsApi(c) && !IsTest(c) && !IsUi(c)
    case Test => IsTest(c)
  }

  function InGroupOf(changes: seq<CodeChange>, g: Group): (r: seq<CodeChange>)
    ensures |r| <= |changes|
    ensures forall c :: c in r <==> c in changes && InGroup(c, g)
  {
    if changes == [] then []
    else
      var init := changes[..|changes| - 1];
      var last := changes[|changes| - 1];
      assert changes == init + [last];
      InGroupOf(init, g) + (if InGroup(last, g) then [last] else [])
  }

  function GroupMessage(g: Group): string
  {
    match g
    case Api => "feat: add new API endpoints"
    case Ui => "feat: add new UI components"
    case Other => "fix: resolve reported issues"
    case Test => "test: add comprehensive test coverage"
  }

  function GroupIfAny(changes: seq<CodeChange>, g: Group): seq<(string, seq<CodeChange>)>
  {
    var members := InGroupOf(changes, g);
    if members == [] then [] else [(GroupMessage(g), members)]
  }

  /**
    `_group_changes_into_commits`: the non-empty groups in the order API, UI,
    other, tests. (`c not in ...` compares records by value, and equal
    records have equal paths, so "other" is exactly the records in none of
    the three.)
  */
  function GroupChangesIntoCommits(changes: seq<CodeChange>): (groups: seq<(string, seq<CodeChange>)>)
    ensures |groups| <= 4
    ensures forall i :: 0 <= i < |groups| ==> groups[i].1 != []
  {
    GroupIfAny(changes, Api) + GroupIfAny(changes, Ui) + GroupIfAny(changes, Other) + GroupIfAny(changes, Test)
  }

  /** The position of a group in the commit list: API, UI, other, tests. */
  function Rank(g: Group): nat
  {
    match g
    case Api => 0
    case Ui => 1
    case Other => 2
    case Test => 3
  }

  /** `groups` holds, one after the other, each group of `gs`: its message and its changes. */
  predicate GroupsFor(changes: seq<CodeChange>, groups: seq<(string, seq<CodeChange>)>, gs: seq<Group>)
  {
    |groups| == |gs| && forall i :: 0 <= i < |gs| ==> groups[i] == (GroupMessage(gs[i]), InGroupOf(changes, gs[i]))
  }

  function NameIfAny(changes: seq<CodeChange>, g: Group): seq<Group>
  {
    if InGroupOf(changes, g) == [] then [] else [g]
  }

  /** The groups that have changes, in the order of the commit list. */
  function NonEmptyGroups(changes: seq<CodeChange>): seq<Group>
  {
    NameIfAny(changes, Api) + NameIfAny(changes, Ui) + NameIfAny(changes, Other) + NameIfAny(changes, Test)
  }

  predicate Ascending(gs: seq<Group>)
  {
    forall i, j :: 0 <= i < j < |gs| ==> Rank(gs[i]) < Rank(gs[j])
  }

  lemma AscendingAppend(a: seq<Group>, b: seq<Group>, r: nat)
    requires Ascending(a) && |b| <= 1
    requires forall x | x in a :: Rank(x) < r
    requires forall y | y in b :: Rank(y) == r
    ensures Ascending(a + b)
  {
  }

  lemma GroupsForConcat(changes: seq<CodeChange>, a: seq<(string, seq<CodeChange>)>, ga: seq<Group>,
                        b: seq<(string, seq<CodeChange>)>, gb: seq<Group>)
    requires GroupsFor(changes, a, ga) && GroupsFor(changes, b, gb)
    ensures GroupsFor(changes, a + b, ga + gb)
  {
  }

  lemma GroupFor(changes: seq<CodeChange>, g: Group)
    ensures GroupsFor(changes, GroupIfAny(changes, g), NameIfAny(changes, g))
  {
  }

  lemma NonEmptyGroupsAscending(changes: seq<CodeChange>)
    ensures Ascending(NonEmptyGroups(changes))
  {
    var a, u, o, t := NameIfAny(changes, Api), NameIfAny(changes, Ui), NameIfAny(changes, Other), NameIfAny(changes, Test);
    AscendingAppend(a, u, 1);
    AscendingAppend(a + u, o, 2);
    AscendingAppend(a + u + o, t, 3);
  }

  lemma NonEmptyGroupsPresent(changes: seq<CodeChange>)
    ensures forall g :: g in NonEmptyGroups(changes) <==> InGroupOf(changes, g) != []
  {
    var a, u, o, t := NameIfAny(changes, Api), NameIfAny(changes, Ui), NameIfAny(changes, Other), NameIfAny(changes, Test);
    assert NonEmptyGroups(changes) == a + u + o + t;
    forall g
      ensures g in NonEmptyGroups(changes) <==> g in NameIfAny(changes, g)
    {
      assert g in a + u + o + t <==> g in a || g in u || g in o || g in t;
    }
  }

  lemma NonEmptyGroupsCommitted(changes: seq<CodeChange>)
    ensures GroupsFor(changes, GroupChangesIntoCommits(changes), NonEmptyGroups(changes))
  {
    var a, u, o, t := GroupIfAny(changes, Api), GroupIfAny(changes, Ui), GroupIfAny(changes, Other), GroupIfAny(changes, Test);
    var ga, gu, go, gt := NameIfAny(changes, Api), NameIfAny(changes, Ui), NameIfAny(changes, Other), NameIfAny(changes, Test);
    GroupFor(changes, Api);
    GroupFor(changes, Ui);
    GroupFor(changes, Other);
    GroupFor(changes, Test);
    assert GroupChangesIntoCommits(changes) == a + u + o + t;
    GroupsForConcat(changes, a, ga, u, gu);
    GroupsForConcat(changes, a + u, ga + gu, o, go);
    GroupsForConcat(changes, a + u + o, ga + gu + go, t, gt);
  }

  /**
    The commit list has one group per group kind that has changes, and no
    other: each is the kind's message with all of its changes, a kind
    appears exactly when it has changes, and the kinds come in the order
    API, UI, other, tests.
  */
  lemma GroupsInOrder(changes: seq<CodeChange>)
    ensures exists gs: seq<Group> ::
      && GroupsFor(changes, GroupChangesIntoCommits(changes), gs)
      && (forall g :: g in gs <==> InGroupOf(changes, g) != [])
      && (forall i, j :: 0 <= i < j < |gs| ==> Rank(gs[i]) < Rank(gs[j]))
  {
    NonEmptyGroupsAscending(changes);
    NonEmptyGroupsPresent(changes);
    NonEmptyGroupsCommitted(changes);
    var gs := NonEmptyGroups(changes);
    assert GroupsFor(changes, GroupChangesIntoCommits(changes), gs);
  }

  function FirstGroup(c: CodeChange): (g: Group)
    ensures InGroup(c, g)
  {
    if IsApi(c) then Api else if IsUi(c) then Ui else if IsTest(c) then Test else Other
  }

  /** Every change lands in some commit: nothing is lost. */
  lemma EveryChangeCommitted(changes: seq<CodeChange>, c: CodeChange)
    requires c in changes
    ensures exists i :: 0 <= i < |GroupChangesIntoCommits(changes)| && c in GroupChangesIntoCommits(changes)[i].1
  {
    var g := FirstGroup(c);
    var groups := GroupChangesIntoCommits(changes);
    assert c in InGroupOf(changes, g);
    var a, u, o, t := GroupIfAny(changes, Api), GroupIfAny(changes, Ui), GroupIfAny(changes, Other), GroupIfAny(changes, Test);
    var at := match g
      case Api => 0
      case Ui => |a|
      case Other => |a| + |u|
      case Test => |a| + |u| + |o|;
    assert groups == a + u + o + t;
    assert groups[at] == GroupIfAny(changes, g)[0];
  }

  /** `tests/test_api.py` is an API path and a test path. */
  lemma ApiTestPath(c: CodeChange)
    requires c.filePath == "tests/test_api.py"
    ensures IsApi(c) && IsTest(c)
  {
    ContainsAt(c.filePath, "api", 11);
    ContainsAt(c.filePath, "test", 6);
  }

  /** `tests/test_api.py` is no UI path. */
  lemma ApiTestPathNotUi(c: CodeChange)
    requires c.filePath == "tests/test_api.py"
    ensures !IsUi(c)
  {
    ApiTestPathLetters();
    NotContainsWithoutFirst(c.filePath, "component");
    NotContainsWithout(c.filePath, "style", 3);
  }

  lemma ApiTestPathLetters()
    ensures 'c' !in "tests/test_api.py" && 'l' !in "tests/test_api.py"
  {
  }

  /** A change that is an API change and a test, and no UI change, is committed exactly twice. */
  lemma ApiAndTestInTwoCommits(c: CodeChange)
    requires IsApi(c) && IsTest(c) && !IsUi(c)
    ensures var groups := GroupChangesIntoCommits([c]);
      |groups| == 2 && c in groups[0].1 && c in groups[1].1
  {
    assert InGroupOf([c], Api) == [c];
    assert InGroupOf([c], Test) == [c];
    assert InGroupOf([c], Ui) == [];
    assert InGroupOf([c], Other) == [];
  }

  /** `tests/test_api.py` is both an API change and a test: it is committed twice. */
  lemma ApiTestInTwoCommits(c: CodeChange)
    requires c.filePath == "tests/test_api.py"
    ensures var groups := GroupChangesIntoCommits([c]);
      |groups| == 2 && c in groups[0].1 && c in groups[1].1
  {
    ApiTestPath(c);
    ApiTestPathNotUi(c);
    ApiAndTestInTwoCommits(c);
  }

  datatype Commit = Commit(sha: string, message: string, changes: seq<CodeChange>)

  /** The sha `create_commits` gives a commit: `abc` and four random digits. */
  predicate CommitSha(sha: string)
  {
    exists n :: 1000 <= n <= 9999 && sha == "abc" + NatToString(n)
  }

  /** `create_commits`: one commit per group, in group order, each with a random sha. */
  method CreateCommits(changes: seq<CodeChange>) returns (commits: seq<Commit>)
    ensures var groups := GroupChangesIntoCommits(changes);
      |commits| == |groups|
      && forall i :: 0 <= i < |groups| ==>
        commits[i].message == groups[i].0 && commits[i].changes == groups[i].1 && CommitSha(commits[i].sha)
  {
    var groups := GroupChangesIntoCommits(changes);
    commits := CommitGroups(groups);
  }

  /** The loop of `create_commits` over the groups. */
  method CommitGroups(groups: seq<(string, seq<CodeChange>)>) returns (commits: seq<Commit>)
    ensures |commits| == |groups|
    ensures forall i :: 0 <= i < |groups| ==>
      commits[i].message == groups[i].0 && commits[i].changes == groups[i].1 && CommitSha(commits[i].sha)
  {
    commits := [];
    for i := 0 to |groups|
      invariant |commits| == i
      invariant forall j :: 0 <= j < i ==>
        commits[j].message == groups[j].0 && commits[j].changes == groups[j].1 && CommitSha(commits[j].sha)
    {
      var n :| 1000 <= n <= 9999;
      var sha := "abc" + NatToString(n);
      assert CommitSha(sha);
      commits := commits + [Commit(sha, groups[i].0, groups[i].1)];
    }
  }

  /** Every change of the plan lands in some commit. */
  lemma CommitsCoverChanges(changes: seq<CodeChange>, commits: seq<Commit>, c: CodeChange)
    requires var groups := GroupChangesIntoCommits(changes);
      |commits| == |groups| && forall i :: 0 <= i < |groups| ==> commits[i].changes == groups[i].1
    requires c in changes
    ensures exists i :: 0 <= i < |commits| && c in commits[i].changes
  {
    EveryChangeCommitted(changes, c);
  }

  // ---------------------------------------------------------------------------
  // The pull request and review feedback

  /** The draft pull request; review feedback updates it in place. */
  class PullRequest {
    var id: int
    var title: string
    var status: string
    var commits: seq<Commit>

    constructor (id: int, title: string, commits: seq<Commit>)
      ensures this.id == id && this.title == title && this.commits == commits && this.status == "draft"
    {
      this.id := id;
      this.title := title;
      this.commits := commits;
      this.status := "draft";
    }
  }

  /** The commit `handle_review_feedback` adds for feedback that does not approve. */
  function FeedbackCommit(sha: string): Commit
  {
    Commit(sha, "fix: address review feedback",
      [CodeChange("src/core/main.py", "modify", "Updated based on review comments", 5, 2, "Addressing reviewer feedback")])
  }

  /** The agent's state that outlives one step: its current pull request. */
  class CopilotAgent {
    var currentPr: PullRequest?

    constructor ()
      ensures currentPr == null
    {
      currentPr := null;
    }

    /**
      `create_draft_pull_request`: a draft titled after the issue, with a
      random four-digit id. Its description quotes the reasoning of the first
      commit, so without commits it raises (`null`) before any pull request
      exists.
    */
    method CreateDraftPullRequest(issueTitle: string, commits: seq<Commit>) returns (pr: PullRequest?)
      modifies this
      ensures commits == [] ==> pr == null && currentPr == old(currentPr)
      ensures commits != [] ==> pr != null && fresh(pr) && currentPr == pr
      ensures commits != [] ==> pr.status == "draft" && pr.title == "Fix: " + issueTitle && pr.commits == commits
      ensures commits != [] ==> 1000 <= pr.id <= 9999
    {
      if commits == [] {
        return null;
      }
      var id :| 1000 <= id <= 9999;
      pr := new PullRequest(id, "Fix: " + issueTitle, commits);
      currentPr := pr;
    }

    /**
      `handle_review_feedback`. Feedback containing `approve` (in any case)
      marks the pull request approved and adds nothing; any other feedback
      adds one commit (sha `def` and four random digits) and leaves the
      status. Without a pull request the attribute access raises.
    */
    method HandleReviewFeedback(feedback: string) returns (raised: bool)
      modifies currentPr
      ensures raised <==> currentPr == null
      ensures currentPr != null ==> currentPr.id == old(currentPr.id) && currentPr.title == old(currentPr.title)
      ensures currentPr != null && Contains(Lower(feedback), "approve") ==>
        currentPr.status == "approved" && currentPr.commits == old(currentPr.commits)
      ensures currentPr != null && !Contains(Lower(feedback), "approve") ==>
        && currentPr.status == old(currentPr.status)
        && |currentPr.commits| == |old(currentPr.commits)| + 1
        && currentPr.commits[..|old(currentPr.commits)|] == old(currentPr.commits)
        && exists n :: 1000 <= n <= 9999 && currentPr.commits[|old(currentPr.commits)|] == FeedbackCommit("def" + NatToString(n))
    {
      if currentPr == null {
        return true;
      }
      raised := false;
      if Contains(Lower(feedback), "approve") {
        currentPr.status := "approved";
      } else {
        var n :| 1000 <= n <= 9999;
        currentPr.commits := currentPr.commits + [FeedbackCommit("def" + NatToString(n))];
        assert currentPr.commits[|old(currentPr.commits)|] == FeedbackCommit("def" + NatToString(n));
      }
    }
  }

  // ---------------------------------------------------------------------------
  // The exported summary

  /** The changed file paths of a list of commits. */
  function FilesChanged(commits: seq<Commit>): set<string>
  {
    if commits == [] then {}
    else FilesChanged(commits[..|commits| - 1]) + (set c | c in commits[|commits| - 1].changes :: c.filePath)
  }

  function ChangeCount(commits: seq<Commit>): nat
  {
    if commits == [] then 0 else ChangeCount(commits[..|commits| - 1]) + |commits[|commits| - 1].changes|
  }

  /** `total_commits` and `total_files_changed`; both 0 without a pull request. */
  function SummaryCounts(pr: PullRequest?): (counts: (nat, nat))
    reads pr
    ensures pr == null ==> counts == (0, 0)
    ensures pr != null ==> counts.0 == |pr.commits| && counts.1 <= ChangeCount(pr.commits)
  {
    if pr == null then (0, 0)
    else
      FilesBounded(pr.commits);
      (|pr.commits|, |FilesChanged(pr.commits)|)
  }

  lemma {:induction false} FilesBounded(commits: seq<Commit>)
    ensures |FilesChanged(commits)| <= ChangeCount(commits)
    decreases |commits|
  {
    if commits != [] {
      var init := commits[..|commits| - 1];
      var last := commits[|commits| - 1].changes;
      FilesBounded(init);
      PathsBounded(last);
      var a, b := FilesChanged(init), set c | c in last :: c.filePath;
      assert FilesChanged(commits) == a + b;
      assert ChangeCount(commits) == ChangeCount(init) + |last|;
      assert |a + b| + |a * b| == |a| + |b|;
    }
  }

  lemma {:induction false} PathsBounded(changes: seq<CodeChange>)
    ensures |set c | c in changes :: c.filePath| <= |changes|
    decreases |changes|
  {
    if changes != [] {
      var rest := changes[1..];
      PathsBounded(rest);
      assert (set c | c in changes :: c.filePath) == {changes[0].filePath} + (set c | c in rest :: c.filePath) by {
        assert changes == [changes[0]] + rest;
      }
    }
  }

  /**
    A feedback commit adds one commit to the summary, and one changed file
    exactly when `src/core/main.py` was not changed before.
  */
  lemma FeedbackCounts(commits: seq<Commit>, sha: string)
    ensures FilesChanged(commits + [FeedbackCommit(sha)]) == FilesChanged(commits) + {"src/core/main.py"}
    ensures |FilesChanged(commits + [FeedbackCommit(sha)])| ==
      |FilesChanged(commits)| + (if "src/core/main.py" in FilesChanged(commits) then 0 else 1)
  {
    var all := commits + [FeedbackCommit(sha)];
    var before := FilesChanged(commits);
    assert all[..|all| - 1] == commits;
    FeedbackPaths(sha);
    assert FilesChanged(all) == before + {"src/core/main.py"};
    if "src/core/main.py" in before {
      assert before + {"src/core/main.py"} == before;
    } else {
      assert |before + {"src/core/main.py"}| == |before| + 1;
    }
  }

  lemma FeedbackPaths(sha: string)
    ensures (set c | c in FeedbackCommit(sha).changes :: c.filePath) == {"src/core/main.py"}
  {
    var ch := FeedbackCommit(sha).changes;
    assert ch[0] in ch;
  }
}

=== FILE: copilot_real.dfy ===
/**
  copilot_agent_416.py: the agent that works on a real clone. Modelled here:
  the owner and name taken from the repository URL, the keyword-driven
  implementation plan, the line accounting and content preview of every
  written file, the grouping of changes into commits, and the totals the
  pull request reports.

  The working tree is the object `Workspace` (path to file content); the
  file templates, git and the GitHub API are outside the model.
*/
module CopilotReal {
  import opened Basics
  import opened Text

  // ---------------------------------------------------------------------------
  // Repository coordinates

  /**
    `repo_url.split('/')[-2]` and `repo_url.split('/')[-1].replace('.git', '')`;
    `None` when the URL has no `/` (the `[-2]` index then raises).
  */
  function RepoCoordinates(url: string): (r: Option<(string, string)>)
    ensures r.Some? <==> '/' in url
    ensures r.Some? ==> '/' !in r.value.0
  {
    var parts := Split(url, '/');
    SplitLength(url, '/');
    SplitPiecesFree(url, '/');
    if |parts| < 2 then
      assert CountChar(url, '/') == 0;
      CountCharAbsent(url, '/');
      None
    else
      CountCharPresent(url, '/');
      Some((parts[|parts| - 2], ReplaceAll(parts[|parts| - 1], ".git", "")))
  }

  lemma {:induction false} CountCharAbsent(s: string, c: char)
    requires CountChar(s, c) == 0
    ensures c !in s
    decreases |s|
  {
    if s != [] {
      CountCharAbsent(s[1..], c);
    }
  }

  lemma {:induction false} CountCharPresent(s: string, c: char)
    requires CountChar(s, c) > 0
    ensures c in s
    decreases |s|
  {
    if s != [] && s[0] != c {
      CountCharPresent(s[1..], c);
    }
  }

  /**
    The coordinates of `<host>/<owner>/<last>`, whatever the host: the owner,
    and the last segment with every `.git` in it removed.
  */
  lemma CoordinatesOf(host: string, owner: string, last: string)
    requires '/' !in owner && '/' !in last
    ensures RepoCoordinates(host + "/" + owner + "/" + last) == Some((owner, ReplaceAll(last, ".git", "")))
  {
    var tail := owner + "/" + last;
    assert host + "/" + owner + "/" + last == host + ['/'] + tail;
    assert tail == owner + ['/'] + last;
    SplitAround(host, '/', tail);
    SplitAround(owner, '/', last);
    SplitWithout(owner, '/');
    SplitWithout(last, '/');
  }

  /**
    The coordinates read back from a clone URL `<host>/<owner>/<name>.git`:
    the owner and the name, when neither holds a `/` and the name holds no
    `.git` of its own.
  */
  lemma CoordinatesRoundTrip(host: string, owner: string, name: string)
    requires '/' !in owner && '/' !in name && !Contains(name, ".git")
    ensures RepoCoordinates(host + "/" + owner + "/" + name + ".git") == Some((owner, name))
  {
    assert '/' !in name + ".git";
    assert host + "/" + owner + "/" + name + ".git" == host + "/" + owner + "/" + (name + ".git");
    CoordinatesOf(host, owner, name + ".git");
    RemoveGitSuffix(name);
  }

  /** A URL without the `.git` suffix gives back owner and name just the same. */
  lemma BareCoordinatesRoundTrip(host: string, owner: string, name: string)
    requires '/' !in owner && '/' !in name && !Contains(name, ".git")
    ensures RepoCoordinates(host + "/" + owner + "/" + name) == Some((owner, name))
  {
    CoordinatesOf(host, owner, name);
    ReplaceAbsent(name, ".git", "");
  }

  /**
    Removing every `.git` from `a + ".git"` gives back `a` when `a` holds no
    `.git`: no occurrence can start in `a` and end in the suffix.
  */
  lemma {:induction false} RemoveGitSuffix(a: string)
    requires !Contains(a, ".git")
    ensures ReplaceAll(a + ".git", ".git", "") == a
    decreases |a|
  {
    var s := a + ".git";
    if a == [] {
      assert s[4..] == [];
      assert s == ".git";
    } else {
      assert !StartsWith(s, ".git") by {
        if |a| >= 4 {
          assert s[..4] == a[..4];
        } else {
          assert s[|a|] == '.' != ".git"[|a|];
        }
      }
      assert s[1..] == a[1..] + ".git";
      RemoveGitSuffix(a[1..]);
    }
  }

  /**
    `replace` removes every `.git`, not only the suffix: with `a` = `foo` and
    `b` = `hub.io`, the repository `foo.github.io.git` is read as `foohub.io`.
  */
  lemma EveryGitRemoved(host: string, owner: string, a: string, b: string)
    requires '/' !in owner && '/' !in a && '/' !in b
    requires '.' !in a && !Contains(b, ".git")
    ensures RepoCoordinates(host + "/" + owner + "/" + a + ".git" + b + ".git") == Some((owner, a + b))
  {
    var last := a + (".git" + (b + ".git"));
    assert host + "/" + owner + "/" + a + ".git" + b + ".git" == host + "/" + owner + "/" + last;
    assert '/' !in last;
    CoordinatesOf(host, owner, last);
    NoGitAt(a, ".git" + (b + ".git"));
    GitSkipped(b + ".git");
    RemoveGitSuffix(b);
  }

  /** An occurrence of `.git` at the front is dropped. */
  lemma GitSkipped(rest: string)
    ensures ReplaceAll(".git" + rest, ".git", "") == ReplaceAll(rest, ".git", "")
  {
    assert (".git" + rest)[..4] == ".git";
    assert (".git" + rest)[4..] == rest;
  }

  /** Over a stretch without a `.`, `replace` copies the characters and goes on after it. */
  lemma {:induction false} NoGitAt(a: string, rest: string)
    requires '.' !in a
    ensures ReplaceAll(a + rest, ".git", "") == a + ReplaceAll(rest, ".git", "")
    decreases |a|
  {
    if a != [] {
      assert (a + rest)[0] == a[0];
      assert (a + rest)[1..] == a[1..] + rest;
      NoGitAt(a[1..], rest);
    } else {
      assert a + rest == rest;
    }
  }

  // ---------------------------------------------------------------------------
  // The implementation plan

  datatype PlanStep = PlanStep(step: string, file: string, description: string, reasoning: string)

  const ReadmeStep := PlanStep("Create/Update README", "README.md",
    "Add comprehensive project documentation", "Good documentation is essential for any project")
  const ExampleStep := PlanStep("Create example script", "example_usage.py",
    "Add example showing how to use the project", "Examples help users understand the project")
  const TestStep := PlanStep("Add test file", "test_basic.py",
    "Add basic unit tests", "Tests ensure code quality and reliability")
  const ConfigStep := PlanStep("Add configuration", "config.json",
    "Add project configuration file", "Configuration files make projects more flexible")

  /** The plan used when no keyword selected a step. */
  const DefaultPlan := [
    PlanStep("Update README", "README.md", "Improve project documentation", "Based on issue requirements"),
    PlanStep("Add example", "example.py", "Add practical example", "Enhance project usability")
  ]

  predicate WantsReadme(keywords: string, readmeExists: bool)
  {
    Contains(keywords, "readme") || Contains(keywords, "documentation") || !readmeExists
  }

  predicate WantsExample(keywords: string) { Contains(keywords, "example") || Contains(keywords, "demo") }

  predicate WantsTest(keywords: string) { Contains(keywords, "test") || Contains(keywords, "testing") }

  predicate WantsConfig(keywords: string) { Contains(keywords, "config") || Contains(keywords, "configuration") }

  /** The keyword-selected steps, in the fixed order README, example, test, configuration. */
  function SelectedSteps(keywords: string, readmeExists: bool): seq<PlanStep>
  {
    (if WantsReadme(keywords, readmeExists) then [ReadmeStep] else [])
    + (if WantsExample(keywords) then [ExampleStep] else [])
    + (if WantsTest(keywords) then [TestStep] else [])
    + (if WantsConfig(keywords) then [ConfigStep] else [])
  }

  /**
    `create_implementation_plan`, given the issue description and whether
    `README.md` exists in the clone.
  */
  function CreateImplementationPlan(description: string, readmeExists: bool): (plan: seq<PlanStep>)
    ensures |plan| > 0
    ensures plan == DefaultPlan || plan == SelectedSteps(Lower(description), readmeExists)
  {
    var selected := SelectedSteps(Lower(description), readmeExists);
    if selected == [] then DefaultPlan else selected
  }

  /**
    Each step is in the plan exactly when its keywords occur in the
    lower-cased description (README also when there is no `README.md`);
    the default plan comes exactly when none does.
  */
  lemma PlanSteps(description: string, readmeExists: bool)
    ensures var plan := CreateImplementationPlan(description, readmeExists);
      var kw := Lower(description);
      && (ReadmeStep in plan <==> WantsReadme(kw, readmeExists))
      && (ExampleStep in plan <==> WantsExample(kw))
      && (TestStep in plan <==> WantsTest(kw))
      && (ConfigStep in plan <==> WantsConfig(kw))
      && (plan == DefaultPlan <==> !WantsReadme(kw, readmeExists) && !WantsExample(kw) && !WantsTest(kw) && !WantsConfig(kw))
  {
    var kw := Lower(description);
    var selected := SelectedSteps(kw, readmeExists);
    StepsNotDefault();
    if selected != [] {
      assert selected[0] in [ReadmeStep, ExampleStep, TestStep, ConfigStep];
      assert selected[0] != DefaultPlan[0];
    }
  }

  /** None of the four keyword steps is a step of the default plan. */
  lemma StepsNotDefault()
    ensures forall s | s in [ReadmeStep, ExampleStep, TestStep, ConfigStep] :: s !in DefaultPlan
  {
    assert |DefaultPlan[0].step| == 13 && |DefaultPlan[1].step| == 11;
    assert |ReadmeStep.step| == 20 && |ExampleStep.step| == 21 && |ConfigStep.step| == 17;
    assert |TestStep.file| == 13 && |DefaultPlan[0].file| == 9 && |DefaultPlan[1].file| == 10;
  }

  /** The longer keywords are redundant: `testing` contains `test`, `configuration` contains `config`. */
  lemma LongerKeywordsRedundant(keywords: string)
    ensures WantsTest(keywords) <==> Contains(keywords, "test")
    ensures WantsConfig(keywords) <==> Contains(keywords, "config")
  {
    if Contains(keywords, "testing") {
      ContainsPrefixOf(keywords, "test", "testing");
    }
    if Contains(keywords, "configuration") {
      ContainsPrefixOf(keywords, "config", "configuration");
    }
  }

  // ---------------------------------------------------------------------------
  // Writing the files

  /** A change record: `CodeChange` with its `actual_content` preview. */
  datatype CodeChange = CodeChange(filePath: string, changeType: string, description: string,
                                   linesAdded: int, linesRemoved: int, reasoning: string, actualContent: string)

  /** The working tree of the clone: relative path to file content. */
  class Workspace {
    var files: map<string, string>

    constructor (initial: map<string, string>)
      ensures files == initial
    {
      files := initial;
    }
  }

  /** Lines of a text file as iterating over it counts them: one per `\n`, plus an unterminated last line. */
  function LinesIn(content: string): nat
  {
    CountChar(content, '\n') + (if content != [] && content[|content| - 1] != '\n' then 1 else 0)
  }

  /** `lines_before`: 0 for a file that does not exist. */
  function LinesBefore(files: map<string, string>, path: string): nat
  {
    if path in files then LinesIn(files[path]) else 0
  }

  datatype LineDelta = LineDelta(changeType: string, added: nat, removed: nat)

  /**
    The line accounting of one written file: `after` is the number of
    `\n`-separated pieces of the new content. The delta balances the counts,
    and never both adds and removes.
  */
  function Account(content: string, before: nat): (d: LineDelta)
    ensures d.changeType == (if before == 0 then "create" else "modify")
    ensures before + d.added - d.removed == |Split(content, '\n')|
    ensures d.added == 0 || d.removed == 0
  {
    var after := |Split(content, '\n')|;
    if before > 0 then
      LineDelta("modify", if after > before then after - before else 0, if before > after then before - after else 0)
    else LineDelta("create", after, 0)
  }

  /** The stored `actual_content`: the content, cut to 200 characters plus `...` when longer. */
  function Preview(content: string): (p: string)
    ensures |content| <= 200 ==> p == content
    ensures |content| > 200 ==> |p| == 203 && StartsWith(content, p[..200]) && EndsWith(p, "...")
  {
    if |content| > 200 then content[..200] + "..." else content
  }

  /** A preview never exceeds 203 characters, and equals the content only when that is short or already ends the cut. */
  lemma PreviewIsContentExactly(content: string)
    ensures |Preview(content)| <= 203
    ensures Preview(content) == content <==> |content| <= 200 || (|content| == 203 && content[200..] == "...")
  {
    if |content| > 200 && Preview(content) == content {
      assert content[200..] == Preview(content)[200..];
    }
    if |content| == 203 && content[200..] == "..." {
      assert content == content[..200] + content[200..];
    }
  }

  /** The content written for a step: the template output for README, `.py` and `.json` files, else a stub. */
  function StepContent(step: PlanStep, generated: string): string
  {
    if step.file == "README.md" || EndsWith(step.file, ".py") || EndsWith(step.file, ".json") then generated
    else "# " + step.description + "\n\nThis file was created by Copilot Agent.\n"
  }

  function MakeChange(step: PlanStep, content: string, before: nat): (c: CodeChange)
    ensures c.filePath == step.file && c.description == step.description && c.reasoning == step.reasoning
  {
    var d := Account(content, before);
    CodeChange(step.file, d.changeType, step.description, d.added, d.removed, step.reasoning, Preview(content))
  }

  /**
    Working through the plan from the tree `files`: the change records, and
    the tree afterwards. `generated` holds the template output for each step.
  */
  function Outcome(files: map<string, string>, plan: seq<PlanStep>, generated: seq<string>): (seq<CodeChange>, map<string, string>)
    requires |generated| == |plan|
    decreases |plan|
  {
    if plan == [] then ([], files)
    else
      var content := StepContent(plan[0], generated[0]);
      var rest := Outcome(files[plan[0].file := content], plan[1..], generated[1..]);
      ([MakeChange(plan[0], content, LinesBefore(files, plan[0].file))] + rest.0, rest.1)
  }

  /** One step of `Outcome` from position `i` of the plan. */
  lemma OutcomeStep(files: map<string, string>, plan: seq<PlanStep>, generated: seq<string>, i: nat)
    requires |generated| == |plan| && i < |plan|
    ensures var content := StepContent(plan[i], generated[i]);
      var rest := Outcome(files[plan[i].file := content], plan[i + 1..], generated[i + 1..]);
      Outcome(files, plan[i..], generated[i..])
        == ([MakeChange(plan[i], content, LinesBefore(files, plan[i].file))] + rest.0, rest.1)
  {
    assert plan[i..][0] == plan[i] && generated[i..][0] == generated[i];
    assert plan[i..][1..] == plan[i + 1..] && generated[i..][1..] == generated[i + 1..];
  }

  /** `generate_real_code_changes`: one change per step, each file written in plan order. */
  method GenerateRealCodeChanges(ws: Workspace, plan: seq<PlanStep>, generated: seq<string>) returns (changes: seq<CodeChange>)
    requires |generated| == |plan|
    modifies ws
    ensures (changes, ws.files) == Outcome(old(ws.files), plan, generated)
  {
    changes := [];
    var files := ws.files;
    ghost var goal := Outcome(files, plan, generated);
    assert plan[0..] == plan && generated[0..] == generated;
    assert goal.0 == changes + goal.0;
    for i := 0 to |plan|
      invariant ws.files == files
      invariant goal == (changes + Outcome(files, plan[i..], generated[i..]).0, Outcome(files, plan[i..], generated[i..]).1)
    {
      var step := plan[i];
      var content := StepContent(step, generated[i]);
      var before := LinesBefore(files, step.file);
      OutcomeAdvance(goal, changes, files, plan, generated, i);
      changes := changes + [MakeChange(step, content, before)];
      files := files[step.file := content];
      ws.files := files;
    }
    assert plan[|plan|..] == [] && generated[|plan|..] == [];
    assert changes + [] == changes;
  }

  /** The loop's invariant carried over one step: the step's change moves from the outcome to the changes. */
  lemma OutcomeAdvance(goal: (seq<CodeChange>, map<string, string>), changes: seq<CodeChange>,
                       files: map<string, string>, plan: seq<PlanStep>, generated: seq<string>, i: nat)
    requires |generated| == |plan| && i < |plan|
    requires goal == (changes + Outcome(files, plan[i..], generated[i..]).0, Outcome(files, plan[i..], generated[i..]).1)
    ensures var content := StepContent(plan[i], generated[i]);
      var next := Outcome(files[plan[i].file := content], plan[i + 1..], generated[i + 1..]);
      goal == (changes + [MakeChange(plan[i], content, LinesBefore(files, plan[i].file))] + next.0, next.1)
  {
    var content := StepContent(plan[i], generated[i]);
    var change := MakeChange(plan[i], content, LinesBefore(files, plan[i].file));
    var next := Outcome(files[plan[i].file := content], plan[i + 1..], generated[i + 1..]);
    OutcomeStep(files, plan, generated, i);
    assert changes + ([change] + next.0) == changes + [change] + next.0;
  }

  /** The files a plan writes. */
  function FilesOf(plan: seq<PlanStep>): set<string>
  {
    if plan == [] then {} else {plan[0].file} + FilesOf(plan[1..])
  }

  lemma {:induction false} FilesOfSteps(plan: seq<PlanStep>, f: string)
    ensures f in FilesOf(plan) <==> exists i :: 0 <= i < |plan| && plan[i].file == f
    decreases |plan|
  {
    if plan != [] {
      FilesOfSteps(plan[1..], f);
      if exists i :: 0 <= i < |plan| && plan[i].file == f {
        var i :| 0 <= i < |plan| && plan[i].file == f;
        if i > 0 {
          assert plan[1..][i - 1].file == f;
        }
      }
      if exists i :: 0 <= i < |plan| - 1 && plan[1..][i].file == f {
        var i :| 0 <= i < |plan| - 1 && plan[1..][i].file == f;
        assert plan[i + 1].file == f;
      }
    }
  }

  /** The change records follow the plan one to one. */
  lemma {:induction false} OutcomeFollowsPlan(files: map<string, string>, plan: seq<PlanStep>, generated: seq<string>)
    requires |generated| == |plan|
    ensures var o := Outcome(files, plan, generated);
      && |o.0| == |plan|
      && (forall i :: 0 <= i < |plan| ==> o.0[i].filePath == plan[i].file && o.0[i].description == plan[i].description)
    decreases |plan|
  {
    if plan != [] {
      var content := StepContent(plan[0], generated[0]);
      OutcomeFollowsPlan(files[plan[0].file := content], plan[1..], generated[1..]);
      var o := Outcome(files, plan, generated);
      forall i | 0 < i < |plan|
        ensures o.0[i].filePath == plan[i].file && o.0[i].description == plan[i].description
      {
        assert plan[i] == plan[1..][i - 1];
      }
    }
  }

  /** Afterwards the tree holds the files it held and the planned ones, and no other. */
  lemma {:induction false} OutcomeFiles(files: map<string, string>, plan: seq<PlanStep>, generated: seq<string>)
    requires |generated| == |plan|
    ensures Outcome(files, plan, generated).1.Keys == files.Keys + FilesOf(plan)
    decreases |plan|
  {
    if plan != [] {
      var content := StepContent(plan[0], generated[0]);
      OutcomeFiles(files[plan[0].file := content], plan[1..], generated[1..]);
    }
  }

  /** The last step writing a file decides its final content. */
  lemma {:induction false} LastWriteWins(files: map<string, string>, plan: seq<PlanStep>, generated: seq<string>, i: nat)
    requires |generated| == |plan| && i < |plan|
    requires forall j :: i < j < |plan| ==> plan[j].file != plan[i].file
    ensures plan[i].file in Outcome(files, plan, generated).1
    ensures Outcome(files, plan, generated).1[plan[i].file] == StepContent(plan[i], generated[i])
    decreases |plan|
  {
    var content := StepContent(plan[0], generated[0]);
    var rest := files[plan[0].file := content];
    if i == 0 {
      KeepsUnwritten(rest, plan[1..], generated[1..], plan[0].file);
    } else {
      assert plan[1..][i - 1] == plan[i] && generated[1..][i - 1] == generated[i];
      LastWriteWins(rest, plan[1..], generated[1..], i - 1);
    }
  }

  /** A file no step writes keeps its content. */
  lemma {:induction false} KeepsUnwritten(files: map<string, string>, plan: seq<PlanStep>, generated: seq<string>, f: string)
    requires |generated| == |plan|
    requires forall j :: 0 <= j < |plan| ==> plan[j].file != f
    ensures f in files ==> f in Outcome(files, plan, generated).1 && Outcome(files, plan, generated).1[f] == files[f]
    decreases |plan|
  {
    if plan != [] {
      var content := StepContent(plan[0], generated[0]);
      KeepsUnwritten(files[plan[0].file := content], plan[1..], generated[1..], f);
    }
  }

  /** A step whose file did not exist and is not written earlier in the plan is recorded as a creation. */
  lemma {:induction false} NewFilesAreCreated(files: map<string, string>, plan: seq<PlanStep>, generated: seq<string>, i: nat)
    requires |generated| == |plan| && i < |plan|
    requires plan[i].file !in files
    requires forall j :: 0 <= j < i ==> plan[j].file != plan[i].file
    ensures |Outcome(files, plan, generated).0| == |plan|
    ensures Outcome(files, plan, generated).0[i].changeType == "create"
    ensures Outcome(files, plan, generated).0[i].linesRemoved == 0
    decreases |plan|
  {
    var content := StepContent(plan[0], generated[0]);
    var after := files[plan[0].file := content];
    var first := MakeChange(plan[0], content, LinesBefore(files, plan[0].file));
    var rest := Outcome(after, plan[1..], generated[1..]);
    assert Outcome(files, plan, generated).0 == [first] + rest.0;
    if i == 0 {
      OutcomeFollowsPlan(after, plan[1..], generated[1..]);
      assert LinesBefore(files, plan[0].file) == 0;
    } else {
      assert plan[1..][i - 1] == plan[i];
      assert plan[i].file !in after;
      NewFilesAreCreated(after, plan[1..], generated[1..], i - 1);
    }
  }

  // ---------------------------------------------------------------------------
  // Commits and the pull request totals

  predicate IsDocs(c: CodeChange) { Contains(Lower(c.filePath), "readme") }
  predicate IsPython(c: CodeChange) { EndsWith(c.filePath, ".py") }
  predicate IsConfig(c: CodeChange) { EndsWith(c.filePath, ".json") }

  datatype Kind = Docs | Python | Config | Other

  /** The group predicates; `Other` is "none of the first three". */
  predicate OfKind(c: CodeChange, k: Kind)
  {
    match k
    case Docs => IsDocs(c)
    case Python => IsPython(c)
    case Config => IsConfig(c)
    case Other => !IsDocs(c) && !IsPython(c) && !IsConfig(c)
  }

  /** The changes of one kind, in input order. */
  function OfKindIn(changes: seq<CodeChange>, k: Kind): (r: seq<CodeChange>)
    ensures |r| <= |changes|
    ensures forall c :: c in r <==> c in changes && OfKind(c, k)
  {
    if changes == [] then []
    else
      var init := changes[..|changes| - 1];
      var last := changes[|changes| - 1];
      assert changes == init + [last];
      OfKindIn(init, k) + (if OfKind(last, k) then [last] else [])
  }

  function GroupMessage(k: Kind): string
  {
    match k
    case Docs => "docs: update project documentation"
    case Python => "feat: add Python examples and tests"
    case Config => "config: add project configuration"
    case Other => "feat: add additional project files"
  }

  /** One group of the commit plan if it is not empty. */
  function GroupIfAny(changes: seq<CodeChange>, k: Kind): (r: seq<(string, seq<CodeChange>)>)
    ensures |r| <= 1 && forall i :: 0 <= i < |r| ==> r[i].1 == OfKindIn(changes, k) != []
  {
    var g := OfKindIn(changes, k);
    if g == [] then [] else [(GroupMessage(k), g)]
  }

  /**
    `_group_changes_for_commits`: the non-empty groups in the order docs,
    Python, config, other. (Python's `c not in ...` compares records by
    value; two equal records have the same path, so "other" is exactly the
    records matching none of the three predicates.)
  */
  function GroupChangesForCommits(changes: seq<CodeChange>): (groups: seq<(string, seq<CodeChange>)>)
    ensures |groups| <= 4
    ensures forall i :: 0 <= i < |groups| ==> groups[i].1 != []
  {
    var d, p, f, o := GroupIfAny(changes, Docs), GroupIfAny(changes, Python), GroupIfAny(changes, Config), GroupIfAny(changes, Other);
    NonEmptyGroupsConcat(d, p);
    NonEmptyGroupsConcat(d + p, f);
    NonEmptyGroupsConcat(d + p + f, o);
    d + p + f + o
  }

  lemma NonEmptyGroupsConcat(a: seq<(string, seq<CodeChange>)>, b: seq<(string, seq<CodeChange>)>)
    requires forall i :: 0 <= i < |a| ==> a[i].1 != []
    requires forall i :: 0 <= i < |b| ==> b[i].1 != []
    ensures forall i :: 0 <= i < |a + b| ==> (a + b)[i].1 != []
  {
  }

  /** The position of a kind's group in the commit plan: docs, Python, config, other. */
  function Rank(k: Kind): nat
  {
    match k
    case Docs => 0
    case Python => 1
    case Config => 2
    case Other => 3
  }

  /** `groups` holds, one after the other, the group of each kind of `ks`: its message and its changes. */
  predicate GroupsOfKinds(changes: seq<CodeChange>, groups: seq<(string, seq<CodeChange>)>, ks: seq<Kind>)
  {
    |groups| == |ks| && forall i :: 0 <= i < |ks| ==> groups[i] == (GroupMessage(ks[i]), OfKindIn(changes, ks[i]))
  }

  function KindIfAny(changes: seq<CodeChange>, k: Kind): seq<Kind>
  {
    if OfKindIn(changes, k) == [] then [] else [k]
  }

  /** The kinds that have changes, in the order of the commit plan. */
  function Kinds(changes: seq<CodeChange>): seq<Kind>
  {
    KindIfAny(changes, Docs) + KindIfAny(changes, Python) + KindIfAny(changes, Config) + KindIfAny(changes, Other)
  }

  predicate Ascending(ks: seq<Kind>)
  {
    forall i, j :: 0 <= i < j < |ks| ==> Rank(ks[i]) < Rank(ks[j])
  }

  lemma AscendingAppend(a: seq<Kind>, b: seq<Kind>, r: nat)
    requires Ascending(a) && |b| <= 1
    requires forall x | x in a :: Rank(x) < r
    requires forall y | y in b :: Rank(y) == r
    ensures Ascending(a + b)
  {
  }

  lemma GroupsOfKindsConcat(changes: seq<CodeChange>, a: seq<(string, seq<CodeChange>)>, ka: seq<Kind>,
                            b: seq<(string, seq<CodeChange>)>, kb: seq<Kind>)
    requires GroupsOfKinds(changes, a, ka) && GroupsOfKinds(changes, b, kb)
    ensures GroupsOfKinds(changes, a + b, ka + kb)
  {
  }

  lemma KindsAscending(changes: seq<CodeChange>)
    ensures Ascending(Kinds(changes))
  {
    var d, p, f, o := KindIfAny(changes, Docs), KindIfAny(changes, Python), KindIfAny(changes, Config), KindIfAny(changes, Other);
    AscendingAppend(d, p, 1);
    AscendingAppend(d + p, f, 2);
    AscendingAppend(d + p + f, o, 3);
  }

  lemma KindsPresent(changes: seq<CodeChange>)
    ensures forall k :: k in Kinds(changes) <==> OfKindIn(changes, k) != []
  {
    var d, p, f, o := KindIfAny(changes, Docs), KindIfAny(changes, Python), KindIfAny(changes, Config), KindIfAny(changes, Other);
    assert Kinds(changes) == d + p + f + o;
    forall k
      ensures k in Kinds(changes) <==> k in KindIfAny(changes, k)
    {
      assert k in d + p + f + o <==> k in d || k in p || k in f || k in o;
    }
  }

  lemma GroupOfKind(changes: seq<CodeChange>, k: Kind)
    ensures GroupsOfKinds(changes, GroupIfAny(changes, k), KindIfAny(changes, k))
  {
  }

  lemma KindsGrouped(changes: seq<CodeChange>)
    ensures GroupsOfKinds(changes, GroupChangesForCommits(changes), Kinds(changes))
  {
    var d, p, f, o := GroupIfAny(changes, Docs), GroupIfAny(changes, Python), GroupIfAny(changes, Config), GroupIfAny(changes, Other);
    var kd, kp, kf, ko := KindIfAny(changes, Docs), KindIfAny(changes, Python), KindIfAny(changes, Config), KindIfAny(changes, Other);
    GroupOfKind(changes, Docs);
    GroupOfKind(changes, Python);
    GroupOfKind(changes, Config);
    GroupOfKind(changes, Other);
    assert GroupChangesForCommits(changes) == d + p + f + o;
    GroupsOfKindsConcat(changes, d, kd, p, kp);
    GroupsOfKindsConcat(changes, d + p, kd + kp, f, kf);
    GroupsOfKindsConcat(changes, d + p + f, kd + kp + kf, o, ko);
  }

  /**
    The commit plan has one group per kind that has changes, and no other:
    each group is a kind's message with all the changes of that kind, a
    kind appears exactly when it has changes, and the kinds come in the
    order docs, Python, config, other.
  */
  lemma GroupsInOrder(changes: seq<CodeChange>)
    ensures exists ks: seq<Kind> ::
      && GroupsOfKinds(changes, GroupChangesForCommits(changes), ks)
      && (forall k :: k in ks <==> OfKindIn(changes, k) != [])
      && (forall i, j :: 0 <= i < j < |ks| ==> Rank(ks[i]) < Rank(ks[j]))
  {
    KindsAscending(changes);
    KindsPresent(changes);
    KindsGrouped(changes);
    var ks := Kinds(changes);
    assert GroupsOfKinds(changes, GroupChangesForCommits(changes), ks);
  }

  /** The kind whose group a change lands in first. */
  function FirstKind(c: CodeChange): (k: Kind)
    ensures OfKind(c, k)
  {
    if IsDocs(c) then Docs else if IsPython(c) then Python else if IsConfig(c) then Config else Other
  }

  /** Every change lands in some commit group: nothing is lost. */
  lemma EveryChangeGrouped(changes: seq<CodeChange>, c: CodeChange)
    requires c in changes
    ensures exists i :: 0 <= i < |GroupChangesForCommits(changes)| && c in GroupChangesForCommits(changes)[i].1
  {
    var k := FirstKind(c);
    var groups := GroupChangesForCommits(changes);
    var g := GroupIfAny(changes, k);
    assert c in OfKindIn(changes, k);
    assert g[0] in groups by {
      var d, p, f, o := GroupIfAny(changes, Docs), GroupIfAny(changes, Python), GroupIfAny(changes, Config), GroupIfAny(changes, Other);
      assert groups == d + p + f + o;
      assert g == d || g == p || g == f || g == o;
    }
    var i :| 0 <= i < |groups| && groups[i] == g[0];
  }

  /** A change that is documentation and Python, and not configuration, lands in exactly two groups. */
  lemma DocsAndPythonInTwoGroups(c: CodeChange)
    requires IsDocs(c) && IsPython(c) && !IsConfig(c)
    ensures var groups := GroupChangesForCommits([c]);
      |groups| == 2 && c in groups[0].1 && c in groups[1].1
  {
    assert OfKindIn([c], Docs) == [c];
    assert OfKindIn([c], Python) == [c];
    assert OfKindIn([c], Config) == [];
    assert OfKindIn([c], Other) == [];
  }

  /** A file such as `readme.py` is both documentation and Python: it lands in two groups. */
  lemma ReadmePyInTwoGroups(c: CodeChange)
    requires c.filePath == "readme.py"
    ensures var groups := GroupChangesForCommits([c]);
      |groups| == 2 && c in groups[0].1 && c in groups[1].1
  {
    ReadmePyKinds(c);
    DocsAndPythonInTwoGroups(c);
  }

  lemma ReadmePyKinds(c: CodeChange)
    requires c.filePath == "readme.py"
    ensures IsDocs(c) && IsPython(c) && !IsConfig(c)
  {
    ReadmePyLower();
    ContainsMiddle([], "readme", ".py");
    assert [] + "readme" + ".py" == "readme.py";
    assert "readme.py"[6..] == ".py";
    assert |"readme.py"| < |".json"| + 5;
  }

  lemma ReadmePyLower()
    ensures Lower("readme.py") == "readme.py"
  {
  }

  datatype Commit = Commit(sha: string, message: string, changes: seq<CodeChange>)

  /** The commits of a run in which every git command succeeded: one per group, in group order, with the shas git reported. */
  function CommitsFor(groups: seq<(string, seq<CodeChange>)>, shas: seq<string>): seq<Commit>
    requires |shas| == |groups|
  {
    seq(|groups|, i requires 0 <= i < |groups| => Commit(shas[i], groups[i].0, groups[i].1))
  }

  /** The shas of a run in which every group's git commands succeeded. */
  function Shas(outcomes: seq<Option<string>>): (r: seq<string>)
    requires forall i :: 0 <= i < |outcomes| ==> outcomes[i].Some?
    ensures |r| == |outcomes|
    ensures forall i :: 0 <= i < |r| ==> outcomes[i] == Some(r[i])
  {
    seq(|outcomes|, i requires 0 <= i < |outcomes| => outcomes[i].value)
  }

  /**
   * `create_real_commits`: `branchCreated` is whether `git checkout -b` succeeded, and
   * `outcomes[i]` is git's stripped `rev-parse HEAD` answer after group `i` was added and
   * committed, or `None` when one of those commands exited non-zero. Every command runs
   * with `check=True` and nothing catches the error, so any failure ends the run with no commits.
   */
  method CreateRealCommits(changes: seq<CodeChange>, branchCreated: bool, outcomes: seq<Option<string>>)
    returns (commits: Option<seq<Commit>>)
    requires |outcomes| == |GroupChangesForCommits(changes)|
    ensures commits.Some? <==> branchCreated && forall i :: 0 <= i < |outcomes| ==> outcomes[i].Some?
    ensures commits.Some? ==> commits.value == CommitsFor(GroupChangesForCommits(changes), Shas(outcomes))
  {
    if !branchCreated {
      return None;
    }
    var groups := GroupChangesForCommits(changes);
    var made: seq<Commit> := [];
    for i := 0 to |groups|
      invariant forall j :: 0 <= j < i ==> outcomes[j].Some?
      invariant |made| == i
      invariant forall j :: 0 <= j < i ==> made[j] == Commit(outcomes[j].value, groups[j].0, groups[j].1)
    {
      match outcomes[i] {
        case None =>
          return None;
        case Some(sha) =>
          made := made + [Commit(sha, groups[i].0, groups[i].1)];
      }
    }
    commits := Some(made);
  }

  /** Group `i` holds no change that an earlier group has not already committed. */
  predicate NothingNewToStage(groups: seq<(string, seq<CodeChange>)>, i: nat)
    requires i < |groups|
  {
    forall c :: c in groups[i].1 ==> exists j :: 0 <= j < i && c in groups[j].1
  }

  /**
   * A lone `readme.py` change is committed with the docs group, so the Python group after it
   * has nothing new to stage; git refuses such a commit, which makes that group's outcome `None`.
   */
  lemma ReadmePyNothingNewForPython(c: CodeChange)
    requires c.filePath == "readme.py"
    ensures |GroupChangesForCommits([c])| == 2
    ensures NothingNewToStage(GroupChangesForCommits([c]), 1)
  {
    var groups := GroupChangesForCommits([c]);
    ReadmePyInTwoGroups(c);
    forall d | d in groups[1].1
      ensures exists j :: 0 <= j < 1 && d in groups[j].1
    {
      assert d == c;
      assert c in groups[0].1;
    }
  }

  datatype Measure = Added | Removed

  function Amount(c: CodeChange, m: Measure): int
  {
    match m
    case Added => c.linesAdded
    case Removed => c.linesRemoved
  }

  /** The sum of one measure over a list of changes. */
  function SumOf(changes: seq<CodeChange>, m: Measure): int
  {
    if changes == [] then 0 else SumOf(changes[..|changes| - 1], m) + Amount(changes[|changes| - 1], m)
  }

  /** `total_additions` / `total_deletions`: the sum over all commits of the sum over their changes. */
  function PrTotal(commits: seq<Commit>, m: Measure): int
  {
    if commits == [] then 0 else PrTotal(commits[..|commits| - 1], m) + SumOf(commits[|commits| - 1].changes, m)
  }

  /** A change counted by two groups: documentation that is also Python or configuration. */
  predicate CountedTwice(c: CodeChange)
  {
    IsDocs(c) && (IsPython(c) || IsConfig(c))
  }

  function SumTwice(changes: seq<CodeChange>, m: Measure): int
  {
    if changes == [] then 0
    else SumTwice(changes[..|changes| - 1], m) + (if CountedTwice(changes[|changes| - 1]) then Amount(changes[|changes| - 1], m) else 0)
  }

  lemma {:induction false} KindsSum(changes: seq<CodeChange>, m: Measure)
    ensures SumOf(OfKindIn(changes, Docs), m) + SumOf(OfKindIn(changes, Python), m)
          + SumOf(OfKindIn(changes, Config), m) + SumOf(OfKindIn(changes, Other), m)
          == SumOf(changes, m) + SumTwice(changes, m)
    decreases |changes|
  {
    if changes != [] {
      var init := changes[..|changes| - 1];
      var last := changes[|changes| - 1];
      KindsSum(init, m);
      PythonNotConfig(last);
      OfKindStep(changes, Docs, m);
      OfKindStep(changes, Python, m);
      OfKindStep(changes, Config, m);
      OfKindStep(changes, Other, m);
    }
  }

  /** A path cannot end in both `.py` and `.json`. */
  lemma PythonNotConfig(c: CodeChange)
    ensures !(IsPython(c) && IsConfig(c))
  {
    var n := |c.filePath|;
    assert IsPython(c) ==> c.filePath[n - 1] == ".py"[2];
    assert IsConfig(c) ==> c.filePath[n - 1] == ".json"[4];
  }

  lemma OfKindStep(changes: seq<CodeChange>, k: Kind, m: Measure)
    requires changes != []
    ensures var last := changes[|changes| - 1];
      SumOf(OfKindIn(changes, k), m) == SumOf(OfKindIn(changes[..|changes| - 1], k), m) + (if OfKind(last, k) then Amount(last, m) else 0)
  {
    var init := changes[..|changes| - 1];
    var last := changes[|changes| - 1];
    if OfKind(last, k) {
      assert OfKindIn(changes, k) == OfKindIn(init, k) + [last];
    } else {
      assert OfKindIn(changes, k) == OfKindIn(init, k);
    }
  }

  /** The sum of one measure over the changes of a list of groups. */
  function GroupsTotal(groups: seq<(string, seq<CodeChange>)>, m: Measure): int
  {
    if groups == [] then 0 else GroupsTotal(groups[..|groups| - 1], m) + SumOf(groups[|groups| - 1].1, m)
  }

  lemma {:induction false} CommitsTotal(groups: seq<(string, seq<CodeChange>)>, shas: seq<string>, m: Measure)
    requires |shas| == |groups|
    ensures PrTotal(CommitsFor(groups, shas), m) == GroupsTotal(groups, m)
    decreases |groups|
  {
    if groups != [] {
      var n := |groups| - 1;
      CommitsTotal(groups[..n], shas[..n], m);
      assert CommitsFor(groups, shas)[..n] == CommitsFor(groups[..n], shas[..n]);
    }
  }

  lemma {:induction false} GroupsTotalAppend(a: seq<(string, seq<CodeChange>)>, b: seq<(string, seq<CodeChange>)>, m: Measure)
    ensures GroupsTotal(a + b, m) == GroupsTotal(a, m) + GroupsTotal(b, m)
    decreases |b|
  {
    if b == [] {
      assert a + b == a;
    } else {
      var n := |b| - 1;
      GroupsTotalAppend(a, b[..n], m);
      assert (a + b)[..|a + b| - 1] == a + b[..n];
    }
  }

  lemma GroupIfAnyTotal(changes: seq<CodeChange>, k: Kind, m: Measure)
    ensures GroupsTotal(GroupIfAny(changes, k), m) == SumOf(OfKindIn(changes, k), m)
  {
    if OfKindIn(changes, k) != [] {
      assert GroupIfAny(changes, k)[..0] == [];
    }
  }

  /**
    The totals of the pull request count every change once, and a second
    time when it sits in two groups (documentation that is also Python or
    configuration). Python and configuration never overlap.
  */
  lemma PrTotalsCountOverlapTwice(changes: seq<CodeChange>, shas: seq<string>, m: Measure)
    requires |shas| == |GroupChangesForCommits(changes)|
    ensures PrTotal(CommitsFor(GroupChangesForCommits(changes), shas), m) == SumOf(changes, m) + SumTwice(changes, m)
  {
    var d, p, f, o := GroupIfAny(changes, Docs), GroupIfAny(changes, Python), GroupIfAny(changes, Config), GroupIfAny(changes, Other);
    CommitsTotal(GroupChangesForCommits(changes), shas, m);
    GroupsTotalAppend(d + p + f, o, m);
    GroupsTotalAppend(d + p, f, m);
    GroupsTotalAppend(d, p, m);
    GroupIfAnyTotal(changes, Docs, m);
    GroupIfAnyTotal(changes, Python, m);
    GroupIfAnyTotal(changes, Config, m);
    GroupIfAnyTotal(changes, Other, m);
    KindsSum(changes, m);
  }
}

=== FILE: env_file.dfy ===
/**
  The `.env` loader that code_review_agent.py, pr_merge_agent.py and
  code_review_agent_setup.py each carry as `load_env_file` (three identical
  copies): every accepted `KEY=VALUE` line of `.env` is written into the
  process environment, later lines overwriting earlier ones.

  The process environment (`os.environ`) is the object `Environ`. Writing an
  entry fails, as the operating system's `setenv`/`putenv` does, for an empty
  name or a NUL character; the Python exception then propagates, which the
  loader reports as `completed == false`.
*/
module EnvFile {
  import opened Basics
  import opened Text

  type Entry = (string, string)

  /** The process environment: a mutable name-to-value map. */
  class Environ {
    var vars: map<string, string>

    constructor (initial: map<string, string>)
      ensures vars == initial
    {
      vars := initial;
    }
  }

  /** A name/value pair the operating system accepts as an environment entry. */
  predicate Settable(e: Entry)
  {
    e.0 != "" && '\0' !in e.0 && '\0' !in e.1
  }

  /** A stripped line is used when it is non-empty, not a `#` comment, and has an `=`. */
  predicate Accepted(line: string)
  {
    line != "" && !StartsWith(line, "#") && '=' in line
  }

  /** The key and value of one raw line, split at the first `=` and stripped; `None` when skipped. */
  function ParseLine(raw: string): Option<Entry>
  {
    var line := Strip(raw);
    if Accepted(line) then
      var kv := SplitOnce(line, '=').value;
      Some((Strip(kv.0), Strip(kv.1)))
    else None
  }

  /** The outcome of every line, in line order. */
  function Parsed(lines: seq<string>): seq<Option<Entry>>
  {
    seq(|lines|, i requires 0 <= i < |lines| => ParseLine(lines[i]))
  }

  /** The entries present among the outcomes, in order. */
  function Present(ps: seq<Option<Entry>>): seq<Entry>
  {
    if ps == [] then []
    else Present(ps[..|ps| - 1]) + (match ps[|ps| - 1] case Some(e) => [e] case None => [])
  }

  /** The entries of a file, in line order. */
  function Entries(lines: seq<string>): seq<Entry>
  {
    Present(Parsed(lines))
  }

  /** Assigning entries one after the other: a later entry with the same key wins. */
  function Apply(env: map<string, string>, es: seq<Entry>): map<string, string>
  {
    if es == [] then env else Apply(env, es[..|es| - 1])[es[|es| - 1].0 := es[|es| - 1].1]
  }

  /** The name-to-value map a `.env` file describes. */
  function EnvMap(lines: seq<string>): map<string, string>
  {
    Apply(map[], Entries(lines))
  }

  lemma PresentStep(ps: seq<Option<Entry>>, i: nat)
    requires i < |ps|
    ensures ps[i].None? ==> Present(ps[..i + 1]) == Present(ps[..i])
    ensures ps[i].Some? ==> Present(ps[..i + 1]) == Present(ps[..i]) + [ps[i].value]
  {
    assert ps[..i + 1][..i] == ps[..i];
    if ps[i].None? {
      assert Present(ps[..i]) + [] == Present(ps[..i]);
    }
  }

  lemma ApplyStep(env: map<string, string>, es: seq<Entry>, e: Entry)
    ensures Apply(env, es + [e]) == Apply(env, es)[e.0 := e.1]
  {
    assert (es + [e])[..|es|] == es;
  }

  lemma ParsedPrefix(lines: seq<string>, i: nat)
    requires i <= |lines|
    ensures Parsed(lines[..i]) == Parsed(lines)[..i]
  {
  }

  /**
    Loads `.env` (`file` is `None` when it does not exist) into `env`.
    Without a file nothing changes. Otherwise the entries are written in line
    order; `completed` is false when some entry could not be written, and then
    exactly the entries before the first such one have been written.
  */
  method LoadEnvFile(env: Environ, file: Option<seq<string>>) returns (completed: bool)
    modifies env
    ensures file.None? ==> completed && env.vars == old(env.vars)
    ensures file.Some? ==>
      (completed <==> forall e | e in Entries(file.value) :: Settable(e))
    ensures file.Some? && completed ==> env.vars == Apply(old(env.vars), Entries(file.value))
    ensures file.Some? && !completed ==>
      exists i :: 0 <= i < |file.value| && ParseLine(file.value[i]).Some?
        && !Settable(ParseLine(file.value[i]).value)
        && (forall e | e in Entries(file.value[..i]) :: Settable(e))
        && env.vars == Apply(old(env.vars), Entries(file.value[..i]))
  {
    completed := true;
    if file.None? {
      return;
    }
    var lines := file.value;
    ghost var ps := Parsed(lines);
    for i := 0 to |lines|
      invariant env.vars == Apply(old(env.vars), Present(ps[..i]))
      invariant forall e | e in Present(ps[..i]) :: Settable(e)
    {
      PresentStep(ps, i);
      match ParseLine(lines[i])
      case None =>
      case Some(entry) =>
        if !Settable(entry) {
          completed := false;
          PresentFollowing(ps, i);
          ParsedPrefix(lines, i);
          return;
        }
        ApplyStep(old(env.vars), Present(ps[..i]), entry);
        env.vars := env.vars[entry.0 := entry.1];
    }
    assert ps[..|lines|] == ps;
  }

  /** The entries of a sequence of outcomes are those of a prefix, then those of the rest. */
  lemma {:induction false} PresentAppend(p: seq<Option<Entry>>, q: seq<Option<Entry>>)
    ensures Present(p + q) == Present(p) + Present(q)
    decreases |q|
  {
    if q == [] {
      assert p + q == p;
    } else {
      var q' := q[..|q| - 1];
      PresentAppend(p, q');
      assert (p + q)[..|p + q| - 1] == p + q';
      assert (p + q)[|p + q| - 1] == q[|q| - 1];
    }
  }

  /** An entry that is present is among the entries of the whole sequence. */
  lemma PresentFollowing(ps: seq<Option<Entry>>, i: nat)
    requires i < |ps| && ps[i].Some?
    ensures ps[i].value in Present(ps)
  {
    assert ps == ps[..i + 1] + ps[i + 1..];
    PresentAppend(ps[..i + 1], ps[i + 1..]);
    PresentStep(ps, i);
  }

  lemma {:induction false} PresentLastWins(ps: seq<Option<Entry>>, env: map<string, string>, i: nat)
    requires i < |ps| && ps[i].Some?
    requires forall j :: i < j < |ps| && ps[j].Some? ==> ps[j].value.0 != ps[i].value.0
    ensures ps[i].value.0 in Apply(env, Present(ps))
    ensures Apply(env, Present(ps))[ps[i].value.0] == ps[i].value.1
    decreases |ps|
  {
    var n := |ps| - 1;
    var init := ps[..n];
    var es := Present(ps);
    if i == n {
      assert es[|es| - 1] == ps[i].value;
    } else {
      PresentLastWins(init, env, i);
      if ps[n].Some? {
        assert es[..|es| - 1] == Present(init);
      } else {
        assert es == Present(init);
      }
    }
  }

  lemma {:induction false} PresentKeys(ps: seq<Option<Entry>>, k: string)
    requires k in Apply(map[], Present(ps))
    ensures exists i :: 0 <= i < |ps| && ps[i].Some? && ps[i].value.0 == k
    decreases |ps|
  {
    var n := |ps| - 1;
    var init := ps[..n];
    var es := Present(ps);
    if ps[n].Some? && ps[n].value.0 == k {
    } else {
      if ps[n].Some? {
        assert es[..|es| - 1] == Present(init);
      } else {
        assert es == Present(init);
      }
      PresentKeys(init, k);
      var i :| 0 <= i < |init| && init[i].Some? && init[i].value.0 == k;
      assert ps[i] == init[i];
    }
  }

  // ---------------------------------------------------------------------------
  // What the loaded map says

  /**
    A key defined on some line is in the map of the file with the value of
    that line, when no later line defines it again.
  */
  lemma LastDefinitionWins(lines: seq<string>, i: nat)
    requires i < |lines| && ParseLine(lines[i]).Some?
    requires forall j :: i < j < |lines| && ParseLine(lines[j]).Some? ==>
               ParseLine(lines[j]).value.0 != ParseLine(lines[i]).value.0
    ensures ParseLine(lines[i]).value.0 in EnvMap(lines)
    ensures EnvMap(lines)[ParseLine(lines[i]).value.0] == ParseLine(lines[i]).value.1
  {
    PresentLastWins(Parsed(lines), map[], i);
  }

  /** Every key of the map comes from some line of the file. */
  lemma KeysComeFromLines(lines: seq<string>, k: string)
    requires k in EnvMap(lines)
    ensures exists i :: 0 <= i < |lines| && ParseLine(lines[i]).Some? && ParseLine(lines[i]).value.0 == k
  {
    PresentKeys(Parsed(lines), k);
  }

  /**
    A line `pre=post` (no surrounding whitespace, not a comment) is split at
    its first `=`: everything after it, further `=` signs included, is the value.
  */
  lemma SplitsAtFirstEquals(pre: string, post: string)
    requires |pre| > 0 && !IsSpace(pre[0]) && pre[0] != '#' && '=' !in pre
    requires post == "" || !IsSpace(post[|post| - 1])
    ensures ParseLine(pre + "=" + post) == Some((Strip(pre), Strip(post)))
  {
    var line := pre + "=" + post;
    assert line[|line| - 1] == if post == "" then '=' else post[|post| - 1];
    TrimKeeps(line, Spaces);
    assert line[|pre|] == '=';
    assert !StartsWith(line, "#");
    var kv := SplitOnce(line, '=').value;
    assert |kv.0| == |pre|;
    assert kv.0 == line[..|pre|] == pre;
    assert kv.1 == post;
  }
}

=== FILE: git_analyzer.dfy ===
/**
  git.py: the repository analyser. Every statistic comes from one git
  command whose output is stripped before it is parsed; a failing command
  yields the statistic's fallback. Modelled here: the commit count, the
  tracked-file count, the contributor list from `shortlog -sn`, and the
  contributor section of the printed report.
*/
module GitAnalyzer {
  import opened Basics
  import opened Text

  /** What a git command produced: its standard output, or a non-zero exit. */
  datatype GitResult = Failed | Succeeded(stdout: string)

  /** `t` sits in `s` at `lo`, and only whitespace surrounds it. */
  predicate SpaceFramed(s: string, lo: int, t: string)
  {
    && 0 <= lo && lo + |t| <= |s|
    && t == s[lo..lo + |t|]
    && (forall k :: 0 <= k < lo ==> IsSpace(s[k]))
    && (forall k :: lo + |t| <= k < |s| ==> IsSpace(s[k]))
  }

  /** `_run_git_command`: the stripped output, or `None` when the command failed. */
  function RunGitCommand(r: GitResult): (out: Option<string>)
    ensures out.Some? <==> r.Succeeded?
    ensures out.Some? ==> |out.value| <= |r.stdout|
    ensures out.Some? && |out.value| > 0 ==> !IsSpace(out.value[0]) && !IsSpace(out.value[|out.value| - 1])
    ensures out.Some? ==> exists lo :: SpaceFramed(r.stdout, lo, out.value)
  {
    match r
    case Failed => None
    case Succeeded(stdout) =>
      TrimSlice(stdout, Spaces);
      assert SpaceFramed(stdout, Leading(stdout, Spaces), Strip(stdout));
      Some(Strip(stdout))
  }

  // ---------------------------------------------------------------------------
  // Counts

  /** `get_commit_count`: the output of `rev-list --count HEAD` as an integer; 0 when that fails. */
  function GetCommitCount(r: GitResult): (n: int)
    ensures r.Failed? ==> n == 0
    ensures r.Succeeded? ==> n == (match ParseInt(Strip(r.stdout)) case Some(v) => v case None => 0)
  {
    match RunGitCommand(r)
    case None => 0
    case Some(out) => match ParseInt(out) case Some(v) => v case None => 0
  }

  /** The count git prints, with its newline, reads back as that count. */
  lemma CommitCountReadsBack(count: nat)
    ensures GetCommitCount(Succeeded(NatToString(count) + "\n")) == count
  {
    var s := NatToString(count);
    StripNewline(s);
    NatRoundTrip(count);
  }

  /** Output that is no number counts as no commits. */
  lemma CommitCountFallback(stdout: string, k: nat)
    requires k < |Strip(stdout)| && !IsDigit(Strip(stdout)[k]) && !IsSpace(Strip(stdout)[k])
    requires Strip(stdout)[k] != '_' && Strip(stdout)[k] != '-' && Strip(stdout)[k] != '+'
    ensures GetCommitCount(Succeeded(stdout)) == 0
  {
    ParseIntRejectsLetters(Strip(stdout), k);
  }

  /** `get_file_count`: the number of lines of `ls-files`, 0 for no output or a failure. */
  function GetFileCount(r: GitResult): (n: nat)
    ensures r.Failed? || Strip(r.stdout) == "" ==> n == 0
    ensures r.Succeeded? && Strip(r.stdout) != "" ==> n == CountChar(Strip(r.stdout), '\n') + 1
  {
    match RunGitCommand(r)
    case None => 0
    case Some(out) =>
      SplitLength(out, '\n');
      if out == "" then 0 else |Split(out, '\n')|
  }

  /** A listing of tracked paths, one per line, counts each path once. */
  lemma FileCountOfListing(paths: seq<string>)
    requires |paths| >= 1
    requires forall k :: 0 <= k < |paths| ==> paths[k] != [] && '\n' !in paths[k]
    requires !IsSpace(paths[0][0]) && !IsSpace(paths[|paths| - 1][|paths[|paths| - 1]| - 1])
    ensures GetFileCount(Succeeded(Join(paths, "\n") + "\n")) == |paths|
  {
    var listing := Join(paths, "\n");
    JoinEnds(paths, "\n");
    StripNewline(listing);
    SplitJoin(paths, '\n');
  }

  // ---------------------------------------------------------------------------
  // Contributors

  /** The contributor of one `shortlog` line: the text after the first tab of the stripped line. */
  function ContributorOf(line: string): (r: Option<string>)
    ensures r.Some? <==> Strip(line) != "" && '\t' in Strip(line)
    ensures r.Some? ==> exists pre :: Strip(line) == pre + "\t" + r.value && '\t' !in pre
  {
    var stripped := Strip(line);
    if stripped == "" then None
    else match SplitOnce(stripped, '\t')
      case Some(parts) =>
        assert stripped == parts.0 + "\t" + parts.1;
        Some(parts.1)
      case None => None
  }

  /** The contributors of a list of lines, in line order. */
  function ContributorsOf(lines: seq<string>): (names: seq<string>)
    ensures |names| <= |lines|
  {
    if lines == [] then []
    else
      ContributorsOf(lines[..|lines| - 1])
      + (match ContributorOf(lines[|lines| - 1]) case Some(name) => [name] case None => [])
  }

  /** `get_contributors`: one pass over the lines of the stripped `shortlog -sn --all` output. */
  method GetContributors(r: GitResult) returns (contributors: seq<string>)
    ensures r.Failed? ==> contributors == []
    ensures r.Succeeded? ==> contributors == ContributorsOf(Split(Strip(r.stdout), '\n'))
  {
    contributors := [];
    match RunGitCommand(r)
    case None =>
    case Some(out) =>
      var lines := Split(out, '\n');
      for i := 0 to |lines|
        invariant contributors == ContributorsOf(lines[..i])
      {
        ContributorsStep(lines, i);
        var stripped := Strip(lines[i]);
        if stripped != "" {
          match SplitOnce(stripped, '\t')
          case Some(parts) =>
            contributors := contributors + [parts.1];
          case None =>
        }
      }
      assert lines[..|lines|] == lines;
  }

  lemma ContributorsStep(lines: seq<string>, i: nat)
    requires i < |lines|
    ensures ContributorsOf(lines[..i + 1])
      == ContributorsOf(lines[..i]) + (match ContributorOf(lines[i]) case Some(name) => [name] case None => [])
  {
    assert lines[..i + 1][..i] == lines[..i];
  }

  /**
    A `shortlog -sn` line, `<blanks><count>\t<name>`, yields the name, when
    the name does not end in whitespace.
  */
  lemma ShortlogLineYieldsName(blanks: string, count: nat, name: string)
    requires forall k :: 0 <= k < |blanks| ==> blanks[k] == ' '
    requires name != [] && !IsSpace(name[|name| - 1])
    ensures ContributorOf(blanks + NatToString(count) + "\t" + name) == Some(name)
  {
    var digits := NatToString(count);
    var core := digits + "\t" + name;
    assert Strip(blanks + digits + "\t" + name) == core by {
      assert blanks + digits + "\t" + name == blanks + core;
      BlanksStrip(blanks, core);
      CoreStrips(digits, name);
    }
    assert SplitOnce(core, '\t') == Some((digits, name)) by {
      assert forall k :: 0 <= k < |digits| ==> IsDigit(digits[k]);
      SplitOnceAt(digits, name);
    }
  }

  /** A count followed by a tab and a name has no blank ends when the name does not end in one. */
  lemma CoreStrips(digits: string, name: string)
    requires digits != [] && IsDigit(digits[0]) && name != [] && !IsSpace(name[|name| - 1])
    ensures Strip(digits + "\t" + name) == digits + "\t" + name
  {
    var core := digits + "\t" + name;
    assert core[0] == digits[0];
    assert core[|core| - 1] == name[|name| - 1];
    TrimKeeps(core, Spaces);
  }

  /** Leading blanks do not change what a line strips to. */
  lemma {:induction false} BlanksStrip(blanks: string, s: string)
    requires forall k :: 0 <= k < |blanks| ==> blanks[k] == ' '
    ensures Strip(blanks + s) == Strip(s)
    decreases |blanks|
  {
    if blanks == [] {
      assert blanks + s == s;
    } else {
      var t := blanks + s;
      assert t[1..] == blanks[1..] + s;
      BlanksStrip(blanks[1..], s);
      var lead := Leading(t[1..], Spaces);
      assert Leading(t, Spaces) == 1 + lead;
      assert t[1 + lead..] == t[1..][lead..];
      assert Strip(t) == Strip(t[1..]);
    }
  }

  /** Splitting `pre + "\t" + post` once, with no tab in `pre`, gives `pre` and `post`. */
  lemma SplitOnceAt(pre: string, post: string)
    requires '\t' !in pre
    ensures SplitOnce(pre + "\t" + post, '\t') == Some((pre, post))
  {
    var s := pre + "\t" + post;
    var parts := SplitOnce(s, '\t').value;
    assert s == parts.0 + ['\t'] + parts.1;
    assert forall j :: 0 <= j < |pre| ==> s[j] == pre[j];
    assert s[|pre|] == '\t';
    assert forall j :: 0 <= j < |parts.0| ==> s[j] == parts.0[j];
    assert parts.0 == s[..|pre|] == pre;
    assert parts.1 == s[|pre| + 1..] == post;
  }

  // ---------------------------------------------------------------------------
  // The report

  const ListedContributors := 10

  /** One numbered line of the contributor list. */
  function ContributorLine(i: nat, name: string): string
  {
    "   " + NatToString(i) + ". " + name
  }

  /**
    The contributor section of `print_report` after its heading: the first
    ten contributors numbered from 1, then `... and N more` when there are
    more than ten.
  */
  method ContributorSection(contributors: seq<string>) returns (lines: seq<string>)
    ensures |contributors| <= ListedContributors ==> |lines| == |contributors|
    ensures |contributors| > ListedContributors ==> |lines| == ListedContributors + 1
    ensures forall i :: 0 <= i < |contributors| && i < ListedContributors ==>
      lines[i] == ContributorLine(i + 1, contributors[i])
    ensures |contributors| > ListedContributors ==>
      lines[ListedContributors] == "   ... and " + NatToString(|contributors| - ListedContributors) + " more"
  {
    var shown := if |contributors| > ListedContributors then contributors[..ListedContributors] else contributors;
    lines := [];
    for i := 0 to |shown|
      invariant |lines| == i
      invariant forall j :: 0 <= j < i ==> lines[j] == ContributorLine(j + 1, contributors[j])
    {
      lines := lines + [ContributorLine(i + 1, shown[i])];
    }
    if |contributors| > ListedContributors {
      lines := lines + ["   ... and " + NatToString(|contributors| - ListedContributors) + " more"];
    }
  }

  /** The count of the trailing line reads back as the number of contributors beyond the ten listed. */
  lemma MoreCountAddsUp(contributors: seq<string>)
    requires |contributors| > ListedContributors
    ensures var more := "   ... and " + NatToString(|contributors| - ListedContributors) + " more";
      var digits := more[11..|more| - 5];
      ParseInt(digits) == Some(|contributors| - ListedContributors)
  {
    var n := |contributors| - ListedContributors;
    var more := "   ... and " + NatToString(n) + " more";
    assert more[11..|more| - 5] == NatToString(n) by {
      assert |"   ... and "| == 11 && |" more"| == 5;
      MiddleOf("   ... and ", NatToString(n), " more");
    }
    NatRoundTrip(n);
  }
}

=== FILE: pr_merge.dfy ===
/**
  pr_merge_agent.py: the merge gate. It reads the reviews of a pull request
  (only each reviewer's latest review counts), the combined commit status,
  and the pull request's own state, decides whether merging is safe, asks the
  user for confirmation, merges, and offers to delete the feature branch.

  The HTTP answers and the user's typed answers are parameters.
*/
module PrMerge {
  import opened Basics
  import opened Text

  // ---------------------------------------------------------------------------
  // Prompting

  const DefaultOwner := "terrytaylorbonn"
  const DefaultRepo := "416bbb_copilot_coding_agent"

  /** A stripped answer, or the default when it is empty. */
  function OrDefault(answer: string, default: string): string
  {
    var a := Strip(answer);
    if a == "" then default else a
  }

  /**
    `get_user_inputs`: the owner and the repository name (blank answers take
    the defaults), then the pull request number, asked again until an answer
    reads as an integer. `numberLines` are the answers typed at that prompt;
    the result is `None` when they run out first (input ends).
  */
  method GetUserInputs(ownerLine: string, repoLine: string, numberLines: seq<string>)
    returns (inputs: Option<(string, string, int)>)
    ensures inputs.Some? <==> exists i :: 0 <= i < |numberLines| && ParseInt(Strip(numberLines[i])).Some?
    ensures inputs.Some? ==>
      && inputs.value.0 == OrDefault(ownerLine, DefaultOwner)
      && inputs.value.1 == OrDefault(repoLine, DefaultRepo)
      && exists i :: 0 <= i < |numberLines|
           && (forall j :: 0 <= j < i ==> ParseInt(Strip(numberLines[j])).None?)
           && ParseInt(Strip(numberLines[i])) == Some(inputs.value.2)
  {
    var owner := OrDefault(ownerLine, DefaultOwner);
    var repo := OrDefault(repoLine, DefaultRepo);
    var i := 0;
    while i < |numberLines|
      invariant i <= |numberLines|
      invariant forall j :: 0 <= j < i ==> ParseInt(Strip(numberLines[j])).None?
    {
      var number := ParseInt(Strip(numberLines[i]));
      if number.Some? {
        inputs := Some((owner, repo, number.value));
        assert ParseInt(Strip(numberLines[i])) == Some(inputs.value.2);
        return;
      }
      NoNumberYet(numberLines, i);
      i := i + 1;
    }
    inputs := None;
  }

  /** One more answer that is no integer: the prompt is repeated. */
  lemma NoNumberYet(lines: seq<string>, i: nat)
    requires i < |lines| && ParseInt(Strip(lines[i])).None?
    requires forall j :: 0 <= j < i ==> ParseInt(Strip(lines[j])).None?
    ensures forall j :: 0 <= j < i + 1 ==> ParseInt(Strip(lines[j])).None?
  {
  }

  // ---------------------------------------------------------------------------
  // Reviews

  /** One review: its author's login and its state (`APPROVED`, `REQUEST_CHANGES`, ...). */
  datatype Review = Review(login: string, state: string)

  /** Reviewer to state of that reviewer's latest review: a later review overwrites an earlier one. */
  function Latest(reviews: seq<Review>): map<string, string>
  {
    if reviews == [] then map[]
    else Latest(reviews[..|reviews| - 1])[reviews[|reviews| - 1].login := reviews[|reviews| - 1].state]
  }

  /** The reviewers whose latest review has the given state. */
  function WithState(latest: map<string, string>, state: string): set<string>
  {
    set r | r in latest && latest[r] == state
  }

  /** The three counters of `check_pr_reviews`. */
  datatype Tally = Tally(approvals: nat, rejections: nat, comments: nat)

  /**
    The two loops of `check_pr_reviews`: keep the latest review of every
    reviewer, then count the latest states. States other than the three
    exact spellings count toward nothing.
  */
  method TallyReviews(reviews: seq<Review>) returns (t: Tally)
    ensures t.approvals == |WithState(Latest(reviews), "APPROVED")|
    ensures t.rejections == |WithState(Latest(reviews), "REQUEST_CHANGES")|
    ensures t.comments == |WithState(Latest(reviews), "COMMENTED")|
  {
    var latest: map<string, string> := map[];
    for i := 0 to |reviews|
      invariant latest == Latest(reviews[..i])
    {
      assert reviews[..i + 1][..i] == reviews[..i];
      latest := latest[reviews[i].login := reviews[i].state];
    }
    assert reviews[..|reviews|] == reviews;
    t := CountLatest(latest);
  }

  /** The second loop of `check_pr_reviews`: one pass over the reviewers, counting their latest states. */
  method CountLatest(latest: map<string, string>) returns (t: Tally)
    ensures t.approvals == |WithState(latest, "APPROVED")|
    ensures t.rejections == |WithState(latest, "REQUEST_CHANGES")|
    ensures t.comments == |WithState(latest, "COMMENTED")|
  {
    var approvals, rejections, comments := 0, 0, 0;
    var remaining := latest.Keys;
    NoneCountedYet(latest);
    while remaining != {}
      invariant remaining <= latest.Keys
      invariant Tally(approvals, rejections, comments) == CountedOutside(latest, remaining)
      decreases |remaining|
    {
      var reviewer :| reviewer in remaining;
      var state := latest[reviewer];
      CountOneMore(latest, remaining, reviewer);
      if state == "APPROVED" {
        approvals := approvals + 1;
      } else if state == "REQUEST_CHANGES" {
        rejections := rejections + 1;
      } else if state == "COMMENTED" {
        comments := comments + 1;
      }
      remaining := remaining - {reviewer};
    }
    AllCounted(latest);
    t := Tally(approvals, rejections, comments);
  }

  /** The counts over the reviewers outside `remaining`. */
  function CountedOutside(latest: map<string, string>, remaining: set<string>): Tally
  {
    Tally(|WithState(latest, "APPROVED") - remaining|,
          |WithState(latest, "REQUEST_CHANGES") - remaining|,
          |WithState(latest, "COMMENTED") - remaining|)
  }

  /** One reviewer's latest state added to the counts, as the loop's `if`/`elif` chain does. */
  function Counted(t: Tally, state: string): Tally
  {
    if state == "APPROVED" then t.(approvals := t.approvals + 1)
    else if state == "REQUEST_CHANGES" then t.(rejections := t.rejections + 1)
    else if state == "COMMENTED" then t.(comments := t.comments + 1)
    else t
  }

  lemma NoneCountedYet(latest: map<string, string>)
    ensures CountedOutside(latest, latest.Keys) == Tally(0, 0, 0)
  {
    assert WithState(latest, "APPROVED") - latest.Keys == {};
    assert WithState(latest, "REQUEST_CHANGES") - latest.Keys == {};
    assert WithState(latest, "COMMENTED") - latest.Keys == {};
  }

  lemma AllCounted(latest: map<string, string>)
    ensures CountedOutside(latest, {}) ==
      Tally(|WithState(latest, "APPROVED")|, |WithState(latest, "REQUEST_CHANGES")|, |WithState(latest, "COMMENTED")|)
  {
    assert WithState(latest, "APPROVED") - {} == WithState(latest, "APPROVED");
    assert WithState(latest, "REQUEST_CHANGES") - {} == WithState(latest, "REQUEST_CHANGES");
    assert WithState(latest, "COMMENTED") - {} == WithState(latest, "COMMENTED");
  }

  /** Taking one reviewer out of the remaining ones adds one to its state's count and to no other. */
  lemma CountOneMore(latest: map<string, string>, remaining: set<string>, reviewer: string)
    requires reviewer in remaining && remaining <= latest.Keys
    ensures CountedOutside(latest, remaining - {reviewer}) == Counted(CountedOutside(latest, remaining), latest[reviewer])
  {
    StatesDistinct();
    StateCountOneMore(latest, "APPROVED", remaining, reviewer);
    StateCountOneMore(latest, "REQUEST_CHANGES", remaining, reviewer);
    StateCountOneMore(latest, "COMMENTED", remaining, reviewer);
  }

  /** The three counted review states are different words. */
  lemma StatesDistinct()
    ensures "APPROVED" != "REQUEST_CHANGES" && "APPROVED" != "COMMENTED" && "REQUEST_CHANGES" != "COMMENTED"
  {
    assert |"APPROVED"| == 8 && |"REQUEST_CHANGES"| == 15 && |"COMMENTED"| == 9;
  }

  lemma StateCountOneMore(latest: map<string, string>, state: string, remaining: set<string>, reviewer: string)
    requires reviewer in remaining && remaining <= latest.Keys
    ensures |WithState(latest, state) - (remaining - {reviewer})| ==
      |WithState(latest, state) - remaining| + (if latest[reviewer] == state then 1 else 0)
  {
    var s := WithState(latest, state);
    if latest[reviewer] == state {
      assert s - (remaining - {reviewer}) == (s - remaining) + {reviewer};
    } else {
      assert s - (remaining - {reviewer}) == s - remaining;
    }
  }

  /** The three counts together never exceed the number of distinct reviewers. */
  lemma CountsBoundedByReviewers(reviews: seq<Review>)
    ensures var l := Latest(reviews);
      |WithState(l, "APPROVED")| + |WithState(l, "REQUEST_CHANGES")| + |WithState(l, "COMMENTED")| <= |l.Keys|
  {
    var l := Latest(reviews);
    var a, r, c := WithState(l, "APPROVED"), WithState(l, "REQUEST_CHANGES"), WithState(l, "COMMENTED");
    assert a * r == {} && a * c == {} && r * c == {};
    assert |a + r| == |a| + |r|;
    assert |a + r + c| == |a + r| + |c|;
    assert a + r + c <= l.Keys;
    SubsetCardinality(a + r + c, l.Keys);
  }

  lemma SubsetCardinality(a: set<string>, b: set<string>)
    requires a <= b
    ensures |a| <= |b|
  {
    assert b == a + (b - a);
  }

  /** The reviewers of the map are exactly the logins of the reviews. */
  lemma {:induction false} LatestReviewers(reviews: seq<Review>)
    ensures Latest(reviews).Keys == set r | r in reviews :: r.login
    decreases |reviews|
  {
    if reviews != [] {
      var init := reviews[..|reviews| - 1];
      LatestReviewers(init);
      assert reviews == init + [reviews[|reviews| - 1]];
    }
  }

  /**
    Only the latest review of a reviewer counts: whatever the same reviewer
    said before, a later review decides that reviewer's state.
  */
  lemma {:induction false} LaterReviewWins(reviews: seq<Review>, i: nat)
    requires i < |reviews|
    requires forall j :: i < j < |reviews| ==> reviews[j].login != reviews[i].login
    ensures reviews[i].login in Latest(reviews) && Latest(reviews)[reviews[i].login] == reviews[i].state
    decreases |reviews|
  {
    var n := |reviews| - 1;
    if i < n {
      LaterReviewWins(reviews[..n], i);
    }
  }

  /** The result of `check_pr_reviews`. A failed or raising request reads as no reviews. */
  datatype ReviewStatus = ReviewStatus(hasReviews: bool, approved: bool, blocked: bool, approvals: nat, rejections: nat)

  /** How the reviews request went: an exception, or an HTTP status with the decoded list. */
  datatype ReviewsAnswer = ReviewsRaised | ReviewsReply(status: int, reviews: seq<Review>)

  const NoReviews := ReviewStatus(false, false, false, 0, 0)

  /** `check_pr_reviews`. */
  method CheckPrReviews(answer: ReviewsAnswer) returns (rs: ReviewStatus)
    ensures rs.hasReviews <==> answer.ReviewsReply? && answer.status == 200 && answer.reviews != []
    ensures !rs.hasReviews ==> rs == NoReviews
    ensures rs.hasReviews ==>
      var l := Latest(answer.reviews);
      && rs.approvals == |WithState(l, "APPROVED")|
      && rs.rejections == |WithState(l, "REQUEST_CHANGES")|
    ensures rs.approved <==> rs.approvals > 0 && rs.rejections == 0
    ensures rs.blocked <==> rs.rejections > 0
    ensures !(rs.approved && rs.blocked)
  {
    match answer
    case ReviewsRaised =>
      rs := NoReviews;
    case ReviewsReply(status, reviews) =>
      if status != 200 || reviews == [] {
        rs := NoReviews;
      } else {
        var t := TallyReviews(reviews);
        rs := ReviewStatus(true, t.approvals > 0 && t.rejections == 0, t.rejections > 0, t.approvals, t.rejections);
      }
  }

  // ---------------------------------------------------------------------------
  // Status checks

  /**
    How the two requests of `check_status_checks` went: an exception, the
    pull request request answering other than 200, or the status request
    answering (with the decoded `state`, absent or not, and the number of
    individual statuses when it answered 200).
  */
  datatype StatusAnswer =
    | StatusRaised
    | PrNotFetched(prStatus: int)
    | StatusReply(status: int, state: Option<string>, checkCount: nat)

  datatype StatusChecks = StatusChecks(hasChecks: bool, allPassed: bool)

  /** `check_status_checks`: a missing `state` reads as "unknown". */
  function CheckStatusChecks(answer: StatusAnswer): (sc: StatusChecks)
    ensures answer.StatusReply? && answer.status == 200 ==> (sc.allPassed <==> answer.state == Some("success"))
    ensures answer.StatusReply? && answer.status != 200 ==> sc.allPassed && !sc.hasChecks
    ensures !answer.StatusReply? ==> !sc.allPassed && !sc.hasChecks
    ensures sc.hasChecks <==> answer.StatusReply? && answer.status == 200 && answer.checkCount > 0
  {
    match answer
    case StatusRaised => StatusChecks(false, false)
    case PrNotFetched(_) => StatusChecks(false, false)
    case StatusReply(status, state, count) =>
      if status == 200 then
        var s := match state case Some(v) => v case None => "unknown";
        StatusChecks(count > 0, s == "success")
      else StatusChecks(false, true)
  }

  // ---------------------------------------------------------------------------
  // `main`

  /** The fields of the pull request `main` reads; `mergeable` is `None` when null or absent. */
  datatype PullRequest = PullRequest(state: string, mergeable: Option<bool>, headRef: string)

  /** The raw lines the user types at the three prompts (a prompt that is not shown is not read). */
  datatype Answers = Answers(proceed: string, confirm: string, deleteBranch: string)

  /** What `main` did: its exit code, whether it tried to merge, whether it asked to delete the branch. */
  datatype Run = Run(exitCode: int, mergeAttempted: bool, deletionRequested: bool)

  /** An answer as it is compared: `.strip().lower()`. */
  function Normalized(answer: string): string
  {
    Lower(Strip(answer))
  }

  /** The confirmation prompts accept the empty answer, `y` and `yes`. */
  predicate Confirms(answer: string)
  {
    Normalized(answer) in ["", "y", "yes"]
  }

  /** `safe_to_merge`. Approval is not part of it, and an unknown `mergeable` passes. */
  predicate SafeToMerge(pr: PullRequest, rs: ReviewStatus, sc: StatusChecks)
  {
    pr.state == "open" && pr.mergeable != Some(false) && !rs.blocked && sc.allPassed
  }

  /**
    `main` after the inputs were read. `token` is the `GITHUB_TOKEN` variable,
    `pr` the fetched pull request (`None` when fetching failed), `rs` and `sc`
    the results of the two checks, and `merged` whether the merge request
    succeeded when it is made.
  */
  function MergeAgentMain(token: Option<string>, pr: Option<PullRequest>, rs: ReviewStatus, sc: StatusChecks,
                answers: Answers, merged: bool): (run: Run)
    ensures run.mergeAttempted ==> token.Some? && token.value != "" && pr.Some?
    ensures run.mergeAttempted ==> pr.value.state == "open" && pr.value.mergeable != Some(false)
    ensures run.mergeAttempted ==> Confirms(answers.confirm)
    ensures run.mergeAttempted && !SafeToMerge(pr.value, rs, sc) ==> Normalized(answers.proceed) == "y"
    ensures run.deletionRequested ==> run.mergeAttempted && merged && Confirms(answers.deleteBranch)
    ensures run.deletionRequested ==> pr.value.headRef != "main" && pr.value.headRef != "master"
    ensures (run.mergeAttempted && merged && pr.value.headRef != "main" && pr.value.headRef != "master"
             && Confirms(answers.deleteBranch)) ==> run.deletionRequested
    ensures run.exitCode == 1 <==>
      (!run.mergeAttempted && (token.None? || token.value == "" || pr.None? || pr.value.state != "open" || pr.value.mergeable == Some(false)))
      || (run.mergeAttempted && !merged)
    ensures run.exitCode in {0, 1}
  {
    if token.None? || token.value == "" then Run(1, false, false)
    else if pr.None? then Run(1, false, false)
    else if pr.value.state != "open" then Run(1, false, false)
    else if pr.value.mergeable == Some(false) then Run(1, false, false)
    else if !SafeToMerge(pr.value, rs, sc) && Normalized(answers.proceed) != "y" then Run(0, false, false)
    else if !Confirms(answers.confirm) then Run(0, false, false)
    else if !merged then Run(1, true, false)
    else
      var branch := pr.value.headRef;
      Run(0, true, branch != "main" && branch != "master" && Confirms(answers.deleteBranch))
  }

  /**
    Past the early exits, the merge is attempted exactly when it is safe or
    the user overrides with `y`, and the user then confirms.
  */
  lemma MergeAttemptedExactly(token: string, pr: PullRequest, rs: ReviewStatus, sc: StatusChecks, answers: Answers, merged: bool)
    requires token != "" && pr.state == "open" && pr.mergeable != Some(false)
    ensures MergeAgentMain(Some(token), Some(pr), rs, sc, answers, merged).mergeAttempted <==>
      (SafeToMerge(pr, rs, sc) || Normalized(answers.proceed) == "y") && Confirms(answers.confirm)
  {
  }

  /** Approval is not required: two review results that agree on `blocked` give the same run. */
  lemma ApprovalNotRequired(token: Option<string>, pr: Option<PullRequest>, rs1: ReviewStatus, rs2: ReviewStatus,
                            sc: StatusChecks, answers: Answers, merged: bool)
    requires rs1.blocked == rs2.blocked
    ensures MergeAgentMain(token, pr, rs1, sc, answers, merged) == MergeAgentMain(token, pr, rs2, sc, answers, merged)
  {
  }

  /** The override accepts only `y`: answering `yes` to it cancels an unsafe merge. */
  lemma OverrideNeedsExactlyY(token: string, pr: PullRequest, rs: ReviewStatus, sc: StatusChecks, confirm: string, del: string, merged: bool)
    requires token != "" && pr.state == "open" && pr.mergeable != Some(false) && !SafeToMerge(pr, rs, sc)
    ensures MergeAgentMain(Some(token), Some(pr), rs, sc, Answers("yes", confirm, del), merged) == Run(0, false, false)
  {
    YesIsNotY();
  }

  lemma YesIsNotY()
    ensures Normalized("yes") != "y"
  {
    assert Strip("yes") == "yes" by {
      TrimKeeps("yes", Spaces);
    }
    assert Lower("yes") == "yes";
    assert |"yes"| != |"y"|;
  }

  /** Upper case and surrounding blanks do not matter to the confirmation: ` YES ` confirms. */
  lemma ConfirmIgnoresCaseAndBlanks()
    ensures Confirms(" YES ")
  {
    var s := " YES ";
    assert Leading(s[1..], Spaces) == 0;
    assert Leading(s, Spaces) == 1;
    var t := s[1..];
    assert t == "YES ";
    assert Trailing(t[..3], Spaces) == 0;
    assert Trailing(t, Spaces) == 1;
    assert Strip(s) == "YES";
    assert Lower("YES") == "yes";
  }

  /** `Y` confirms. */
  lemma ConfirmAcceptsCapitalY()
    ensures Confirms("Y")
  {
    assert Leading("Y", Spaces) == 0;
    assert Trailing("Y", Spaces) == 0;
    assert Strip("Y") == "Y";
    assert Lower("Y")[0] == 'y';
    assert Normalized("Y") == "y";
  }

  /** Answers other than the empty one, `y` and `yes` cancel: `no` does not confirm. */
  lemma ConfirmRejectsNo()
    ensures !Confirms("no")
  {
    assert Leading("no", Spaces) == 0;
    assert Trailing("no", Spaces) == 0;
    assert |Normalized("no")| == 2;
  }

  /**
    A rejection among the latest reviews makes the PR unsafe, so it is merged
    only after the user overrides with exactly `y`; without that override the
    agent stops with exit code 0 and neither merges nor deletes the branch.
  */
  lemma RejectionBlocks(token: Option<string>, pr: Option<PullRequest>, rs: ReviewStatus, sc: StatusChecks,
                        answers: Answers, merged: bool)
    requires rs.blocked
    ensures pr.Some? ==> !SafeToMerge(pr.value, rs, sc)
    ensures MergeAgentMain(token, pr, rs, sc, answers, merged).mergeAttempted ==> Normalized(answers.proceed) == "y"
    ensures Normalized(answers.proceed) != "y" ==>
      var run := MergeAgentMain(token, pr, rs, sc, answers, merged);
      !run.mergeAttempted && !run.deletionRequested
  {
  }
}

=== FILE: render_webhook.dfy ===
/**
  render_webhook_server.py: the production webhook server. Its own `.env`
  loader (`load_env_vars`) parses lines as the shared loader does, but also
  strips quote characters from values, collects the pairs in a dictionary and
  only then writes them into the environment, in the dictionary's insertion
  order. Its `/webhook` handler answers `pull_request` events and ignores the
  others.
*/
module RenderWebhook {
  import opened Basics
  import opened Text
  import opened EnvFile

  // ---------------------------------------------------------------------------
  // Loading `.env`

  /** One line as this loader reads it: the shared parse, with quotes stripped from the value. */
  function ParseQuotedLine(raw: string): Option<Entry>
  {
    match ParseLine(raw)
    case Some(e) => Some((e.0, StripQuotes(e.1)))
    case None => None
  }

  function QuotedParsed(lines: seq<string>): seq<Option<Entry>>
  {
    seq(|lines|, i requires 0 <= i < |lines| => ParseQuotedLine(lines[i]))
  }

  /** The dictionary `load_env_vars` builds and returns. */
  function QuotedMap(lines: seq<string>): map<string, string>
  {
    Apply(map[], Present(QuotedParsed(lines)))
  }

  /**
    The keys of a list of entries, each once, in the order of its first
    entry: the insertion order of a Python dictionary the entries are
    assigned into one after the other.
  */
  function FirstKeys(es: seq<Entry>): seq<string>
  {
    if es == [] then []
    else
      var ks := FirstKeys(es[..|es| - 1]);
      if es[|es| - 1].0 in ks then ks else ks + [es[|es| - 1].0]
  }

  lemma FirstKeysStep(es: seq<Entry>, e: Entry)
    ensures FirstKeys(es + [e]) == if e.0 in FirstKeys(es) then FirstKeys(es) else FirstKeys(es) + [e.0]
  {
    assert (es + [e])[..|es|] == es;
  }

  /** No key is listed twice. */
  lemma {:induction false} FirstKeysDistinct(es: seq<Entry>)
    ensures forall i, j :: 0 <= i < j < |FirstKeys(es)| ==> FirstKeys(es)[i] != FirstKeys(es)[j]
    decreases |es|
  {
    if es != [] {
      var n := |es| - 1;
      var ks := FirstKeys(es[..n]);
      FirstKeysDistinct(es[..n]);
      if es[n].0 !in ks {
        assert FirstKeys(es) == ks + [es[n].0];
      } else {
        assert FirstKeys(es) == ks;
      }
    }
  }

  /** The listed keys are exactly the keys of the dictionary the entries build. */
  lemma {:induction false} FirstKeysAreKeys(es: seq<Entry>)
    ensures forall k :: k in FirstKeys(es) <==> k in Apply(map[], es)
    decreases |es|
  {
    if es != [] {
      FirstKeysAreKeys(es[..|es| - 1]);
    }
  }

  /**
    Each listed key has an entry before which only keys listed earlier
    occur: keys are listed in the order of their first entries.
  */
  lemma {:induction false} FirstKeysInOrder(es: seq<Entry>, i: nat)
    requires i < |FirstKeys(es)|
    ensures exists p ::
      && 0 <= p < |es| && es[p].0 == FirstKeys(es)[i]
      && (forall q :: 0 <= q < p ==> es[q].0 in FirstKeys(es)[..i])
    decreases |es|
  {
    var n := |es| - 1;
    var ks := FirstKeys(es[..n]);
    if i < |ks| {
      FirstKeysInOrder(es[..n], i);
      var p :| 0 <= p < n && es[..n][p].0 == ks[i]
        && forall q :: 0 <= q < p ==> es[..n][q].0 in ks[..i];
      assert FirstKeys(es)[..i] == ks[..i];
      assert forall q :: 0 <= q < p ==> es[q] == es[..n][q];
    } else {
      assert FirstKeys(es) == ks + [es[n].0];
      assert FirstKeys(es)[..i] == ks;
      FirstKeysAreKeys(es[..n]);
      forall q | 0 <= q < n
        ensures es[q].0 in ks
      {
        ApplyHasKey(es[..n], q);
      }
    }
  }

  /** Assigning entries puts each entry's key into the dictionary. */
  lemma {:induction false} ApplyHasKey(es: seq<Entry>, q: nat)
    requires q < |es|
    ensures es[q].0 in Apply(map[], es)
    decreases |es|
  {
    if q < |es| - 1 {
      ApplyHasKey(es[..|es| - 1], q);
    }
  }

  /** `m` restricted to the keys listed in `ks`. */
  function Restrict(m: map<string, string>, ks: seq<string>): (r: map<string, string>)
    ensures r.Keys == m.Keys * (set k | k in ks)
    ensures forall k | k in r :: r[k] == m[k]
  {
    map k | k in m && k in ks :: m[k]
  }

  /**
    `load_env_vars`. `file` is `None` when `.env` does not exist. The result is
    `None` when writing some entry into the environment raised (and the
    exception escaped); otherwise it is the dictionary of the file, and the
    environment now also holds every one of its pairs. Entries are written in
    the order their keys first appeared, so on failure `written` is the part
    of that order before the first key whose pair the OS refuses, and exactly
    those keys have been written.
  */
  method LoadEnvVars(env: Environ, file: Option<seq<string>>) returns (result: Option<map<string, string>>, ghost written: seq<string>)
    modifies env
    ensures file.None? ==> result == Some(map[]) && env.vars == old(env.vars)
    ensures file.Some? ==>
      (result.Some? <==> forall k | k in QuotedMap(file.value) :: Settable((k, QuotedMap(file.value)[k])))
    ensures file.Some? && result.Some? ==>
      result.value == QuotedMap(file.value) && env.vars == old(env.vars) + QuotedMap(file.value)
    ensures file.Some? && result.None? ==>
      var m := QuotedMap(file.value);
      var ks := FirstKeys(Present(QuotedParsed(file.value)));
      exists j :: 0 <= j < |ks| && written == ks[..j]
        && ks[j] in m && !Settable((ks[j], m[ks[j]]))
        && (forall k | k in written :: k in m && Settable((k, m[k])))
        && env.vars == old(env.vars) + Restrict(m, written)
  {
    var vars: map<string, string> := map[];
    var order: seq<string> := [];
    written := [];
    if file.Some? {
      vars, order := CollectEnvVars(file.value);
    }
    for j := 0 to |order|
      invariant env.vars == old(env.vars) + Restrict(vars, order[..j])
      invariant forall k | k in order[..j] :: Settable((k, vars[k]))
    {
      var key := order[j];
      if !Settable((key, vars[key])) {
        result := None;
        written := order[..j];
        assert order[j] in vars && !Settable((order[j], vars[order[j]]));
        return;
      }
      RestrictStep(old(env.vars), vars, order, j);
      env.vars := env.vars[key := vars[key]];
    }
    RestrictAll(vars, order);
    result := Some(vars);
  }

  /**
    The first loop of `load_env_vars`: the dictionary of the file, and its
    keys in insertion order (the order in which each key first appeared).
  */
  method CollectEnvVars(lines: seq<string>) returns (vars: map<string, string>, order: seq<string>)
    ensures vars == QuotedMap(lines)
    ensures order == FirstKeys(Present(QuotedParsed(lines)))
    ensures forall j, k :: 0 <= j < k < |order| ==> order[j] != order[k]
    ensures forall k :: k in order <==> k in vars
  {
    vars, order := map[], [];
    ghost var ps := QuotedParsed(lines);
    for i := 0 to |lines|
      invariant vars == Apply(map[], Present(ps[..i]))
      invariant order == FirstKeys(Present(ps[..i]))
      invariant forall j, k :: 0 <= j < k < |order| ==> order[j] != order[k]
      invariant forall k :: k in order <==> k in vars
    {
      PresentStep(ps, i);
      var parsed := ParseQuotedLine(lines[i]);
      assert parsed == ps[i];
      match parsed
      case None =>
      case Some(entry) =>
        ApplyStep(map[], Present(ps[..i]), entry);
        FirstKeysStep(Present(ps[..i]), entry);
        OrderStep(order, vars, entry.0, entry.1);
        if entry.0 !in vars {
          order := order + [entry.0];
        }
        vars := vars[entry.0 := entry.1];
    }
    assert ps[..|lines|] == ps;
  }

  /** Recording a key the first time it is set keeps the order duplicate-free and in step with the keys. */
  lemma OrderStep(order: seq<string>, vars: map<string, string>, key: string, value: string)
    requires forall j, k :: 0 <= j < k < |order| ==> order[j] != order[k]
    requires forall k :: k in order <==> k in vars
    ensures var next := if key in vars then order else order + [key];
      && (forall j, k :: 0 <= j < k < |next| ==> next[j] != next[k])
      && (forall k :: k in next <==> k in vars[key := value])
  {
  }

  lemma RestrictStep(base: map<string, string>, m: map<string, string>, ks: seq<string>, j: nat)
    requires j < |ks| && ks[j] in m
    ensures base + Restrict(m, ks[..j + 1]) == (base + Restrict(m, ks[..j]))[ks[j] := m[ks[j]]]
  {
    assert ks[..j + 1] == ks[..j] + [ks[j]];
  }

  lemma RestrictAll(m: map<string, string>, ks: seq<string>)
    requires forall k :: k in ks <==> k in m
    ensures Restrict(m, ks[..|ks|]) == m
  {
    assert ks[..|ks|] == ks;
  }

  /** Stripping the quotes of every value of a list of entries. */
  function Unquoted(es: seq<Entry>): seq<Entry>
  {
    seq(|es|, i requires 0 <= i < |es| => (es[i].0, StripQuotes(es[i].1)))
  }

  lemma {:induction false} PresentUnquoted(ps: seq<Option<Entry>>, qs: seq<Option<Entry>>)
    requires |ps| == |qs|
    requires forall i :: 0 <= i < |ps| ==>
      (qs[i].Some? <==> ps[i].Some?) && (qs[i].Some? ==> qs[i].value == (ps[i].value.0, StripQuotes(ps[i].value.1)))
    ensures Present(qs) == Unquoted(Present(ps))
    decreases |ps|
  {
    if ps != [] {
      var n := |ps| - 1;
      PresentUnquoted(ps[..n], qs[..n]);
      if ps[n].Some? {
        assert Unquoted(Present(ps)) == Unquoted(Present(ps[..n])) + [qs[n].value];
      } else {
        assert Present(ps) == Present(ps[..n]);
        assert Present(qs) == Present(qs[..n]) + [];
      }
    }
  }

  lemma {:induction false} ApplyUnquoted(es: seq<Entry>)
    ensures Apply(map[], Unquoted(es)).Keys == Apply(map[], es).Keys
    ensures forall k | k in Apply(map[], es) :: Apply(map[], Unquoted(es))[k] == StripQuotes(Apply(map[], es)[k])
    decreases |es|
  {
    if es != [] {
      var n := |es| - 1;
      ApplyUnquoted(es[..n]);
      assert Unquoted(es)[..n] == Unquoted(es[..n]);
    }
  }

  /**
    The dictionary of this loader has exactly the keys the shared loader
    writes, each with that loader's value stripped of its quotes.
  */
  lemma QuotedRefinesPlain(lines: seq<string>)
    ensures QuotedMap(lines).Keys == EnvMap(lines).Keys
    ensures forall k | k in EnvMap(lines) :: QuotedMap(lines)[k] == StripQuotes(EnvMap(lines)[k])
  {
    PresentUnquoted(Parsed(lines), QuotedParsed(lines));
    ApplyUnquoted(Entries(lines));
  }

  // ---------------------------------------------------------------------------
  // The `/webhook` handler

  /**
    The request body: not JSON at all, JSON that is not an object, an object
    whose `pull_request` field is present but no object (`null`, a number, a
    list), or an object whose `pull_request` field is absent or an object.
  */
  datatype Body =
    | Unparsable
    | NonObject
    | BadPullRequestField
    | PullRequestPayload(action: Option<string>, number: Option<int>)

  /** The handler's answers; `Crash` is an exception escaping the handler (HTTP 500). */
  datatype Reply =
    | InvalidJson
    | Crash
    | PrReceived(message: string)
    | Ignored

  /** Python's f-string rendering of an optional integer. */
  function OptionalNumberText(n: Option<int>): string
  {
    match n
    case Some(v) => IntToString(v)
    case None => "None"
  }

  const PrMessagePrefix := "Webhook received for PR #"

  /** `github_webhook`, given the `X-GitHub-Event` header and the body. */
  function GithubWebhook(event: Option<string>, body: Body): (r: Reply)
    ensures r == InvalidJson <==> body == Unparsable
    ensures r.PrReceived? <==> event == Some("pull_request") && body.PullRequestPayload?
    ensures r == Ignored <==> event != Some("pull_request") && body != Unparsable
    ensures r == Crash <==> event == Some("pull_request") && (body == NonObject || body == BadPullRequestField)
    ensures r.PrReceived? ==> StartsWith(r.message, PrMessagePrefix)
  {
    match body
    case Unparsable => InvalidJson
    case _ =>
      if event == Some("pull_request") then
        match body
        case NonObject => Crash
        case BadPullRequestField => Crash
        case PullRequestPayload(_, number) => PrReceived(PrMessagePrefix + OptionalNumberText(number))
      else Ignored
  }

  /** The PR number in the success message reads back as the number of the payload. */
  lemma PrNumberReadsBack(action: Option<string>, n: int)
    ensures var r := GithubWebhook(Some("pull_request"), PullRequestPayload(action, Some(n)));
      r.PrReceived? && ParseInt(r.message[|PrMessagePrefix|..]) == Some(n)
  {
    var r := GithubWebhook(Some("pull_request"), PullRequestPayload(action, Some(n)));
    assert r.message[|PrMessagePrefix|..] == IntToString(n);
    IntRoundTrip(n);
  }
}

=== FILE: review_setup.dfy ===
/**
  code_review_agent_setup.py: the script that prepares a branch for the code
  review agent. Its `.env` loader is the shared one of module EnvFile. What
  is modelled here is the builder of `test_docs.md`, the file meant to
  trigger the reviewer's "large documentation" rule: three heading
  fragments, then four fragments for each of sixty sections, joined by a
  line end.

  As written the builder uses the two-character text backslash-n, not a
  newline, both inside the fragments and as the join separator; the
  resulting file is one single line and the rule it was built for cannot
  fire. The builder is modelled with the line end as a parameter, so the
  same method describes the file as written and as intended.
*/
module ReviewSetup {
  import opened Text
  import CodeReview

  /** The line end the script writes: a backslash followed by `n`. */
  const WrittenEol: string := "\\n"

  /** The line end the script evidently means. */
  const IntendedEol: string := "\n"

  const Sections: nat := 60

  /** The three fragments that open the document. */
  function Heading(eol: string): seq<string>
  {
    [ "# Large Test Documentation" + eol,
      "## Overview" + eol,
      "This is a large documentation file created for testing code review." + eol ]
  }

  /** The four fragments of section `i` (numbered from 1). */
  function Section(i: nat, eol: string): seq<string>
  {
    var n := NatToString(i);
    [ "### Section " + n + eol,
      "This is section " + n + " with some content about testing." + eol,
      "More details for section " + n + "." + eol,
      eol ]
  }

  /** The fragments after `n` sections: the heading, then sections 1 to `n` in order. */
  function Fragments(n: nat, eol: string): (r: seq<string>)
    ensures |r| == 3 + 4 * n
    ensures r[..3] == Heading(eol)
  {
    if n == 0 then Heading(eol) else Fragments(n - 1, eol) + Section(n, eol)
  }

  /**
    The builder (lines 205-216): append the heading, append four fragments
    per section in a loop, and join the fragments with the line end.
  */
  method BuildLargeDoc(eol: string) returns (fragments: seq<string>, content: string)
    ensures fragments == Fragments(Sections, eol)
    ensures content == Join(fragments, eol)
  {
    fragments := [];
    fragments := fragments + ["# Large Test Documentation" + eol];
    fragments := fragments + ["## Overview" + eol];
    fragments := fragments + ["This is a large documentation file created for testing code review." + eol];
    for i := 0 to Sections
      invariant fragments == Fragments(i, eol)
    {
      var n := NatToString(i + 1);
      fragments := fragments + ["### Section " + n + eol];
      fragments := fragments + ["This is section " + n + " with some content about testing." + eol];
      fragments := fragments + ["More details for section " + n + "." + eol];
      fragments := fragments + [eol];
    }
    content := Join(fragments, eol);
  }

  /** Section `i`'s four fragments sit at positions 3 + 4(i-1) to 3 + 4i, whatever comes later. */
  lemma {:induction false} SectionsInOrder(n: nat, eol: string, i: nat)
    requires 1 <= i <= n
    ensures Fragments(n, eol)[3 + 4 * (i - 1)..3 + 4 * i] == Section(i, eol)
    decreases n
  {
    var prev, sec := Fragments(n - 1, eol), Section(n, eol);
    var lo, hi := 3 + 4 * (i - 1), 3 + 4 * i;
    assert Fragments(n, eol) == prev + sec;
    if i < n {
      SectionsInOrder(n - 1, eol, i);
      SliceOfPrefix(prev, sec, lo, hi);
    } else {
      assert lo == |prev| && hi == |prev| + |sec|;
      assert (prev + sec)[|prev|..|prev| + |sec|] == sec;
    }
  }

  lemma SliceOfPrefix(a: seq<string>, b: seq<string>, lo: nat, hi: nat)
    requires lo <= hi <= |a|
    ensures (a + b)[lo..hi] == a[lo..hi]
  {
  }

  /** A line end without a newline leaves every fragment without one. */
  lemma {:induction false} FragmentsOneLine(n: nat, eol: string)
    requires '\n' !in eol
    ensures forall k :: 0 <= k < |Fragments(n, eol)| ==> '\n' !in Fragments(n, eol)[k]
    decreases n
  {
    if n == 0 {
      HeadingOneLine(eol);
    } else {
      FragmentsOneLine(n - 1, eol);
      SectionOneLine(n, eol);
    }
  }

  lemma HeadingOneLine(eol: string)
    requires '\n' !in eol
    ensures forall k :: 0 <= k < 3 ==> '\n' !in Heading(eol)[k]
  {
    NoCharConcat("# Large Test Documentation", eol, '\n');
    NoCharConcat("## Overview", eol, '\n');
    PurposeOneLine();
    NoCharConcat("This is a large documentation file created for testing code review.", eol, '\n');
  }

  lemma PurposeOneLine()
    ensures '\n' !in "This is a large documentation file created for testing code review."
  {
    PurposeHalves();
    PurposeFirstHalf();
    PurposeSecondHalf();
    NoCharConcat("This is a large documentation file ", "created for testing code review.", '\n');
  }

  lemma PurposeHalves()
    ensures "This is a large documentation file " + "created for testing code review."
      == "This is a large documentation file created for testing code review."
  {
  }

  lemma PurposeFirstHalf()
    ensures '\n' !in "This is a large documentation file "
  {
  }

  lemma PurposeSecondHalf()
    ensures '\n' !in "created for testing code review."
  {
  }

  lemma SectionOneLine(i: nat, eol: string)
    requires '\n' !in eol
    ensures forall k :: 0 <= k < 4 ==> '\n' !in Section(i, eol)[k]
  {
    var d := NatToString(i);
    assert '\n' !in d by {
      assert forall k :: 0 <= k < |d| ==> IsDigit(d[k]);
    }
    NoCharConcat("### Section ", d, '\n');
    NoCharConcat("### Section " + d, eol, '\n');
    NoCharConcat("This is section ", d, '\n');
    NoCharConcat("This is section " + d, " with some content about testing.", '\n');
    NoCharConcat("This is section " + d + " with some content about testing.", eol, '\n');
    NoCharConcat("More details for section ", d, '\n');
    NoCharConcat("More details for section " + d, ".", '\n');
    NoCharConcat("More details for section " + d + ".", eol, '\n');
  }

  // ---------------------------------------------------------------------------
  // What the reviewer sees

  /** The added lines of a new file's patch. */
  function PlusLines(lines: seq<string>): seq<string>
  {
    seq(|lines|, k requires 0 <= k < |lines| => "+" + lines[k])
  }

  /**
    An approximation of the patch GitHub reports for a newly added file: a
    hunk header, then every line of the content prefixed by `+`, separated by
    newlines. GitHub itself writes `+1` rather than `+1,1` for a one-line
    file and adds a `\ No newline at end of file` line when the content does
    not end in a newline. That line adds one piece to the patch, which does
    not change the two conclusions below: the written document's patch stays
    far under the Markdown rule's 50 pieces, and the intended one's is far
    over it.
  */
  function NewFilePatch(content: string): string
  {
    var lines := Split(content, '\n');
    Join(["@@ -0,0 +1," + NatToString(|lines|) + " @@"] + PlusLines(lines), "\n")
  }

  /** A new file's patch has one newline-separated piece more than the file has lines. */
  lemma PatchPieces(content: string)
    ensures |Split(NewFilePatch(content), '\n')| == |Split(content, '\n')| + 1
  {
    var lines := Split(content, '\n');
    var header := "@@ -0,0 +1," + NatToString(|lines|) + " @@";
    var parts := [header] + PlusLines(lines);
    SplitPiecesFree(content, '\n');
    var d := NatToString(|lines|);
    assert '\n' !in d by {
      assert forall k :: 0 <= k < |d| ==> IsDigit(d[k]);
    }
    assert forall k :: 1 <= k < |parts| ==> parts[k] == "+" + lines[k - 1];
    assert forall k :: 0 <= k < |parts| ==> '\n' !in parts[k];
    SplitJoin(parts, '\n');
  }

  /**
    As written, the document is a single line: it holds no newline, so its
    patch has two pieces and the reviewer's Markdown rule stays silent.
  */
  lemma WrittenDocEscapesMarkdownRule()
    ensures var content := Join(Fragments(Sections, WrittenEol), WrittenEol);
      '\n' !in content
      && Split(content, '\n') == [content]
      && CodeReview.MarkdownIssues(NewFilePatch(content)) == []
  {
    var fragments := Fragments(Sections, WrittenEol);
    var content := Join(fragments, WrittenEol);
    FragmentsOneLine(Sections, WrittenEol);
    JoinWithout(fragments, WrittenEol, '\n');
    SplitWithout(content, '\n');
    PatchPieces(content);
  }

  /**
    With real newlines the document has at least 243 lines, and the
    Markdown rule reports it as a large documentation change.
  */
  lemma IntendedDocTriggersMarkdownRule()
    ensures var content := Join(Fragments(Sections, IntendedEol), IntendedEol);
      |Split(content, '\n')| >= 243
      && CodeReview.MarkdownIssues(NewFilePatch(content)) == [CodeReview.LargeDoc]
  {
    var fragments := Fragments(Sections, IntendedEol);
    var content := Join(fragments, IntendedEol);
    CountCharJoin(fragments, '\n');
    SplitLength(content, '\n');
    PatchPieces(content);
  }
}

=== FILE: simple_tests.dfy ===
/**
  test_simple.py: three one-line functions and the checks the script runs
  on them.
*/
module SimpleTests {
  import opened Basics
  import opened Text

  /** `add`. */
  function Add(a: int, b: int): (r: int)
    ensures r - b == a && r - a == b
  {
    a + b
  }

  /** `multiply`. */
  function Multiply(a: int, b: int): (r: int)
    ensures a == 0 || b == 0 ==> r == 0
  {
    a * b
  }

  /** `a` added to itself `n` times. */
  function Repeated(a: int, n: nat): int
  {
    if n == 0 then 0 else Add(Repeated(a, n - 1), a)
  }

  /** Multiplying by a count is adding that many times. */
  lemma {:induction false} MultiplyIsRepeatedAddition(a: int, n: nat)
    ensures Multiply(a, n) == Repeated(a, n)
    decreases n
  {
    if n > 0 {
      MultiplyIsRepeatedAddition(a, n - 1);
      assert a * n == a * (n - 1) + a;
    }
  }

  /** `greet`, whose name defaults to `World` when it is left out. */
  function Greet(name: Option<string>): (r: string)
    ensures |r| >= 8 && StartsWith(r, "Hello, ") && EndsWith(r, "!")
    ensures name.Some? ==> r[7..|r| - 1] == name.value
    ensures name.None? ==> r[7..|r| - 1] == "World"
  {
    var n := match name case Some(s) => s case None => "World";
    var r := "Hello, " + n + "!";
    assert r[..7] == "Hello, " && r[|r| - 1..] == "!" && r[7..|r| - 1] == n;
    r
  }

  /** The script's checks (lines 22-34) and the default greeting. */
  lemma ScriptChecks()
    ensures Add(2, 3) == 5
    ensures Multiply(4, 5) == 20
    ensures Greet(Some("GitHub Actions")) == "Hello, GitHub Actions!"
    ensures Greet(None) == "Hello, World!"
  {
    GreetActions();
    GreetWorld();
  }

  lemma GreetActions()
    ensures Greet(Some("GitHub Actions")) == "Hello, GitHub Actions!"
  {
  }

  lemma GreetWorld()
    ensures Greet(None) == "Hello, World!"
  {
  }

  /** Different names give different greetings. */
  lemma GreetInjective(a: string, b: string)
    requires Greet(Some(a)) == Greet(Some(b))
    ensures a == b
  {
    var r := Greet(Some(a));
    assert a == r[7..|r| - 1] == b;
  }
}

=== FILE: text.dfy ===
/**
  The handful of Python `str` operations the scripts rely on, written out on
  `seq<char>`: substring tests (`in`), `startswith`/`endswith`, `split` on a
  one-character separator, `strip`, `lower`, `replace`, `str(n)` and `int(s)`.
*/
module Text {
  import opened Basics

  // ---------------------------------------------------------------------------
  // Character classes

  /** The characters Python's `str.isspace()` accepts, which `strip()` removes. */
  predicate IsSpace(c: char)
  {
    || c == ' ' || c == '\t' || c == '\n' || c == '\r'
    || c == '\U{000B}' || c == '\U{000C}'
    || ('\U{001C}' <= c <= '\U{001F}')
    || c == '\U{0085}' || c == '\U{00A0}' || c == '\U{1680}'
    || ('\U{2000}' <= c <= '\U{200A}')
    || c == '\U{2028}' || c == '\U{2029}' || c == '\U{202F}' || c == '\U{205F}'
    || c == '\U{3000}'
  }

  predicate IsDigit(c: char) { '0' <= c <= '9' }

  function DigitValue(c: char): nat
    requires IsDigit(c)
  {
    c as int - '0' as int
  }

  function DigitChar(d: nat): (c: char)
    requires d < 10
    ensures IsDigit(c) && DigitValue(c) == d
  {
    ('0' as int + d) as char
  }

  /** ASCII upper case to lower case; every other character is kept. */
  function LowerChar(c: char): char
  {
    if 'A' <= c <= 'Z' then (c as int + 32) as char else c
  }

  /** `s.lower()`, on the ASCII letters. */
  function Lower(s: string): (r: string)
    ensures |r| == |s|
    ensures forall i :: 0 <= i < |s| ==> r[i] == LowerChar(s[i])
  {
    seq(|s|, i requires 0 <= i < |s| => LowerChar(s[i]))
  }

  // ---------------------------------------------------------------------------
  // Prefixes, suffixes, substrings

  predicate StartsWith(s: string, p: string) { |p| <= |s| && s[..|p|] == p }

  predicate EndsWith(s: string, p: string) { |p| <= |s| && s[|s| - |p|..] == p }

  /** Python's `sub in s`: `sub` occurs somewhere in `s` (the empty string always does). */
  predicate Contains(s: string, sub: string)
    decreases |s|
  {
    StartsWith(s, sub) || (|s| > 0 && Contains(s[1..], sub))
  }

  /** An occurrence at a known position makes `Contains` true. */
  lemma {:induction false} ContainsAt(s: string, sub: string, i: nat)
    requires i + |sub| <= |s| && s[i..i + |sub|] == sub
    ensures Contains(s, sub)
    decreases i
  {
    if i == 0 {
      assert s[..|sub|] == sub;
    } else {
      assert s[1..][i - 1..i - 1 + |sub|] == s[i..i + |sub|];
      ContainsAt(s[1..], sub, i - 1);
    }
  }

  /** The middle of a three-part concatenation is recovered by cutting off the outer parts. */
  lemma MiddleOf(pre: string, mid: string, post: string)
    ensures (pre + mid + post)[|pre|..|pre + mid + post| - |post|] == mid
  {
  }

  /** A string contained in the middle part of a concatenation is contained in the whole. */
  lemma ContainsMiddle(a: string, b: string, c: string)
    ensures Contains(a + b + c, b)
  {
    assert (a + b + c)[|a|..|a| + |b|] == b;
    ContainsAt(a + b + c, b, |a|);
  }

  /** A substring one of whose characters does not occur in `s` is not contained in it. */
  lemma {:induction false} NotContainsWithout(s: string, sub: string, k: nat)
    requires k < |sub| && sub[k] !in s
    ensures !Contains(s, sub)
    decreases |s|
  {
    if |s| > 0 {
      NotContainsWithout(s[1..], sub, k);
    }
  }

  /** A string that contains `longer` contains every prefix of it. */
  lemma {:induction false} ContainsPrefixOf(s: string, sub: string, longer: string)
    requires StartsWith(longer, sub) && Contains(s, longer)
    ensures Contains(s, sub)
    decreases |s|
  {
    if StartsWith(s, longer) {
      assert s[..|sub|] == longer[..|sub|];
    } else {
      ContainsPrefixOf(s[1..], sub, longer);
    }
  }

  /** A string of length one is contained in `s` exactly when its character is. */
  lemma {:induction false} ContainsChar(s: string, c: char)
    ensures Contains(s, [c]) <==> c in s
    decreases |s|
  {
    if |s| > 0 {
      ContainsChar(s[1..], c);
      assert s == [s[0]] + s[1..];
    }
  }

  /** A substring whose first character does not occur in `s` is not contained in it. */
  lemma {:induction false} NotContainsWithoutFirst(s: string, sub: string)
    requires |sub| > 0 && sub[0] !in s
    ensures !Contains(s, sub)
    decreases |s|
  {
    if |s| > 0 {
      NotContainsWithoutFirst(s[1..], sub);
    }
  }

  // ---------------------------------------------------------------------------
  // Counting, splitting and joining on one character

  function CountChar(s: string, c: char): nat
    decreases |s|
  {
    if s == [] then 0 else (if s[0] == c then 1 else 0) + CountChar(s[1..], c)
  }

  lemma {:induction false} CountCharAppend(a: string, b: string, c: char)
    ensures CountChar(a + b, c) == CountChar(a, c) + CountChar(b, c)
    decreases |a|
  {
    if a == [] {
      assert a + b == b;
    } else {
      assert (a + b)[1..] == a[1..] + b;
      CountCharAppend(a[1..], b, c);
    }
  }

  /** Joining with a one-character separator puts at least one separator between neighbours. */
  lemma {:induction false} CountCharJoin(parts: seq<string>, c: char)
    ensures CountChar(Join(parts, [c]), c) + 1 >= |parts|
    decreases |parts|
  {
    if |parts| > 1 {
      CountCharJoin(parts[1..], c);
      CountCharAppend(parts[0] + [c], Join(parts[1..], [c]), c);
      CountCharAppend(parts[0], [c], c);
    }
  }

  lemma NoCharConcat(a: string, b: string, c: char)
    requires c !in a && c !in b
    ensures c !in a + b
  {
  }

  /** A character in neither the pieces nor the separator is not in their join. */
  lemma {:induction false} JoinWithout(parts: seq<string>, sep: string, c: char)
    requires c !in sep && forall k :: 0 <= k < |parts| ==> c !in parts[k]
    ensures c !in Join(parts, sep)
    decreases |parts|
  {
    if |parts| > 1 {
      JoinWithout(parts[1..], sep, c);
    }
  }

  /**
    `s.split(c)` for a one-character separator: the pieces between the
    separators, so there is always one more piece than separators.
  */
  function Split(s: string, c: char): (r: seq<string>)
    ensures |r| >= 1
    decreases |s|
  {
    if s == [] then [""]
    else if s[0] == c then [""] + Split(s[1..], c)
    else
      var rest := Split(s[1..], c);
      [[s[0]] + rest[0]] + rest[1..]
  }

  /** `len(s.split(c))` is the number of separators plus one. */
  lemma {:induction false} SplitLength(s: string, c: char)
    ensures |Split(s, c)| == CountChar(s, c) + 1
    decreases |s|
  {
    if s != [] {
      SplitLength(s[1..], c);
    }
  }

  /** A string without the separator splits into itself alone. */
  lemma {:induction false} SplitWithout(s: string, c: char)
    requires c !in s
    ensures Split(s, c) == [s]
    decreases |s|
  {
    if s != [] {
      SplitWithout(s[1..], c);
      assert [s[0]] + s[1..] == s;
    }
  }

  /** No piece of a split contains the separator. */
  lemma {:induction false} SplitPiecesFree(s: string, c: char)
    ensures forall k :: 0 <= k < |Split(s, c)| ==> c !in Split(s, c)[k]
    decreases |s|
  {
    if s != [] {
      SplitPiecesFree(s[1..], c);
    }
  }

  /** Splitting around one separator splits each side independently. */
  lemma {:induction false} SplitAround(a: string, c: char, b: string)
    ensures Split(a + [c] + b, c) == Split(a, c) + Split(b, c)
    decreases |a|
  {
    var s := a + [c] + b;
    if a == [] {
      assert s == [c] + b;
      assert s[1..] == b;
    } else {
      assert s[0] == a[0];
      assert s[1..] == a[1..] + [c] + b;
      SplitAround(a[1..], c, b);
      if a[0] != c {
        SplitConsPiece(a[0], Split(a[1..], c), Split(b, c));
      }
    }
  }

  /** Prepending a non-separator character extends the first piece. */
  lemma SplitConsPiece(x: char, tail: seq<string>, more: seq<string>)
    requires |tail| >= 1
    ensures [[x] + (tail + more)[0]] + (tail + more)[1..] == ([[x] + tail[0]] + tail[1..]) + more
  {
    assert (tail + more)[0] == tail[0];
    assert (tail + more)[1..] == tail[1..] + more;
  }

  /** Python's `sep.join(parts)`. */
  function Join(parts: seq<string>, sep: string): string
  {
    if parts == [] then ""
    else if |parts| == 1 then parts[0]
    else parts[0] + sep + Join(parts[1..], sep)
  }

  /** Joining pieces that do not contain the separator and splitting again gives the pieces back. */
  lemma {:induction false} SplitJoin(parts: seq<string>, c: char)
    requires |parts| >= 1
    requires forall k :: 0 <= k < |parts| ==> c !in parts[k]
    ensures Split(Join(parts, [c]), c) == parts
    decreases |parts|
  {
    if |parts| == 1 {
      SplitWithout(parts[0], c);
    } else {
      var rest := parts[1..];
      SplitJoin(rest, c);
      assert Join(parts, [c]) == parts[0] + [c] + Join(rest, [c]);
      SplitAround(parts[0], c, Join(rest, [c]));
      SplitWithout(parts[0], c);
      assert parts == [parts[0]] + rest;
    }
  }

  /** A join of non-empty pieces starts with the first piece and ends with the last. */
  lemma {:induction false} JoinEnds(parts: seq<string>, sep: string)
    requires |parts| >= 1 && forall k :: 0 <= k < |parts| ==> parts[k] != []
    ensures |Join(parts, sep)| > 0
    ensures Join(parts, sep)[0] == parts[0][0]
    ensures Join(parts, sep)[|Join(parts, sep)| - 1] == parts[|parts| - 1][|parts[|parts| - 1]| - 1]
    decreases |parts|
  {
    if |parts| > 1 {
      JoinEnds(parts[1..], sep);
    }
  }

  /** Index of the first occurrence of `c`. */
  function IndexOf(s: string, c: char): (i: nat)
    requires c in s
    ensures i < |s| && s[i] == c && c !in s[..i]
    decreases |s|
  {
    if s[0] == c then 0
    else
      var j := IndexOf(s[1..], c);
      assert s[..j + 1] == [s[0]] + s[1..][..j];
      j + 1
  }

  /**
    `s.split(c, 1)` when it yields two parts: the text before the first `c`
    and the text after it; `None` when `c` does not occur (one part).
  */
  function SplitOnce(s: string, c: char): (r: Option<(string, string)>)
    ensures r.Some? <==> c in s
    ensures r.Some? ==> c !in r.value.0 && s == r.value.0 + [c] + r.value.1
  {
    if c in s then
      var i := IndexOf(s, c);
      assert s == s[..i] + [c] + s[i + 1..];
      Some((s[..i], s[i + 1..]))
    else None
  }

  // ---------------------------------------------------------------------------
  // Stripping

  /** The two character sets the scripts strip: whitespace (`strip()`) and quotes (`strip('"\'')`). */
  datatype CharClass = Spaces | Quotes

  predicate IsQuote(c: char) { c == '"' || c == '\'' }

  predicate InClass(c: char, cls: CharClass)
  {
    match cls
    case Spaces => IsSpace(c)
    case Quotes => IsQuote(c)
  }

  /** Number of leading characters of `s` in `cls`. */
  function Leading(s: string, cls: CharClass): (n: nat)
    ensures n <= |s| && (n < |s| ==> !InClass(s[n], cls))
    decreases |s|
  {
    if |s| > 0 && InClass(s[0], cls) then 1 + Leading(s[1..], cls) else 0
  }

  /** Number of trailing characters of `s` in `cls`. */
  function Trailing(s: string, cls: CharClass): (n: nat)
    ensures n <= |s| && (n < |s| ==> !InClass(s[|s| - 1 - n], cls))
    decreases |s|
  {
    if |s| > 0 && InClass(s[|s| - 1], cls) then 1 + Trailing(s[..|s| - 1], cls) else 0
  }

  /** Every character `Leading` counts is in the class. */
  lemma {:induction false} LeadingAll(s: string, cls: CharClass)
    ensures forall k :: 0 <= k < Leading(s, cls) ==> InClass(s[k], cls)
    decreases |s|
  {
    if |s| > 0 && InClass(s[0], cls) {
      LeadingAll(s[1..], cls);
    }
  }

  /** Every character `Trailing` counts is in the class. */
  lemma {:induction false} TrailingAll(s: string, cls: CharClass)
    ensures forall k :: |s| - Trailing(s, cls) <= k < |s| ==> InClass(s[k], cls)
    decreases |s|
  {
    if |s| > 0 && InClass(s[|s| - 1], cls) {
      TrailingAll(s[..|s| - 1], cls);
    }
  }

  /** `s` without its leading and trailing characters in `cls`. */
  function Trim(s: string, cls: CharClass): (r: string)
    ensures |r| <= |s|
    ensures |r| > 0 ==> !InClass(r[0], cls) && !InClass(r[|r| - 1], cls)
  {
    var t := s[Leading(s, cls)..];
    t[..|t| - Trailing(t, cls)]
  }

  /** The stripped string is a slice of the original: what is cut off lies in the class. */
  lemma TrimSlice(s: string, cls: CharClass)
    ensures var lo := Leading(s, cls);
      && lo + |Trim(s, cls)| <= |s|
      && Trim(s, cls) == s[lo..lo + |Trim(s, cls)|]
      && (forall k :: 0 <= k < lo ==> InClass(s[k], cls))
      && (forall k :: lo + |Trim(s, cls)| <= k < |s| ==> InClass(s[k], cls))
  {
    LeadingAll(s, cls);
    TrimIsSlice(s, cls);
    TrimTail(s, cls);
  }

  lemma TrimIsSlice(s: string, cls: CharClass)
    ensures Leading(s, cls) + |Trim(s, cls)| <= |s|
    ensures Trim(s, cls) == s[Leading(s, cls)..Leading(s, cls) + |Trim(s, cls)|]
  {
    var lo := Leading(s, cls);
    var t := s[lo..];
    assert Trim(s, cls) == t[..|t| - Trailing(t, cls)];
  }

  lemma TrimTail(s: string, cls: CharClass)
    ensures forall k :: Leading(s, cls) + |Trim(s, cls)| <= k < |s| ==> InClass(s[k], cls)
  {
    var lo := Leading(s, cls);
    var t := s[lo..];
    var hi := lo + |Trim(s, cls)|;
    assert hi == |s| - Trailing(t, cls);
    TrailingAll(t, cls);
    forall k | hi <= k < |s|
      ensures InClass(s[k], cls)
    {
      assert s[k] == t[k - lo];
    }
  }

  /** A string whose first and last characters lie outside the class is its own trim. */
  lemma TrimKeeps(s: string, cls: CharClass)
    requires |s| > 0 && !InClass(s[0], cls) && !InClass(s[|s| - 1], cls)
    ensures Trim(s, cls) == s
  {
  }

  /** `s.strip()`: leading and trailing whitespace removed. */
  function Strip(s: string): (r: string)
    ensures |r| <= |s|
    ensures |r| > 0 ==> !IsSpace(r[0]) && !IsSpace(r[|r| - 1])
  {
    Trim(s, Spaces)
  }

  /** A line ending in a newline strips to the line, when the line has no blank ends. */
  lemma StripNewline(s: string)
    requires |s| > 0 && !IsSpace(s[0]) && !IsSpace(s[|s| - 1])
    ensures Strip(s + "\n") == s
  {
    var t := s + "\n";
    assert Leading(t, Spaces) == 0;
    assert t[..|t| - 1] == s;
    assert Trailing(t, Spaces) == 1;
    assert t[0..] == t;
  }

  /** `s.strip('"\'')`: every leading and trailing quote character removed, paired or not. */
  function StripQuotes(s: string): (r: string)
    ensures |r| > 0 ==> !IsQuote(r[0]) && !IsQuote(r[|r| - 1])
  {
    Trim(s, Quotes)
  }

  // ---------------------------------------------------------------------------
  // Replacing

  /** `s.replace(pat, rep)`: non-overlapping occurrences, scanned left to right. */
  function ReplaceAll(s: string, pat: string, rep: string): string
    requires |pat| > 0
    decreases |s|
  {
    if s == [] then s
    else if StartsWith(s, pat) then rep + ReplaceAll(s[|pat|..], pat, rep)
    else [s[0]] + ReplaceAll(s[1..], pat, rep)
  }

  /** A text in which the pattern does not occur is left as it is. */
  lemma {:induction false} ReplaceAbsent(s: string, pat: string, rep: string)
    requires |pat| > 0 && !Contains(s, pat)
    ensures ReplaceAll(s, pat, rep) == s
    decreases |s|
  {
    if s != [] {
      ReplaceAbsent(s[1..], pat, rep);
    }
  }

  // ---------------------------------------------------------------------------
  // Decimal numbers

  /** `str(n)` for a natural number. */
  function NatToString(n: nat): (r: string)
    ensures |r| > 0 && forall k :: 0 <= k < |r| ==> IsDigit(r[k])
    decreases n
  {
    if n < 10 then [DigitChar(n)] else NatToString(n / 10) + [DigitChar(n % 10)]
  }

  /** `str(i)` for an integer. */
  function IntToString(i: int): string
  {
    if i < 0 then "-" + NatToString(-i) else NatToString(i)
  }

  /** Value of a non-empty run of decimal digits, most significant first. */
  function DigitsValue(s: string): nat
    requires forall k :: 0 <= k < |s| ==> IsDigit(s[k])
    decreases |s|
  {
    if s == [] then 0 else DigitsValue(s[..|s| - 1]) * 10 + DigitValue(s[|s| - 1])
  }

  /** The digits of `s` with the underscores taken out. */
  function WithoutUnderscores(s: string): string
    decreases |s|
  {
    if s == [] then []
    else (if s[0] == '_' then [] else [s[0]]) + WithoutUnderscores(s[1..])
  }

  /**
    The body Python's `int()` accepts in base 10: digits, with single
    underscores allowed between two digits.
  */
  predicate ValidDigits(s: string)
  {
    && |s| > 0
    && IsDigit(s[0]) && IsDigit(s[|s| - 1])
    && (forall k :: 0 <= k < |s| ==> IsDigit(s[k]) || s[k] == '_')
    && (forall k :: 0 <= k < |s| - 1 ==> !(s[k] == '_' && s[k + 1] == '_'))
  }

  lemma {:induction false} WithoutUnderscoresDigits(s: string)
    requires forall k :: 0 <= k < |s| ==> IsDigit(s[k]) || s[k] == '_'
    ensures forall j :: 0 <= j < |WithoutUnderscores(s)| ==> IsDigit(WithoutUnderscores(s)[j])
    decreases |s|
  {
    if s != [] {
      WithoutUnderscoresDigits(s[1..]);
    }
  }

  function UnsignedValue(s: string): Option<nat>
  {
    if ValidDigits(s) then
      WithoutUnderscoresDigits(s);
      Some(DigitsValue(WithoutUnderscores(s)))
    else None
  }

  /** Python's `int(s)`: surrounding whitespace, an optional sign, then digits; `None` where Python raises ValueError. */
  function ParseInt(s: string): Option<int>
  {
    var t := Strip(s);
    if |t| > 0 && (t[0] == '+' || t[0] == '-') then
      match UnsignedValue(t[1..])
      case Some(v) => var n: int := v; Some(if t[0] == '-' then -n else n)
      case None => None
    else
      match UnsignedValue(t)
      case Some(v) => Some(v)
      case None => None
  }

  lemma {:induction false} DigitsValueOfNat(n: nat)
    ensures DigitsValue(NatToString(n)) == n
    decreases n
  {
    if n >= 10 {
      DigitsValueOfNat(n / 10);
      var s := NatToString(n);
      assert s[..|s| - 1] == NatToString(n / 10);
    }
  }

  lemma {:induction false} NoUnderscoresInDigits(s: string)
    requires forall k :: 0 <= k < |s| ==> IsDigit(s[k])
    ensures WithoutUnderscores(s) == s
    decreases |s|
  {
    if s != [] {
      NoUnderscoresInDigits(s[1..]);
      assert [s[0]] + s[1..] == s;
    }
  }

  lemma StripDigits(s: string)
    requires |s| > 0 && forall k :: 0 <= k < |s| ==> IsDigit(s[k])
    ensures Strip(s) == s
  {
    TrimKeeps(s, Spaces);
  }

  /** `int(str(n)) == n`: printing a count and parsing it back loses nothing. */
  lemma NatRoundTrip(n: nat)
    ensures ParseInt(NatToString(n)) == Some(n)
  {
    var s := NatToString(n);
    StripDigits(s);
    assert !(s[0] == '+' || s[0] == '-');
    assert ValidDigits(s);
    NoUnderscoresInDigits(s);
    DigitsValueOfNat(n);
  }

  lemma UnsignedOfNat(n: nat)
    ensures UnsignedValue(NatToString(n)) == Some(n)
  {
    var d := NatToString(n);
    assert ValidDigits(d);
    NoUnderscoresInDigits(d);
    DigitsValueOfNat(n);
  }

  /** `int(str(i)) == i` for every integer, negative ones included. */
  lemma IntRoundTrip(i: int)
    ensures ParseInt(IntToString(i)) == Some(i)
  {
    if i >= 0 {
      NatRoundTrip(i);
    } else {
      var d := NatToString(-i);
      var s := "-" + d;
      assert s[|s| - 1] == d[|d| - 1];
      assert Strip(s) == s by {
        TrimKeeps(s, Spaces);
      }
      assert s[1..] == d;
      UnsignedOfNat(-i);
    }
  }

  /** A string with a character outside digits, signs, underscores and whitespace is no integer. */
  lemma ParseIntRejectsLetters(s: string, k: nat)
    requires k < |s| && !IsDigit(s[k]) && !IsSpace(s[k]) && s[k] !in "+-_"
    ensures ParseInt(s) == None
  {
    TrimSlice(s, Spaces);
    var t := Strip(s);
    var off := Leading(s, Spaces);
    assert off <= k;
    assert k - off < |t|;
    assert t[k - off] == s[k];
    if |t| > 0 && (t[0] == '+' || t[0] == '-') {
      assert k - off >= 1;
      assert t[1..][k - off - 1] == s[k];
      assert !ValidDigits(t[1..]);
    } else {
      assert !ValidDigits(t);
    }
  }
}
